=== FILE: README.md ===
# A verified model of the eden test-script engine and subnet helpers

This project models two parts of the eden repository in Dafny:

- **The test-script interpreter** in `tests/escript/go-internal/testscript/testscript.go`:
  - the line tokenizer `parse`;
  - the script environment (`Env.Getenv`, `Env.Setenv`, and the run state's `envMap` with `TestScript.Getenv`/`Setenv`);
  - deferred cleanups (`Defer`);
  - the line loop of `run`: phases, guards `[cond]`/`[!cond]`, negation `!` and command lookup;
  - the log transcript (`rewind`, `markTime`, `Logf`, `removeGHAnnotation`, `addGHAnnotation`);
  - writing updated output back into the script archive (`applyScriptUpdates`);
  - `MkAbs` and `ReadFile`.
- **The address helpers** in `pkg/utils/networking.go`:
  - the candidate subnets 192.168.i.0/24 (`getSubnetByInd`, `getIPByInd`);
  - the search for subnets no host interface uses (`GetSubnetsNotUsed`);
  - the conversions between addresses and numbers (`ipToBigInt`, `bigIntToIP`);
  - the gateway and DHCP range of a network (`GetNetworkIPs`).

Each operation is a pure function, or a method where the source loops. Each one is tied to a reference definition or an invariant by a lemma over all inputs:

- **`parse`** is an index loop, proved equal to a suffix-walking reference tokenizer `Scan`. That reference is characterised three ways:
  - by quote parity, for when a line fails;
  - by a plain whitespace splitter, for lines without quotes or `#`;
  - by a quoting encoder that tokenizes back to any argument vector.
- **The line loop** is generic over its per-line step. It carries no hidden state between blocks of lines, and it records commands in increasing line order. What each kind of line does to the rest of the run (skip it, fail on it, run its command and go on, stop, or fail on the command) is stated line by line against the loop.
- **The end of a run** is given as the full final log: the kept part, stamped, then cleaned and ended in `PASS` unless the run stopped.
- **`applyScriptUpdates`** is proved equal to an order-free reference `Updated`. So Go's random map order cannot change a written archive.
- **`GetSubnetsNotUsed`** returns exactly the first `count` candidates not blocked by a host address, in order. Its loop is proved against a functional enumeration of the free candidates.
- **`GetNetworkIPs`** hands out addresses inside the network, at fixed offsets from the network address. This is stated both bytewise, as `IPNet.Contains` compares, and numerically.

Collaborators are parameters. These are the variable expansion, the condition evaluator, the command implementations, the file system, the archive codec's quoting, and the host's interface addresses. Integers are unbounded: the source uses `int` and `big.Int` only where they do not overflow.

Modules:

- `Wrappers`: `Option` and `Result`.
- `Tokenizer` and `TokenizerProps`: `parse` and its properties.
- `Environ`: the environment.
- `Deferral`: cleanups.
- `Dispatch`: the line loop.
- `Formatting`: Go's `%d`, for line numbers and error texts.
- `Transcript`: the log.
- `ScriptUpdates`: archive updates.
- `Workdir`: paths and files.
- `Bytes`: big-endian numbers, and the byte `&`.
- `IP`: the parts of Go's `net` package the helpers use.
- `Subnets`: the candidate subnets and the search.
- `NetworkIPs`: gateway and DHCP range.

## Model

| member | source | states |
|---|---|---|
| Tokenizer.Parse | tests/escript/go-internal/testscript/testscript.go:894-949 | The index loop over the line returns exactly what the reference tokenizer gives, for every line and every expansion: the same words, or the unterminated-quote error. |
| TokenizerProps.ScanFailsIff | tests/escript/go-internal/testscript/testscript.go:903-919 | From any loop state, tokenizing fails exactly when no `#` outside quotes cuts the text and the text ends inside quotes. The only error is "unterminated quoted argument". |
| TokenizerProps.UnterminatedIff | tests/escript/go-internal/testscript/testscript.go:914-919 | A whole line is rejected exactly when every `#` in it is quoted and it has an odd number of single quotes. |
| TokenizerProps.ScanStopsAtHash | tests/escript/go-internal/testscript/testscript.go:903-913 | From any loop state, an unquoted `#` cuts the text: scanning the whole text gives what scanning the part before the `#` gives. |
| TokenizerProps.CommentEndsLine | tests/escript/go-internal/testscript/testscript.go:903-913 | A line with an unquoted `#` tokenizes like its text before that `#`. |
| TokenizerProps.ScanPlainOpen | tests/escript/go-internal/testscript/testscript.go:903-947 | Text without quotes or `#`, scanned with a word open, finishes that word and then yields the remaining whitespace-separated fields, each expanded once. |
| TokenizerProps.ScanPlainClosed | tests/escript/go-internal/testscript/testscript.go:903-947 | Text without quotes or `#`, scanned between words, adds exactly its whitespace-separated fields, each expanded once. |
| TokenizerProps.PlainLineIsFields | tests/escript/go-internal/testscript/testscript.go:903-947 | A line without quotes or `#` tokenizes to its maximal runs of non-space characters (space, tab, carriage return separate), each passed once through the expansion. |
| TokenizerProps.ScanQuotedBody | tests/escript/go-internal/testscript/testscript.go:920-941 | Inside quotes, text is copied verbatim without expansion, and each doubled `''` stands for one quote, up to the closing quote. |
| TokenizerProps.ScanJoinQuoted | tests/escript/go-internal/testscript/testscript.go:894-949 | Quoted words joined by spaces add exactly those words to the words already found. |
| TokenizerProps.QuotedRoundTrip | tests/escript/go-internal/testscript/testscript.go:894-949 | Any argument vector, each word quoted with its quotes doubled and the words joined by spaces, tokenizes back to exactly that vector. This holds whatever the expansion does to non-empty text. |
| TokenizerProps.DoubledQuoteExample | tests/escript/go-internal/testscript/testscript.go:931-936 | `'a''b'` is the single word `a'b`. |
| TokenizerProps.CommentExample | tests/escript/go-internal/testscript/testscript.go:903-912 | `a # b c` is the single word `a`. |
| TokenizerProps.UnterminatedExample | tests/escript/go-internal/testscript/testscript.go:917-919 | `a 'b` is rejected as unterminated. |
| Environ.IndexOfEq | tests/escript/go-internal/testscript/testscript.go:79 | The split position is the first `=` of the entry, or there is none when the entry has no `=`. |
| Environ.LastDefinition | tests/escript/go-internal/testscript/testscript.go:76-85 | The lookup finds the last entry whose key (the text before its first `=`) is the one asked for, or no entry when none defines it. |
| Environ.Getenv | tests/escript/go-internal/testscript/testscript.go:76-85 | A non-empty answer is the value of an entry that defines the key, and a key no entry defines reads "". |
| Environ.SplitJoined | tests/escript/go-internal/testscript/testscript.go:88-93 | An entry `key=value` written by `Setenv` splits back into that key and value. |
| Environ.GetenvSkipsLast | tests/escript/go-internal/testscript/testscript.go:76-85 | A last entry that does not define the key does not affect its lookup. |
| Environ.ShadowingExample | tests/escript/go-internal/testscript/testscript.go:76-85 | With `X=1` then `X=2`, `X` reads `2`. |
| Environ.Setenv | tests/escript/go-internal/testscript/testscript.go:88-93 | An empty key or one containing `=` is refused (the panic). Otherwise exactly one entry is appended, the key then reads the new value, and every other key reads as before. |
| Environ.SetupEnv | tests/escript/go-internal/testscript/testscript.go:370-375 | The map `setup` builds from the list answers every key as the last-match lookup on the list does. |
| Environ.BuildEnvMapAgrees | tests/escript/go-internal/testscript/testscript.go:370-375 | Walking the list front to back and overwriting earlier keys gives, for each key, the value of its last defining entry. A missing key reads "" in both. |
| Environ.ScriptGetenv | tests/escript/go-internal/testscript/testscript.go:886-888 | A key missing from the map reads "", Go's zero value, and a non-empty answer is the map's value for the key. That the map answers as the list does is stated by `SetupEnv` and `ScriptSetenvKeepsConsistent`. |
| Environ.ScriptSetenv | tests/escript/go-internal/testscript/testscript.go:880-883 | The list gains exactly one entry at its end, the key then reads the new value from the map, and every other key reads as before. |
| Environ.ScriptSetenvKeepsConsistent | tests/escript/go-internal/testscript/testscript.go:880-888 | `TestScript.Setenv` with a key free of `=` keeps the map in agreement with the list, and the key then reads the new value. |
| Environ.ScriptSetenvKeyWithEqualsDisagrees | tests/escript/go-internal/testscript/testscript.go:880-883 | `TestScript.Setenv` does not check its key: after setting `A=B` to `c`, the map reads "" for `A` while the list reads `B=c`. |
| Deferral.Defer | tests/escript/go-internal/testscript/testscript.go:652-658 | Registering a cleanup puts it first among the cleanups the chain will call, ahead of all those registered earlier. |
| Deferral.Invoke | tests/escript/go-internal/testscript/testscript.go:652-658 | Calling the chain calls every pending cleanup in order, even after one panics, and the call panics exactly when one of the cleanups it called aborted. |
| Deferral.RunsInReverse | tests/escript/go-internal/testscript/testscript.go:652-658 | Deferred cleanups run newest first, each exactly once. All of them run even when some panic, and the run panics exactly when one of them did. |
| Deferral.RunsEachOnce | tests/escript/go-internal/testscript/testscript.go:652-658 | The cleanups that run are, as a multiset, the ones registered. |
| Deferral.ReversedSameMultiset | tests/escript/go-internal/testscript/testscript.go:66-72 | Running the cleanups in reverse registration order runs each of them as many times as it was registered. |
| Dispatch.TrimLeftSpec | tests/escript/go-internal/testscript/testscript.go:481 | Left trimming removes exactly the leading Unicode spaces. The rest is a suffix of the input that does not start with a space. |
| Dispatch.TrimRightSpec | tests/escript/go-internal/testscript/testscript.go:481 | Right trimming removes exactly the trailing Unicode spaces. The rest is a prefix of the input that does not end with a space. |
| Dispatch.TrimSpaceSpec | tests/escript/go-internal/testscript/testscript.go:479-490 | The trimmed guard text is the infix of the input left after removing spaces at both ends, and it neither starts nor ends with a space. |
| Dispatch.LeadingGuards | tests/escript/go-internal/testscript/testscript.go:478 | The count covers exactly the maximal run of `[...]` words at the front of the line. |
| Dispatch.ApplyGuards | tests/escript/go-internal/testscript/testscript.go:478-499 | The line proceeds exactly when a word follows the guards and every guard's condition gives what it wants. It then proceeds with the words after the guards. A skipped line has a guard whose condition evaluated and disagreed, and the only fatal reasons are a missing command and a bad or unknown condition. |
| Dispatch.GuardDecides | tests/escript/go-internal/testscript/testscript.go:478-499 | When the guards before it all hold and a word follows it, the first guard that does not get its way decides the line. The wrong answer skips the rest of the line, an evaluator error is fatal as "bad condition", and an unrecognised condition is fatal as unknown. |
| Dispatch.GuardsMissingCommand | tests/escript/go-internal/testscript/testscript.go:478-485 | A line of guards only, whose guards before the last all hold, is fatal with "missing command after condition". The last guard's condition is never consulted. |
| Dispatch.LookupCommand | tests/escript/go-internal/testscript/testscript.go:513-519 | A built-in command wins over an extension with the same name, an extension is found otherwise, and a name in neither table is unknown. |
| Dispatch.ClassifyLine | tests/escript/go-internal/testscript/testscript.go:450-520 | A line is a phase heading exactly when it starts with `#`. Otherwise it is fatal as unterminated exactly when the tokenizer rejects it, and blank exactly when it has no words. |
| Dispatch.ClassifyTokens | tests/escript/go-internal/testscript/testscript.go:468-520 | How a line's words are dispatched: a command runs only after all its guards hold; a line of guards only is fatal; `!` negates and alone is fatal; built-ins shadow extensions; an unknown name is fatal. |
| Dispatch.ClassifyGuards | tests/escript/go-internal/testscript/testscript.go:478-499 | For a line: the first guard that does not get its way makes it `Skipped`, or fatal for a bad or unknown condition, provided a word follows that guard. |
| Dispatch.SplitLinesRoundTrip | tests/escript/go-internal/testscript/testscript.go:439-447 | Cutting the script into lines and joining them with newlines gives the script back, apart from a missing final newline. |
| Dispatch.RejoinAtNewline | tests/escript/go-internal/testscript/testscript.go:443-444 | The line before the first newline, that newline, and the rest give the script back. |
| Dispatch.SplitLinesStep | tests/escript/go-internal/testscript/testscript.go:443-444 | A script that holds a newline yields its first line, then the lines of what follows. |
| Dispatch.LoopAppend | tests/escript/go-internal/testscript/testscript.go:439-530 | For any per-line step that halts only to stop or fail: running two blocks of lines is running the first and, if it reached its end, the second from the state it left, with line numbers continuing. |
| Dispatch.RunLinesAppend | tests/escript/go-internal/testscript/testscript.go:439-530 | The interpreter's loop carries no hidden state between blocks of lines. |
| Dispatch.InertLineContinues | tests/escript/go-internal/testscript/testscript.go:450-499 | A phase line, a blank line or a skipped line changes nothing in the run state, and the loop goes on with the next line. Their log effects are modelled separately (`Transcript.BeginPhase`). |
| Dispatch.StepLine | tests/escript/go-internal/testscript/testscript.go:441-527 | One line runs at most its own command and records it under its own line number. It halts the loop only by stopping early or by a fatal error, on that line. What each kind of line does is stated against the loop by `InertLineContinues`, `FatalLineStops`, `CommandContinues`, `CommandStopsEarly` and `CommandFails`. |
| Dispatch.FatalLineStops | tests/escript/go-internal/testscript/testscript.go:467-519 | A line that is fatal before any command runs (missing command, bad or unknown condition, lone `!`, unknown command, unterminated quote) fails the run on that line, in the state it was reached in, with nothing run. |
| Dispatch.CommandContinues | tests/escript/go-internal/testscript/testscript.go:520-527 | A command that finishes normally is recorded under its line, and the rest of the script runs from the state the command left. |
| Dispatch.CommandStopsEarly | tests/escript/go-internal/testscript/testscript.go:520-526 | A command that stops the script is recorded under its line and ends the loop, with nothing after it run. |
| Dispatch.CommandFails | tests/escript/go-internal/testscript/testscript.go:520 | A command that fails fatally is recorded under its line and fails the run on that line, in the state it left, with nothing after it run. |
| Dispatch.LoopNumbers | tests/escript/go-internal/testscript/testscript.go:439-530 | For any step that numbers its own line: every reported line number lies within the block, commands are recorded in increasing line order, and none after the failing line. |
| Dispatch.RunLines | tests/escript/go-internal/testscript/testscript.go:439-530 | In the interpreter's loop, reported line numbers lie within the lines run. Commands are recorded in increasing line order, and nothing runs after the line that failed. An empty block runs nothing and leaves the state as given. |
| Dispatch.RunScript | tests/escript/go-internal/testscript/testscript.go:439-530 | Run over a whole script, the loop reports line numbers from 1 to the number of lines the script is cut into, records commands in line order, and runs nothing after the failing line. |
| ScriptUpdates.Rewrite | tests/escript/go-internal/testscript/testscript.go:556-572 | Every archive file with the update's name gets the new content. All other files, and the order and names of all files, are unchanged. |
| ScriptUpdates.ApplyOne | tests/escript/go-internal/testscript/testscript.go:555-578 | One update goes through exactly when its file exists and its content can be quoted. An unknown name is the panic; a quoting failure fails the test, naming the file. |
| ScriptUpdates.ApplyInOrder | tests/escript/go-internal/testscript/testscript.go:555-578 | The update loop never adds, drops, renames or reorders files, and a stop names an update it visited. |
| ScriptUpdates.SameNamesHasFile | tests/escript/go-internal/testscript/testscript.go:557-561 | Rewriting contents never changes which names the archive holds. |
| ScriptUpdates.ApplyInOrderSpec | tests/escript/go-internal/testscript/testscript.go:555-578 | Visiting updates in any order goes through exactly when each is applicable. Each named file then holds its encoded content and the rest are unchanged. A stop names an inapplicable update and says which way it failed. |
| ScriptUpdates.ApplyAllSpec | tests/escript/go-internal/testscript/testscript.go:555-578 | Visiting every key of the map gives the order-free reference `Updated`, whenever it goes through. |
| ScriptUpdates.ApplyScriptUpdates | tests/escript/go-internal/testscript/testscript.go:551-554 | Nothing happens exactly when there are no updates. |
| ScriptUpdates.ApplyScriptUpdatesSpec | tests/escript/go-internal/testscript/testscript.go:551-583 | The archive is written exactly when there are updates and all are applicable. It is then the old archive with `Updated` files and the same comment. An abort names an inapplicable update. |
| ScriptUpdates.UpdateOrderIrrelevant | tests/escript/go-internal/testscript/testscript.go:555 | Whether the archive is written, and what is written, do not depend on the order in which the map is visited. |
| Transcript.Rewind | tests/escript/go-internal/testscript/testscript.go:383-387 | A quiet run truncates the log to the mark and a verbose one keeps it. The mark and the phase clock are unchanged. |
| Transcript.MarkTime | tests/escript/go-internal/testscript/testscript.go:390-398 | The phase clock is cleared and the mark stays. |
| Transcript.MarkTimeInserts | tests/escript/go-internal/testscript/testscript.go:390-398 | While a phase is timed, the only change is the elapsed-time stamp inserted before the newline ending the heading. Otherwise nothing changes. |
| Transcript.BeginPhase | tests/escript/go-internal/testscript/testscript.go:450-466 | After a `#` line the phase is timed and the mark sits at the end of the log, just after the heading's newline. |
| Transcript.BeginPhaseKeeps | tests/escript/go-internal/testscript/testscript.go:450-466 | A new phase keeps the log up to the previous heading (all of it when verbose). It stamps the previous heading only when something was logged since the mark, then appends the heading line. |
| Transcript.TrimNewline | tests/escript/go-internal/testscript/testscript.go:669 | Exactly one final newline is removed when there is one, and a text without a final newline is kept. The result ends in a newline only when the text ended in two. |
| Transcript.Logf | tests/escript/go-internal/testscript/testscript.go:668-672 | The old log is kept and the rendered format is written after it, followed by one newline. Only the format loses a final newline; what the arguments render to is kept whole. The mark and clock are unchanged. |
| Transcript.LogfFormatNewline | tests/escript/go-internal/testscript/testscript.go:668-672 | A format written with its final newline logs the same as one written without, and the log grows by the rendered format and one newline. |
| Transcript.LogfStdoutExample | tests/escript/go-internal/testscript/testscript.go:668-672 | `Logf("[stdout]\n%s", out)` with `out` = `hello\n` writes `[stdout]\nhello\n\n`: output that ends in a newline is followed by a blank line. |
| Transcript.EndRun | tests/escript/go-internal/testscript/testscript.go:535-541 | A run that was not stopped ends its log in `PASS` and holds no annotation marker anywhere. |
| Transcript.EndRunText | tests/escript/go-internal/testscript/testscript.go:535-541 | The final log is the kept part of the log (all of it when verbose, up to the mark otherwise), with the elapsed time written into the last heading while that phase is timed. A stopped run ends there. Any other run has its annotation lines removed and `PASS` appended, so a clean log gets `PASS` and nothing else changes. |
| Transcript.ScanLinesSnoc | tests/escript/go-internal/testscript/testscript.go:798-812 | Line scanning a log whose last line is ended, plus one more line, yields the old lines plus that line without its carriage return. |
| Transcript.RemoveGHAnnotation | tests/escript/go-internal/testscript/testscript.go:795-816 | After removal the log contains the annotation marker nowhere, not even across lines, and its last line is ended. |
| Transcript.PassKeepsNoMarker | tests/escript/go-internal/testscript/testscript.go:538-541 | Writing `PASS` after the removal introduces no marker. |
| Transcript.CleanLogUnchanged | tests/escript/go-internal/testscript/testscript.go:795-816 | A log without carriage returns or markers, whose last line is ended, comes through the removal unchanged. |
| Transcript.RemoveGHAnnotationIdempotent | tests/escript/go-internal/testscript/testscript.go:795-816 | Removing annotations twice is removing them once. |
| Transcript.LastIndexOf | tests/escript/go-internal/testscript/testscript.go:832 | The position is an occurrence with no later one, and there is none exactly when the pattern does not occur. |
| Transcript.StdoutTail | tests/escript/go-internal/testscript/testscript.go:832-834 | The reported text is a suffix of the log. When the log holds a newline followed by a `[stdout]` line, the text starts just after that newline, and no such pair occurs later in the text. Otherwise it is the whole log. |
| Transcript.Escape | tests/escript/go-internal/testscript/testscript.go:834-835 | The escaped text has no newline and no carriage return. |
| Transcript.EscapeRoundTrip | tests/escript/go-internal/testscript/testscript.go:834-835 | For text without `%`, reading the escapes back gives the text. |
| Transcript.AnnotationPath | tests/escript/go-internal/testscript/testscript.go:821-830 | When the absolute path has a `/tests/` component, the result is `tests/` followed by what comes after the first such component, with no earlier one. Otherwise it is the script path as given. |
| Transcript.FirstIndexOf | tests/escript/go-internal/testscript/testscript.go:826 | The position is an occurrence with no earlier one, and there is none exactly when the pattern does not occur. |
| Transcript.Annotation | tests/escript/go-internal/testscript/testscript.go:837 | The annotation line starts with the marker and ends with a newline. |
| Transcript.AnnotationLine | tests/escript/go-internal/testscript/testscript.go:820-838 | Without its final newline, the annotation is one line with no newline and no final carriage return, starting with the marker. This holds whatever the log contained. |
| Transcript.AnnotationIsRemoved | tests/escript/go-internal/testscript/testscript.go:795-838 | An annotation written after a log whose last line is ended is exactly what the removal drops. |
| Workdir.MkAbs | tests/escript/go-internal/testscript/testscript.go:851-856 | An absolute path is returned as it is. A relative one is placed under the current directory and ends with the given name, and is absolute when that directory is. |
| Workdir.MkAbsIdempotent | tests/escript/go-internal/testscript/testscript.go:851-856 | Making a path absolute twice is making it absolute once. |
| Workdir.ReadFile | tests/escript/go-internal/testscript/testscript.go:865-878 | `stdout` and `stderr` read the last command's output. |
| Workdir.ReadFileSamePath | tests/escript/go-internal/testscript/testscript.go:865-878 | Any other name is read from the file system at its absolute path, and the relative and absolute names read the same. |
| Subnets.GetSubnetByInd | pkg/utils/networking.go:28-34 | Indexes 0 to 255 give 192.168.ind.0/24. Every other index is an error reading `error in index <ind>`. |
| Subnets.GetIPByInd | pkg/utils/networking.go:36-51 | Indexes 0 to 255 give exactly the two addresses 192.168.ind.10 and 192.168.ind.11, each in the 16-byte form `net.ParseIP` gives. Every other index is an error reading `error in index <ind>`. |
| Subnets.SubnetContains | pkg/utils/networking.go:68-70 | An address lies in candidate `ind` exactly when it is IPv4, in 4- or 16-byte form, and starts 192.168.ind. |
| Subnets.AddressesInSubnet | pkg/utils/networking.go:36-51 | Both addresses handed out lie in their subnet, and neither is a loopback address. |
| Subnets.SubnetsDisjoint | pkg/utils/networking.go:28-34 | Distinct candidates share no address. |
| Subnets.SubnetsArePrivate | pkg/utils/networking.go:32 | Every candidate lies inside 192.168.0.0/16. |
| Subnets.AnyBlocks | pkg/utils/networking.go:66-76 | The inner loop finds a blocking address exactly when some interface address is a non-loopback IPv4 address inside the candidate. |
| Subnets.Examine | pkg/utils/networking.go:62-87 | One round fails only past candidate 255, with the message `error in GetSubnetsNotUsed: error in index 256`. It hands out candidate `cur`, with its subnet and two addresses, exactly when no interface address blocks it. |
| Subnets.FreeBelowSpec | pkg/utils/networking.go:61-88 | The free candidates are exactly those not in use, in increasing order. |
| Subnets.FreeBelowPrefix | pkg/utils/networking.go:61-88 | Searching further never changes the free candidates already found. |
| Subnets.FreeInfosSpec | pkg/utils/networking.go:77-87 | The search hands out one entry per free candidate, for that candidate. |
| Subnets.FreeIsUnblocked | pkg/utils/networking.go:66-87 | No interface address blocks a free candidate. |
| Subnets.HandedOutUnblocked | pkg/utils/networking.go:66-87 | No interface address blocks any of the first free candidates. |
| Subnets.GetSubnetsNotUsed | pkg/utils/networking.go:54-90 | It succeeds exactly when at least `count` candidates are free. It then returns the first `count` free candidates in increasing order, none blocked by an interface address. Past candidate 255 it fails with the message `error in GetSubnetsNotUsed: error in index 256`. |
| Bytes.NatToBytesRoundTrip | pkg/utils/networking.go:141-155 | Reading back the bytes of a number gives the number. |
| Bytes.BytesToNat | pkg/utils/networking.go:141-144 | `k` bytes denote a number below 2^(8k). |
| Bytes.NatToBytesLength | pkg/utils/networking.go:146-155 | A number below 2^(8L) needs at most `L` bytes. |
| Bytes.LeadingZeros | pkg/utils/networking.go:149-153 | Zero bytes padded on the left do not change the number. |
| Bytes.NatToIPSpec | pkg/utils/networking.go:146-155 | Padding keeps the number, and gives exactly `length` bytes when the number fits in them. |
| Bytes.NatToIP | pkg/utils/networking.go:146-155 | The result is never shorter than `length`. When it is longer, it is the number's minimal bytes and starts with a non-zero byte. Otherwise any padding in front is zero bytes. |
| Bytes.BytesToNatInjective | pkg/utils/networking.go:141-144 | Byte sequences of one length that denote the same number are equal. |
| Bytes.IPRoundTrip | pkg/utils/networking.go:141-155 | An address converted to a number and back at its own length is the same address. |
| Bytes.AndIsBitwise | pkg/utils/networking.go:173 | The byte `&` used by masking is the bitwise and of all eight bits. |
| Bytes.AndHighBits | pkg/utils/networking.go:173 | A mask of ones above the lowest `k` bits rounds a number down to a multiple of 2^k. |
| IP.To4OfIPv4 | pkg/utils/networking.go:69 | An address built from four bytes converts back to those four bytes. |
| IP.MaskByteArith | pkg/utils/networking.go:173 | A mask byte with `n` leading ones rounds a byte down to a multiple of 2^(8-n). |
| NetworkIPs.MaskIPIsMasked | pkg/utils/networking.go:173 | Masking an address with its network's own CIDR mask clears exactly the bits past the prefix. |
| NetworkIPs.MaskedValue | pkg/utils/networking.go:173 | The masked address, read as a number, is the address rounded down to a multiple of the block size 2^h. |
| NetworkIPs.InSubnetIff | pkg/utils/networking.go:173-188 | An address of the network's length lies in the network exactly when it is in the same block of 2^h as the network address. |
| NetworkIPs.SameUnderMaskIffMasked | pkg/utils/networking.go:173 | Two addresses agree under the mask exactly when their masked forms are equal. |
| NetworkIPs.NetworkFits | pkg/utils/networking.go:182-184 | The network address plus the block size still fits in the address width. |
| NetworkIPs.GetNetworkIPs | pkg/utils/networking.go:165-170 | A network with fewer than two host bits is refused, and any other network gets addresses. |
| NetworkIPs.GetNetworkIPsOffsets | pkg/utils/networking.go:172-189 | The gateway, DHCP start and DHCP end are the network address plus one, plus two, and plus the block size less two. |
| NetworkIPs.OffsetFacts | pkg/utils/networking.go:186-188 | An offset inside the block converts back at the network's length, keeps its value, and lies in the network. |
| NetworkIPs.GetNetworkIPsSpec | pkg/utils/networking.go:157-190 | All three addresses have the network's length and lie in the network. The gateway follows the network address and the DHCP start follows the gateway. The DHCP end is the broadcast address less one and is not below the start. |

## Left out

- Subprocess execution, background commands, `exec`/`wait`, the built-in command table and the condition built-ins are left out. The loop takes them as parameters: command execution, the command tables and a condition evaluator over an abstract run state.
- Variable expansion (`os.Expand` over the environment) is a parameter of the tokenizer. The round-trip lemmas assume only that it maps "" to "", which `os.Expand` does.
- `envvarname` is taken as the identity, which is what it does outside Windows.
- The echo of each command line to the log and stdout (lines 473-475), and the `FAIL:` line and `FailNow` of `Fatalf`, are not threaded through the line loop. A fatal line is reported as a reason with the message text `Fatalf` prints, and the transcript operations are modelled on their own.
- Time is left out: the elapsed-time text of `markTime` is a parameter.
- Go's `%q` quoting in messages is shown as plain double quotes around the text, without Go's escaping of special characters inside.
- The archive format (`txtar.NeedsQuote`, `txtar.Quote`, `txtar.Format`) is a parameter. Writing the archive to disk is left out, and so is the final `Logf`. The result is the archive that would be written.
- `setup` beyond building `envMap`, `RunT`, the work directory, `Check` and `Value` are not modelled. Nor are `BackgroundCmds` and the process helpers.
- `bufio.Scanner`'s token size limit (1 MiB) is left out. A longer line would make the source exit, and the model scans it like any other.
- Paths are Unix paths. `filepath.Join` also cleans the path (removing `.`, `..` and doubled slashes), and `filepath.Abs` resolves against the process's directory. The model joins with one `/` and takes the absolute script path as a parameter.
- Workdir.MkAbs: states the join without the cleaning `filepath.Join` does, for the reason above.
- Transcript.AnnotationPath: joins `tests/` and the rest of the path without the cleaning `filepath.Join` does, for the reason above.
- Transcript.EscapeRoundTrip: holds only for text without `%`, because the two replacements do not escape `%` itself and so are not invertible in general.
- Transcript.RemoveGHAnnotationIdempotent: stated for logs without carriage returns, because the scanner strips a carriage return before each newline and a second pass can then strip another.
- Transcript.Logf: `fmt` formatting is a parameter (`render`), applied to the format with its final newline removed. Verbs and arguments are not modelled.
- `net.InterfaceAddrs` is a parameter (the host's addresses), and its error return is left out.
- `net.ParseCIDR` and `net.ParseIP` parsing of text is left out. The model starts from the values they produce for the texts the source builds (a 4-byte network, 16-byte addresses), and `GetNetworkIPs` starts from a parsed 4- or 16-byte address and its prefix length.
- The network number is computed bytewise (`NetworkIPs.Masked`). `NetworkIPs.MaskIPIsMasked` proves this equal to `IP.Mask` with the network's CIDR mask.
- The rest of `networking.go` (Docker networks, URLs, downloads, free ports) and the context files `eve.go` and `adam.go` are not part of this model.

=== FILE: bytes.dfy ===
/** Addresses as numbers (`ipToBigInt` and `bigIntToIP` in
    pkg/utils/networking.go), and the arithmetic facts about them that the
    address computations rest on.

    An address is a big-endian sequence of bytes. `big.Int.SetBytes` reads
    such a sequence as a natural number; `big.Int.Bytes` writes a natural
    number as the shortest such sequence (none at all for zero). */
module Bytes {

  /** A Go `byte`. */
  type byte = x: int | 0 <= x < 256

  function Pow2(n: nat): (r: nat)
    ensures r >= 1
  {
    if n == 0 then 1 else 2 * Pow2(n - 1)
  }

  lemma {:induction false} Pow2Add(a: nat, b: nat)
    ensures Pow2(a + b) == Pow2(a) * Pow2(b)
    decreases a
  {
    if a > 0 {
      Pow2Add(a - 1, b);
      assert Pow2(a + b) == 2 * Pow2(a - 1 + b);
    }
  }

  lemma Pow2Eight()
    ensures Pow2(8) == 256
  {
    Pow2Table();
  }

  lemma Pow2Table()
    ensures Pow2(0) == 1 && Pow2(1) == 2 && Pow2(2) == 4 && Pow2(3) == 8 && Pow2(4) == 16
    ensures Pow2(5) == 32 && Pow2(6) == 64 && Pow2(7) == 128 && Pow2(8) == 256
  {
    assert Pow2(1) == 2;
    assert Pow2(2) == 4;
    assert Pow2(3) == 8;
    assert Pow2(4) == 16;
    assert Pow2(5) == 32;
    assert Pow2(6) == 64;
    assert Pow2(7) == 128;
  }

  /** Division with remainder has one answer. */
  lemma DivModUnique(a: int, d: int, q: int, r: int)
    requires d > 0 && 0 <= r < d && a == q * d + r
    ensures a / d == q && a % d == r
  {
    var q', r' := a / d, a % d;
    assert q' * d + r' == a;
    assert (q - q') * d == r' - r;
    if q > q' {
      MulAtLeast(q - q', d);
    } else if q < q' {
      MulAtLeast(q' - q, d);
    }
  }

  lemma MulAtLeast(k: int, d: int)
    requires k >= 1 && d > 0
    ensures k * d >= d
  {
    assert k * d == (k - 1) * d + d;
  }

  /** `SetBytes`: the number a big-endian byte sequence denotes. */
  function BytesToNat(bs: seq<byte>): (r: nat)
    ensures r < Pow2(8 * |bs|)
    decreases |bs|
  {
    if |bs| == 0 then 0
    else
      var init := bs[..|bs| - 1];
      Pow2Add(8 * (|bs| - 1), 8);
      Pow2Eight();
      BoundStep(BytesToNat(init), bs[|bs| - 1], Pow2(8 * (|bs| - 1)), Pow2(8 * |bs|));
      BytesToNat(init) * 256 + bs[|bs| - 1]
  }

  /** `Bytes`: the shortest big-endian sequence for `n`. */
  function NatToBytes(n: nat): (r: seq<byte>)
    ensures |r| == 0 || r[0] != 0
    ensures n == 0 <==> |r| == 0
  {
    if n == 0 then [] else NatToBytes(n / 256) + [n % 256]
  }

  function Zeros(k: nat): (r: seq<byte>)
    ensures |r| == k && forall j | 0 <= j < k :: r[j] == 0
  {
    seq(k, _ => 0)
  }

  /** `bigIntToIP`: the number's bytes, padded on the left with zeros to
      `length` when they are fewer. */
  function NatToIP(n: nat, length: nat): (r: seq<byte>)
    ensures |r| >= length
    ensures |r| > length ==> r == NatToBytes(n) && r[0] != 0
    ensures |r| == length && length > |NatToBytes(n)| ==> r[..length - |NatToBytes(n)|] == Zeros(length - |NatToBytes(n)|)
  {
    var b := NatToBytes(n);
    if |b| < length then Zeros(length - |b|) + b else b
  }

  /** `SetBytes` undoes `Bytes`. */
  lemma {:induction false} NatToBytesRoundTrip(n: nat)
    ensures BytesToNat(NatToBytes(n)) == n
  {
    if n > 0 {
      NatToBytesRoundTrip(n / 256);
      var b := NatToBytes(n);
      assert b[..|b| - 1] == NatToBytes(n / 256);
    }
  }

  /** One more byte multiplies the bound by 256. */
  lemma BoundStep(i: int, b: int, p: int, q: int)
    requires 0 <= i < p && 0 <= b < 256 && q == p * 256
    ensures i * 256 + b < q
  {
    assert (p - i) * 256 >= 256;
  }

  /** Leading zero bytes do not change the number. */
  lemma {:induction false} LeadingZeros(k: nat, bs: seq<byte>)
    ensures BytesToNat(Zeros(k) + bs) == BytesToNat(bs)
    decreases |bs|
  {
    if |bs| == 0 {
      assert Zeros(k) + bs == Zeros(k);
      ZerosDenoteZero(k);
    } else {
      var init := bs[..|bs| - 1];
      assert (Zeros(k) + bs)[..|Zeros(k) + bs| - 1] == Zeros(k) + init;
      LeadingZeros(k, init);
    }
  }

  lemma {:induction false} ZerosDenoteZero(k: nat)
    ensures BytesToNat(Zeros(k)) == 0
  {
    if k > 0 {
      assert Zeros(k)[..k - 1] == Zeros(k - 1);
      ZerosDenoteZero(k - 1);
    }
  }

  /** A number below 2^(8L) needs at most `L` bytes. */
  lemma {:induction false} NatToBytesLength(n: nat, length: nat)
    requires n < Pow2(8 * length)
    ensures |NatToBytes(n)| <= length
  {
    if n > 0 {
      assert length > 0;
      Pow2Add(8 * (length - 1), 8);
      Pow2Eight();
      NatToBytesLength(n / 256, length - 1);
    }
  }

  /** `bigIntToIP` keeps the number, and gives exactly `length` bytes for
      a number that fits in them. */
  lemma NatToIPSpec(n: nat, length: nat)
    ensures BytesToNat(NatToIP(n, length)) == n
    ensures n < Pow2(8 * length) ==> |NatToIP(n, length)| == length
  {
    NatToBytesRoundTrip(n);
    var b := NatToBytes(n);
    if |b| < length {
      LeadingZeros(length - |b|, b);
    }
    if n < Pow2(8 * length) {
      NatToBytesLength(n, length);
    }
  }

  /** Two byte sequences of one length that denote the same number are the
      same. */
  lemma {:induction false} BytesToNatInjective(a: seq<byte>, b: seq<byte>)
    requires |a| == |b| && BytesToNat(a) == BytesToNat(b)
    ensures a == b
    decreases |a|
  {
    if |a| > 0 {
      var ia, ib := a[..|a| - 1], b[..|b| - 1];
      DivModUnique(BytesToNat(a), 256, BytesToNat(ia), a[|a| - 1]);
      DivModUnique(BytesToNat(b), 256, BytesToNat(ib), b[|b| - 1]);
      BytesToNatInjective(ia, ib);
      assert a == ia + [a[|a| - 1]] && b == ib + [b[|b| - 1]];
    }
  }

  /** A fixed-width address survives the trip through a number:
      `bigIntToIP(ipToBigInt(ip), len(ip)) == ip`. */
  lemma IPRoundTrip(bs: seq<byte>)
    ensures NatToIP(BytesToNat(bs), |bs|) == bs
  {
    var n := BytesToNat(bs);
    NatToIPSpec(n, |bs|);
    BytesToNatInjective(NatToIP(n, |bs|), bs);
  }
  // ---------------------------------------------------------------------
  // Bitwise and.

  /** The bitwise and of the lowest `w` bits of `a` and `b`. */
  function AndBits(a: nat, b: nat, w: nat): (r: nat)
    ensures r < Pow2(w)
  {
    if w == 0 then 0
    else 2 * AndBits(a / 2, b / 2, w - 1) + (if a % 2 == 1 && b % 2 == 1 then 1 else 0)
  }

  /** Go's `&` on bytes (with the all-ones and all-zeros masks written
      out, which `AndIsBitwise` shows agree with the bitwise definition). */
  function And(a: byte, b: byte): byte {
    if b == 255 then a
    else if b == 0 then 0
    else
      assert Pow2(8) == 256 by {
        Pow2Eight();
      }
      AndBits(a, b, 8)
  }

  /** A mask `m` of ones above the lowest `k` of `w` bits keeps the number
      rounded down to a multiple of 2^k. */
  lemma {:induction false} AndHighBits(a: nat, w: nat, k: nat, m: nat)
    requires a < Pow2(w) && k <= w && m + Pow2(k) == Pow2(w)
    ensures AndBits(a, m, w) == a - a % Pow2(k)
    decreases w
  {
    if w > 0 {
      var hw := Pow2(w - 1);
      assert Pow2(w) == 2 * hw;
      if k == 0 {
        assert Pow2(k) == 1;
        DivModUnique(m, 2, hw - 1, 1);
        AndHighBits(a / 2, w - 1, 0, hw - 1);
      } else {
        var hk := Pow2(k - 1);
        assert Pow2(k) == 2 * hk;
        DivModUnique(m, 2, hw - hk, 0);
        AndHighBits(a / 2, w - 1, k - 1, hw - hk);
        ModDouble(a, hk);
      }
    }
  }

  /** The remainder by `2p`, from the last bit and the remainder of the rest
      by `p`. */
  lemma ModDouble(a: nat, p: nat)
    requires p > 0
    ensures a % (2 * p) == a % 2 + 2 * ((a / 2) % p)
  {
    var q, r := (a / 2) / p, (a / 2) % p;
    assert a / 2 == q * p + r;
    assert a == q * (2 * p) + (2 * r + a % 2);
    DivModUnique(a, 2 * p, q, 2 * r + a % 2);
  }

  /** `And` is the bitwise and of all eight bits. */
  lemma AndIsBitwise(a: byte, b: byte)
    ensures And(a, b) == AndBits(a, b, 8)
  {
    Pow2Table();
    if b == 255 {
      AndHighBits(a, 8, 0, 255);
    } else if b == 0 {
      AndHighBits(a, 8, 8, 0);
    }
  }
}

=== FILE: deferral.dfy ===
/** Deferred cleanups of a script run (`TestScript.Defer` and `Env.Defer`).

    The source keeps one closure. Registering `f` replaces the closure `old`
    with a new closure that calls `f` and then, through Go's `defer`, calls
    `old`. So `old` runs even when `f` panics or aborts the test, and the
    abort then carries on. A run starts with the empty closure. */
module Deferral {

  /** The closure chain: `Wrap(f, earlier)` is the closure that runs `f` and then
      the deferred `earlier`. */
  datatype Chain<A> = Noop | Wrap(f: A, earlier: Chain<A>)

  /** The outcome of running a chain: the cleanups in the order they ran and
      whether the run ended in a panic. */
  datatype Run<A> = Run(trace: seq<A>, panicked: bool)

  /** The cleanups a chain will call, in the order it calls them. */
  function Pending<A>(c: Chain<A>): seq<A> {
    match c
    case Noop => []
    case Wrap(f, earlier) => [f] + Pending(earlier)
  }

  /** `Defer(f)`: wrap the current chain. The new cleanup is called first,
      before all those registered earlier. */
  function Defer<A>(c: Chain<A>, f: A): (r: Chain<A>)
    ensures Pending(r) == [f] + Pending(c)
  {
    Wrap(f, c)
  }

  /** Calling the chain. `aborts(f)` says whether cleanup `f` panics (or
      fails the test); the deferred rest of the chain runs either way. */
  function Invoke<A>(c: Chain<A>, aborts: A -> bool): (r: Run<A>)
    ensures r.trace == Pending(c)
    ensures r.panicked <==> exists i | 0 <= i < |r.trace| :: aborts(r.trace[i])
  {
    match c
    case Noop => Run([], false)
    case Wrap(f, earlier) =>
      var rest := Invoke(earlier, aborts);
      var trace := [f] + rest.trace;
      assert trace[0] == f;
      assert forall i | 0 <= i < |rest.trace| :: trace[i + 1] == rest.trace[i];
      assert rest.panicked ==> exists i | 0 <= i < |trace| :: aborts(trace[i]) by {
        if rest.panicked {
          var i :| 0 <= i < |rest.trace| && aborts(rest.trace[i]);
          assert aborts(trace[i + 1]);
        }
      }
      assert (exists i | 0 <= i < |trace| :: aborts(trace[i])) ==> aborts(f) || rest.panicked by {
        if exists i | 0 <= i < |trace| :: aborts(trace[i]) {
          var i :| 0 <= i < |trace| && aborts(trace[i]);
          if i > 0 {
            assert aborts(rest.trace[i - 1]);
          }
        }
      }
      Run(trace, aborts(f) || rest.panicked)
  }

  /** The chain after registering `fs` in order, starting from the empty
      closure a run begins with. */
  function DeferAll<A>(fs: seq<A>): Chain<A> {
    if |fs| == 0 then Noop else Defer(DeferAll(fs[..|fs| - 1]), fs[|fs| - 1])
  }

  /** Cleanups run newest first, each exactly once, and all of them run even
      when some abort; the run ends in a panic exactly when one of them
      aborted. */
  lemma {:induction false} RunsInReverse<A>(fs: seq<A>, aborts: A -> bool)
    ensures var r := Invoke(DeferAll(fs), aborts);
            && |r.trace| == |fs|
            && (forall i | 0 <= i < |fs| :: r.trace[i] == fs[|fs| - 1 - i])
            && (r.panicked <==> exists i | 0 <= i < |fs| :: aborts(fs[i]))
  {
    if |fs| > 0 {
      var init := fs[..|fs| - 1];
      RunsInReverse(init, aborts);
      var r := Invoke(DeferAll(fs), aborts);
      var r0 := Invoke(DeferAll(init), aborts);
      assert r.trace == [fs[|fs| - 1]] + r0.trace;
      forall i | 0 <= i < |fs|
        ensures r.trace[i] == fs[|fs| - 1 - i]
      {
        if i > 0 {
          assert r.trace[i] == r0.trace[i - 1] == init[|init| - 1 - (i - 1)];
        }
      }
      if r.panicked {
        if aborts(fs[|fs| - 1]) {
        } else {
          var j :| 0 <= j < |init| && aborts(init[j]);
          assert fs[j] == init[j];
        }
      }
      if exists i | 0 <= i < |fs| :: aborts(fs[i]) {
        var i :| 0 <= i < |fs| && aborts(fs[i]);
        if i < |fs| - 1 {
          assert init[i] == fs[i];
        }
      }
    }
  }

  /** Each registered cleanup runs exactly as many times as it was
      registered. */
  lemma RunsEachOnce<A>(fs: seq<A>, aborts: A -> bool)
    ensures multiset(Invoke(DeferAll(fs), aborts).trace) == multiset(fs)
  {
    RunsInReverse(fs, aborts);
    ReversedSameMultiset(fs, Invoke(DeferAll(fs), aborts).trace);
  }

  lemma {:induction false} ReversedSameMultiset<A>(fs: seq<A>, rs: seq<A>)
    requires |rs| == |fs|
    requires forall i | 0 <= i < |fs| :: rs[i] == fs[|fs| - 1 - i]
    ensures multiset(rs) == multiset(fs)
    decreases |fs|
  {
    if |fs| > 0 {
      var init := fs[..|fs| - 1];
      ReversedSameMultiset(init, rs[1..]);
      assert rs == [fs[|fs| - 1]] + rs[1..];
      assert fs == init + [fs[|fs| - 1]];
    }
  }
}

=== FILE: dispatch.dfy ===
/** The interpreter's line loop (`run` in testscript.go): the script is cut
    into lines; a `#` line starts a phase; a line that tokenizes to nothing is
    skipped; otherwise leading `[cond]`/`[!cond]` guards are checked, a
    leading `!` negates the command, and the command is looked up in the
    built-in table and then in the extension table.

    Condition evaluation, variable expansion and the commands themselves are
    parameters over an abstract run state `S`. */
module Dispatch {
  import opened Wrappers
  import Tokenizer

  // ---------------------------------------------------------------------
  // Go's strings.TrimSpace.

  /** `unicode.IsSpace`: the Latin-1 spaces and the other Unicode White_Space
      characters. */
  predicate IsUnicodeSpace(c: char) {
    || c == '\t' || c == '\n' || c == '\U{000B}' || c == '\U{000C}' || c == '\r' || c == ' '
    || c == '\U{0085}' || c == '\U{00A0}' || c == '\U{1680}'
    || ('\U{2000}' <= c <= '\U{200A}')
    || c == '\U{2028}' || c == '\U{2029}' || c == '\U{202F}' || c == '\U{205F}' || c == '\U{3000}'
  }

  function TrimLeft(s: string): string {
    if |s| > 0 && IsUnicodeSpace(s[0]) then TrimLeft(s[1..]) else s
  }

  function TrimRight(s: string): string {
    if |s| > 0 && IsUnicodeSpace(s[|s| - 1]) then TrimRight(s[..|s| - 1]) else s
  }

  /** `strings.TrimSpace`. */
  function TrimSpace(s: string): string {
    TrimRight(TrimLeft(s))
  }

  lemma {:induction false} TrimLeftSpec(s: string)
    ensures |TrimLeft(s)| <= |s| && TrimLeft(s) == s[|s| - |TrimLeft(s)|..]
    ensures forall i | 0 <= i < |s| - |TrimLeft(s)| :: IsUnicodeSpace(s[i])
    ensures |TrimLeft(s)| > 0 ==> !IsUnicodeSpace(TrimLeft(s)[0])
    decreases |s|
  {
    if |s| > 0 && IsUnicodeSpace(s[0]) {
      TrimLeftSpec(s[1..]);
    }
  }

  lemma {:induction false} TrimRightSpec(s: string)
    ensures |TrimRight(s)| <= |s| && TrimRight(s) == s[..|TrimRight(s)|]
    ensures forall i | |TrimRight(s)| <= i < |s| :: IsUnicodeSpace(s[i])
    ensures |TrimRight(s)| > 0 ==> !IsUnicodeSpace(TrimRight(s)[|TrimRight(s)| - 1])
    decreases |s|
  {
    if |s| > 0 && IsUnicodeSpace(s[|s| - 1]) {
      TrimRightSpec(s[..|s| - 1]);
    }
  }

  /** `TrimSpace(s)` is the infix of `s` left after removing spaces at both
      ends, and it neither starts nor ends with a space. */
  lemma TrimSpaceSpec(s: string)
    ensures exists i, j | 0 <= i <= j <= |s| :: TrimSpace(s) == s[i..j]
              && (forall k | 0 <= k < i :: IsUnicodeSpace(s[k]))
              && (forall k | j <= k < |s| :: IsUnicodeSpace(s[k]))
    ensures |TrimSpace(s)| > 0 ==> !IsUnicodeSpace(TrimSpace(s)[0]) && !IsUnicodeSpace(TrimSpace(s)[|TrimSpace(s)| - 1])
  {
    var l := TrimLeft(s);
    TrimLeftSpec(s);
    TrimRightSpec(l);
    var r := TrimRight(l);
    var i := |s| - |l|;
    var j := i + |r|;
    assert r == s[i..j];
    assert forall k | 0 <= k < i :: IsUnicodeSpace(s[k]);
    forall k | j <= k < |s|
      ensures IsUnicodeSpace(s[k])
    {
      assert s[k] == l[k - i];
    }
    assert TrimSpace(s) == r;
  }

  // ---------------------------------------------------------------------
  // Guards.

  /** The answer of the condition evaluator: a truth value, an error, or a
      condition no evaluator recognises. */
  datatype CondResult = Holds(b: bool) | CondError(err: string) | CondUnknown

  /** Why a line is fatal. */
  datatype FatalReason =
    | Unterminated
    | MissingCommand
    | BadCondition(cond: string, err: string)
    | UnknownCondition(cond: string)
    | BangAlone
    | UnknownCommand(name: string)
    | CommandFailed(msg: string)

  /** The message the source's `Fatalf` call prints for each reason (Go's
      `%q` is shown as plain double quotes). */
  function Message(r: FatalReason): string {
    match r
    case Unterminated => Tokenizer.UnterminatedQuote
    case MissingCommand => "missing command after condition"
    case BadCondition(c, e) => "bad condition \"" + c + "\": " + e
    case UnknownCondition(c) => "unknown condition \"" + c + "\""
    case BangAlone => "! on line by itself"
    case UnknownCommand(n) => "unknown command \"" + n + "\""
    case CommandFailed(m) => m
  }

  /** A word of the form `[...]`. */
  predicate IsGuard(w: string) {
    |w| > 0 && w[0] == '[' && w[|w| - 1] == ']'
  }

  /** The condition a guard wants to hold (`[c]`) or not to hold (`[!c]`). */
  function GuardWant(w: string): bool
    requires IsGuard(w)
  {
    var c := TrimSpace(w[1..|w| - 1]);
    !(|c| > 0 && c[0] == '!')
  }

  /** The name of the condition a guard tests. */
  function GuardName(w: string): string
    requires IsGuard(w)
  {
    var c := TrimSpace(w[1..|w| - 1]);
    if |c| > 0 && c[0] == '!' then TrimSpace(c[1..]) else c
  }

  /** The guard's condition evaluated and agreeing with what it wants. */
  predicate GuardHolds(w: string, cond: string -> CondResult)
    requires IsGuard(w)
  {
    cond(GuardName(w)) == Holds(GuardWant(w))
  }

  /** Number of guard words at the front of `args`. */
  function LeadingGuards(args: seq<string>): (n: nat)
    ensures n <= |args|
    ensures forall i | 0 <= i < n :: IsGuard(args[i])
    ensures n < |args| ==> !IsGuard(args[n])
  {
    if |args| > 0 && IsGuard(args[0]) then 1 + LeadingGuards(args[1..]) else 0
  }

  datatype GuardOutcome = Proceed(rest: seq<string>) | SkipLine | GuardFatal(reason: FatalReason)

  /** The guard loop of `run`: each guard in turn; a guard with nothing after
      it is fatal before its condition is evaluated; an evaluator error is
      fatal; a guard that does not get what it wants skips the line. */
  function ApplyGuards(args: seq<string>, cond: string -> CondResult): (r: GuardOutcome)
    requires |args| > 0
    ensures r.Proceed? <==>
              LeadingGuards(args) < |args| && forall i | 0 <= i < LeadingGuards(args) :: GuardHolds(args[i], cond)
    ensures r.Proceed? ==> r.rest == args[LeadingGuards(args)..]
    ensures r.SkipLine? ==> exists i | 0 <= i < LeadingGuards(args) ::
                              cond(GuardName(args[i])).Holds? && !GuardHolds(args[i], cond)
    ensures r.GuardFatal? ==> r.reason.MissingCommand? || r.reason.BadCondition? || r.reason.UnknownCondition?
    decreases |args|
  {
    if !IsGuard(args[0]) then Proceed(args)
    else if |args| == 1 then GuardFatal(MissingCommand)
    else
      var name := GuardName(args[0]);
      match cond(name)
      case CondError(e) => GuardFatal(BadCondition(name, e))
      case CondUnknown => GuardFatal(UnknownCondition(name))
      case Holds(ok) =>
        if ok != GuardWant(args[0]) then SkipLine
        else
          var r := ApplyGuards(args[1..], cond);
          assert forall i | 0 <= i < |args| - 1 :: args[1..][i] == args[i + 1];
          r
  }

  /** The first guard that does not get its way decides the line, provided
      a word follows it: an answer other than the wanted one skips the rest
      of the line, an evaluator error is fatal as a bad condition, and a
      condition the evaluator does not know is fatal as unknown. */
  lemma {:induction false} GuardDecides(args: seq<string>, cond: string -> CondResult, k: nat)
    requires k < LeadingGuards(args) && k + 1 < |args|
    requires forall i | 0 <= i < k :: GuardHolds(args[i], cond)
    ensures cond(GuardName(args[k])) == Holds(!GuardWant(args[k])) ==> ApplyGuards(args, cond) == SkipLine
    ensures cond(GuardName(args[k])).CondError? ==>
              ApplyGuards(args, cond) == GuardFatal(BadCondition(GuardName(args[k]), cond(GuardName(args[k])).err))
    ensures cond(GuardName(args[k])) == CondUnknown ==>
              ApplyGuards(args, cond) == GuardFatal(UnknownCondition(GuardName(args[k])))
    decreases k
  {
    if k > 0 {
      assert GuardHolds(args[0], cond);
      var tail := args[1..];
      assert forall i | 0 <= i < |tail| :: tail[i] == args[i + 1];
      GuardDecides(tail, cond, k - 1);
    }
  }

  // ---------------------------------------------------------------------
  // One line.

  /** What one line does. */
  datatype LineAction<C> =
    | PhaseMarker(heading: string)
    | Blank
    | Skipped
    | Fatal(reason: FatalReason)
    | Invoke(cmd: C, neg: bool, args: seq<string>)

  /** The built-in table first, then the extension table. */
  function LookupCommand<C>(name: string, builtins: map<string, C>, exts: map<string, C>): (r: Option<C>)
    ensures name in builtins ==> r == Some(builtins[name])
    ensures name !in builtins && name in exts ==> r == Some(exts[name])
    ensures r.None? <==> name !in builtins && name !in exts
  {
    if name in builtins then Some(builtins[name])
    else if name in exts then Some(exts[name])
    else None
  }

  /** The classification of one line of script text. */
  function ClassifyLine<C>(line: string, expand: string -> string, cond: string -> CondResult,
                           builtins: map<string, C>, exts: map<string, C>): (r: LineAction<C>)
    ensures r.PhaseMarker? <==> |line| > 0 && line[0] == '#'
    ensures r.PhaseMarker? ==> r.heading == line
    ensures r == Fatal(Unterminated) <==> !(|line| > 0 && line[0] == '#') && Tokenizer.Tokenize(line, expand).Err?
    ensures r.Blank? <==> !(|line| > 0 && line[0] == '#') && Tokenizer.Tokenize(line, expand) == Ok([])
  {
    if |line| > 0 && line[0] == '#' then PhaseMarker(line)
    else
      match Tokenizer.Tokenize(line, expand)
      case Err(_) => Fatal(Unterminated)
      case Ok(args) =>
        if |args| == 0 then Blank
        else
          match ApplyGuards(args, cond)
          case GuardFatal(reason) => Fatal(reason)
          case SkipLine => Skipped
          case Proceed(words) =>
            var neg := words[0] == "!";
            var cmdWords := if neg then words[1..] else words;
            if |cmdWords| == 0 then Fatal(BangAlone)
            else
              match LookupCommand(cmdWords[0], builtins, exts)
              case None => Fatal(UnknownCommand(cmdWords[0]))
              case Some(c) => Invoke(c, neg, cmdWords[1..])
  }

  /** How a line's tokens are dispatched, stated word by word: which table a
      command comes from, what a leading `!` does, and when a line is fatal. */
  lemma ClassifyTokens<C>(line: string, expand: string -> string, cond: string -> CondResult,
                          builtins: map<string, C>, exts: map<string, C>, args: seq<string>)
    requires !(|line| > 0 && line[0] == '#')
    requires Tokenizer.Tokenize(line, expand) == Ok(args) && |args| > 0
    ensures var a := ClassifyLine(line, expand, cond, builtins, exts);
            var n := LeadingGuards(args);
            && (a.Invoke? ==> n < |args| && forall i | 0 <= i < n :: GuardHolds(args[i], cond))
            && ((n == |args| && forall i | 0 <= i < n - 1 :: GuardHolds(args[i], cond))
                  ==> a == Fatal(MissingCommand))
            && (n < |args| && (forall i | 0 <= i < n :: GuardHolds(args[i], cond)) ==>
                  var words := args[n..];
                  var neg := words[0] == "!";
                  var cmdWords := if neg then words[1..] else words;
                  && (|cmdWords| == 0 ==> a == Fatal(BangAlone))
                  && (|cmdWords| > 0 && cmdWords[0] in builtins ==>
                        a == Invoke(builtins[cmdWords[0]], neg, cmdWords[1..]))
                  && (|cmdWords| > 0 && cmdWords[0] !in builtins && cmdWords[0] in exts ==>
                        a == Invoke(exts[cmdWords[0]], neg, cmdWords[1..]))
                  && (|cmdWords| > 0 && cmdWords[0] !in builtins && cmdWords[0] !in exts ==>
                        a == Fatal(UnknownCommand(cmdWords[0]))))
  {
    var n := LeadingGuards(args);
    if n == |args| && (forall i | 0 <= i < n - 1 :: GuardHolds(args[i], cond)) {
      GuardsMissingCommand(args, cond);
    }
  }

  /** With only guards on the line, the line is fatal as soon as the last
      guard is reached, whatever its condition would say. */
  lemma {:induction false} GuardsMissingCommand(args: seq<string>, cond: string -> CondResult)
    requires |args| > 0 && LeadingGuards(args) == |args|
    requires forall i | 0 <= i < |args| - 1 :: GuardHolds(args[i], cond)
    ensures ApplyGuards(args, cond) == GuardFatal(MissingCommand)
    decreases |args|
  {
    if |args| > 1 {
      assert GuardHolds(args[0], cond);
      assert forall i | 0 <= i < |args| - 2 :: args[1..][i] == args[i + 1];
      GuardsMissingCommand(args[1..], cond);
    }
  }

  /** `GuardDecides` for a line: the first guard that does not get its way
      makes the line `Skipped`, or fatal for a bad or unknown condition. */
  lemma ClassifyGuards<C>(line: string, expand: string -> string, cond: string -> CondResult,
                          builtins: map<string, C>, exts: map<string, C>, args: seq<string>, k: nat)
    requires !(|line| > 0 && line[0] == '#')
    requires Tokenizer.Tokenize(line, expand) == Ok(args)
    requires k < LeadingGuards(args) && k + 1 < |args|
    requires forall i | 0 <= i < k :: GuardHolds(args[i], cond)
    ensures cond(GuardName(args[k])) == Holds(!GuardWant(args[k])) ==>
              ClassifyLine(line, expand, cond, builtins, exts) == Skipped
    ensures cond(GuardName(args[k])).CondError? ==>
              ClassifyLine(line, expand, cond, builtins, exts)
              == Fatal(BadCondition(GuardName(args[k]), cond(GuardName(args[k])).err))
    ensures cond(GuardName(args[k])) == CondUnknown ==>
              ClassifyLine(line, expand, cond, builtins, exts) == Fatal(UnknownCondition(GuardName(args[k])))
  {
    GuardDecides(args, cond, k);
  }

  // ---------------------------------------------------------------------
  // The script.

  /** The loop's line extraction: cut at each newline; a final newline does
      not start an extra empty line. */
  function SplitLines(script: string): (lines: seq<string>)
    ensures forall i, k | 0 <= i < |lines| && 0 <= k < |lines[i]| :: lines[i][k] != '\n'
    decreases |script|
  {
    if |script| == 0 then []
    else
      var i := IndexOfNewline(script);
      if i < |script| then [script[..i]] + SplitLines(script[i + 1..])
      else [script]
  }

  /** Position of the first newline, or |s| when there is none. */
  function IndexOfNewline(s: string): (i: nat)
    ensures i <= |s|
    ensures forall k | 0 <= k < i :: s[k] != '\n'
    ensures i < |s| ==> s[i] == '\n'
  {
    if |s| == 0 || s[0] == '\n' then 0 else 1 + IndexOfNewline(s[1..])
  }

  /** Each line followed by a newline. */
  function JoinLines(lines: seq<string>): string {
    if |lines| == 0 then "" else lines[0] + "\n" + JoinLines(lines[1..])
  }

  /** Cutting a script into lines loses nothing but a missing final newline. */
  lemma {:induction false} SplitLinesRoundTrip(script: string)
    ensures JoinLines(SplitLines(script))
            == if |script| > 0 && script[|script| - 1] != '\n' then script + "\n" else script
    decreases |script|
  {
    if |script| > 0 {
      var i := IndexOfNewline(script);
      if i < |script| {
        var tail := script[i + 1..];
        SplitLinesRoundTrip(tail);
        SplitLinesStep(script, i, tail);
        RejoinAtNewline(script, i, tail);
      } else {
        assert SplitLines(script) == [script];
        assert JoinLines([script]) == script + "\n" + "";
      }
    }
  }

  /** The first line and the rest of a script that holds a newline. */
  lemma SplitLinesStep(script: string, i: nat, tail: string)
    requires |script| > 0 && i == IndexOfNewline(script) && i < |script| && tail == script[i + 1..]
    ensures JoinLines(SplitLines(script)) == script[..i] + "\n" + JoinLines(SplitLines(tail))
  {
    var lines := SplitLines(script);
    assert lines == [script[..i]] + SplitLines(tail);
    assert lines[0] == script[..i];
    assert lines[1..] == SplitLines(tail);
  }

  /** Putting the first line back in front of the rest. */
  lemma RejoinAtNewline(script: string, i: nat, tail: string)
    requires i < |script| && script[i] == '\n' && tail == script[i + 1..]
    ensures script[..i] + "\n" + tail == script
    ensures script[..i] + "\n" + (tail + "\n") == script + "\n"
    ensures |tail| > 0 ==> tail[|tail| - 1] == script[|script| - 1]
    ensures |tail| == 0 ==> script[|script| - 1] == '\n'
  {
    assert script == script[..i] + [script[i]] + tail;
  }

  /** How a command ends: the script goes on, the command asked to stop
      early, or the command failed fatally. */
  datatype CmdResult<S> = Continue(st: S) | StopEarly(st: S) | CmdFatal(st: S, msg: string)

  /** How the line loop ends. */
  datatype Status = Exhausted | StoppedEarly | FailedAt(lineno: nat, reason: FatalReason)

  datatype Outcome<S, C> = Outcome(st: S, status: Status, ran: seq<(nat, C)>)

  /** The interpreter's collaborators, all of which may read the run state:
      expansion, the condition evaluator, the two command tables and command
      execution. */
  datatype Hooks<!S, !C> = Hooks(
    expand: (S, string) -> string,
    cond: (S, string) -> CondResult,
    builtins: map<string, C>,
    exts: map<string, C>,
    exec: (S, C, bool, seq<string>) -> CmdResult<S>)

  function ClassifyIn<S, C>(h: Hooks<S, C>, st: S, line: string): LineAction<C> {
    ClassifyLine(line, s => h.expand(st, s), c => h.cond(st, c), h.builtins, h.exts)
  }

  /** The effect of one line: the loop goes on (with the commands it ran),
      or it halts with a final outcome. */
  datatype Step<S, C> = Next(st: S, ran: seq<(nat, C)>) | Halt(o: Outcome<S, C>)

  /** Line number `n`: classify it in the current state and run its command. */
  function StepLine<S, C>(h: Hooks<S, C>, st: S, line: string, n: nat): (r: Step<S, C>)
    ensures StepNumbered(r, n)
    ensures HaltIsFinal(r)
  {
    match ClassifyIn(h, st, line)
    case Fatal(reason) => Halt(Outcome(st, FailedAt(n, reason), []))
    case Invoke(c, neg, args) =>
      (match h.exec(st, c, neg, args)
       case CmdFatal(st', msg) => Halt(Outcome(st', FailedAt(n, CommandFailed(msg)), [(n, c)]))
       case StopEarly(st') => Halt(Outcome(st', StoppedEarly, [(n, c)]))
       case Continue(st') => Next(st', [(n, c)]))
    case _ => Next(st, [])
  }

  /** The line loop over any per-line `step`, from line number `lineno + 1`
      on; `ran` records the line number and command of every command
      executed. */
  function Loop<S, C>(step: (S, string, nat) -> Step<S, C>, st: S, lines: seq<string>, lineno: nat): Outcome<S, C>
    decreases |lines|
  {
    if |lines| == 0 then Outcome(st, Exhausted, [])
    else
      match step(st, lines[0], lineno + 1)
      case Halt(o) => o
      case Next(st', ran) =>
        var o := Loop(step, st', lines[1..], lineno + 1);
        Outcome(o.st, o.status, ran + o.ran)
  }

  /** The interpreter's line loop: `Loop` with `StepLine` as its step.
      Every line number it reports lies within `lines`, commands are
      recorded in increasing line order, and none after the failing line. */
  function RunLines<S, C>(h: Hooks<S, C>, st: S, lines: seq<string>, lineno: nat): (r: Outcome<S, C>)
    ensures r.status.FailedAt? ==> lineno < r.status.lineno <= lineno + |lines|
    ensures forall i | 0 <= i < |r.ran| :: lineno < r.ran[i].0 <= lineno + |lines|
    ensures forall i, j | 0 <= i < j < |r.ran| :: r.ran[i].0 < r.ran[j].0
    ensures r.status.FailedAt? && |r.ran| > 0 ==> r.ran[|r.ran| - 1].0 <= r.status.lineno
    ensures |lines| == 0 ==> r == Outcome(st, Exhausted, [])
  {
    var step := (s: S, line: string, n: nat) => StepLine(h, s, line, n);
    StepsNumbered(h, step);
    LoopNumbers(step, st, lines, lineno, Loop(step, st, lines, lineno));
    Loop(step, st, lines, lineno)
  }

  /** Every step of the interpreter's loop numbers its own line. */
  lemma StepsNumbered<S, C>(h: Hooks<S, C>, step: (S, string, nat) -> Step<S, C>)
    requires step == ((s: S, line: string, n: nat) => StepLine(h, s, line, n))
    ensures forall st': S, line: string, n: nat :: StepNumbered(step(st', line, n), n) && HaltIsFinal(step(st', line, n))
  {
    forall st': S, line: string, n: nat
      ensures StepNumbered(step(st', line, n), n) && HaltIsFinal(step(st', line, n))
    {
      var r := StepLine(h, st', line, n);
    }
  }

  /** A step that halts the loop does so with a final status. */
  predicate HaltIsFinal<S, C>(s: Step<S, C>) {
    s.Halt? ==> s.o.status != Exhausted
  }

  /** The loop carries no hidden state: running two blocks of lines is running
      the first and, if it got to its end, the second from where it left off,
      with line numbers continuing. */
  lemma {:induction false} LoopAppend<S, C>(step: (S, string, nat) -> Step<S, C>, st: S,
                                            a: seq<string>, b: seq<string>, lineno: nat,
                                            oa: Outcome<S, C>, ob: Outcome<S, C>)
    requires forall st', line, n :: HaltIsFinal(step(st', line, n))
    requires oa == Loop(step, st, a, lineno)
    requires ob == Loop(step, oa.st, b, lineno + |a|)
    ensures oa.status == Exhausted ==> Loop(step, st, a + b, lineno) == Outcome(ob.st, ob.status, oa.ran + ob.ran)
    ensures oa.status != Exhausted ==> Loop(step, st, a + b, lineno) == oa
    decreases |a|
  {
    if |a| == 0 {
      assert a + b == b;
      assert [] + ob.ran == ob.ran;
    } else {
      var ab := a + b;
      assert ab[0] == a[0];
      assert ab[1..] == a[1..] + b;
      var s := step(st, a[0], lineno + 1);
      assert HaltIsFinal(s);
      if s.Next? {
        var o1 := Loop(step, s.st, a[1..], lineno + 1);
        LoopAppend(step, s.st, a[1..], b, lineno + 1, o1, ob);
        assert s.ran + (o1.ran + ob.ran) == (s.ran + o1.ran) + ob.ran;
      }
    }
  }

  /** `LoopAppend` for the interpreter's loop. */
  lemma RunLinesAppend<S, C>(h: Hooks<S, C>, st: S, a: seq<string>, b: seq<string>,
                             lineno: nat, oa: Outcome<S, C>, ob: Outcome<S, C>)
    requires oa == RunLines(h, st, a, lineno)
    requires ob == RunLines(h, oa.st, b, lineno + |a|)
    ensures oa.status == Exhausted ==> RunLines(h, st, a + b, lineno) == Outcome(ob.st, ob.status, oa.ran + ob.ran)
    ensures oa.status != Exhausted ==> RunLines(h, st, a + b, lineno) == oa
  {
    var step := (s: S, line: string, n: nat) => StepLine(h, s, line, n);
    StepsNumbered(h, step);
    LoopAppend(step, st, a, b, lineno, oa, ob);
  }

  /** A line that is a phase marker, blank, or skipped by its guard changes
      nothing: the loop goes on with the next line in the same state. In
      particular a guard that does not hold skips that line only. */
  lemma InertLineContinues<S, C>(h: Hooks<S, C>, st: S, line: string, rest: seq<string>, lineno: nat)
    requires ClassifyIn(h, st, line).PhaseMarker? || ClassifyIn(h, st, line).Blank?
             || ClassifyIn(h, st, line).Skipped?
    ensures RunLines(h, st, [line] + rest, lineno) == RunLines(h, st, rest, lineno + 1)
  {
    assert ([line] + rest)[1..] == rest;
    var o := RunLines(h, st, rest, lineno + 1);
    assert [] + o.ran == o.ran;
  }

  /** A line the interpreter cannot run (a bad guard, a lone `!`, an unknown
      command, an unterminated quote) fails the run on that line, in the
      state it was reached in, before anything else runs. */
  lemma FatalLineStops<S, C>(h: Hooks<S, C>, st: S, line: string, rest: seq<string>, lineno: nat)
    requires ClassifyIn(h, st, line).Fatal?
    ensures RunLines(h, st, [line] + rest, lineno)
            == Outcome(st, FailedAt(lineno + 1, ClassifyIn(h, st, line).reason), [])
  {
  }

  /** A command that finishes normally is recorded under its line, and the
      rest of the script runs in the state the command left. */
  lemma CommandContinues<S, C>(h: Hooks<S, C>, st: S, line: string, rest: seq<string>, lineno: nat, st': S)
    requires ClassifyIn(h, st, line).Invoke?
    requires var a := ClassifyIn(h, st, line); h.exec(st, a.cmd, a.neg, a.args) == Continue(st')
    ensures var o := RunLines(h, st', rest, lineno + 1);
            RunLines(h, st, [line] + rest, lineno)
            == Outcome(o.st, o.status, [(lineno + 1, ClassifyIn(h, st, line).cmd)] + o.ran)
  {
    assert ([line] + rest)[1..] == rest;
  }

  /** A command that asks the script to stop ends the loop after it, with
      nothing after it run. */
  lemma CommandStopsEarly<S, C>(h: Hooks<S, C>, st: S, line: string, rest: seq<string>, lineno: nat, st': S)
    requires ClassifyIn(h, st, line).Invoke?
    requires var a := ClassifyIn(h, st, line); h.exec(st, a.cmd, a.neg, a.args) == StopEarly(st')
    ensures RunLines(h, st, [line] + rest, lineno)
            == Outcome(st', StoppedEarly, [(lineno + 1, ClassifyIn(h, st, line).cmd)])
  {
  }

  /** A command that fails fatally fails the run on its line, with nothing
      after it run. */
  lemma CommandFails<S, C>(h: Hooks<S, C>, st: S, line: string, rest: seq<string>, lineno: nat,
                           st': S, msg: string)
    requires ClassifyIn(h, st, line).Invoke?
    requires var a := ClassifyIn(h, st, line); h.exec(st, a.cmd, a.neg, a.args) == CmdFatal(st', msg)
    ensures RunLines(h, st, [line] + rest, lineno)
            == Outcome(st', FailedAt(lineno + 1, CommandFailed(msg)), [(lineno + 1, ClassifyIn(h, st, line).cmd)])
  {
  }

  /** A step that records at most the command of its own line, under that
      line's number, and fails (if at all) on that line. */
  predicate StepNumbered<S, C>(s: Step<S, C>, n: nat) {
    && (s.Next? ==> |s.ran| <= 1 && forall i | 0 <= i < |s.ran| :: s.ran[i].0 == n)
    && (s.Halt? ==> s.o.status.FailedAt? ==> s.o.status.lineno == n)
    && (s.Halt? ==> |s.o.ran| <= 1 && forall i | 0 <= i < |s.o.ran| :: s.o.ran[i].0 == n)
  }

  /** Every line number the loop reports lies within the script, commands are
      recorded in increasing line order, and nothing runs after the line that
      failed. */
  lemma {:induction false} LoopNumbers<S, C>(step: (S, string, nat) -> Step<S, C>, st: S,
                                             lines: seq<string>, lineno: nat, o: Outcome<S, C>)
    requires forall st', line, n :: StepNumbered(step(st', line, n), n)
    requires o == Loop(step, st, lines, lineno)
    ensures o.status.FailedAt? ==> lineno < o.status.lineno <= lineno + |lines|
    ensures forall i | 0 <= i < |o.ran| :: lineno < o.ran[i].0 <= lineno + |lines|
    ensures forall i, j | 0 <= i < j < |o.ran| :: o.ran[i].0 < o.ran[j].0
    ensures o.status.FailedAt? && |o.ran| > 0 ==> o.ran[|o.ran| - 1].0 <= o.status.lineno
    decreases |lines|
  {
    if |lines| > 0 {
      var s := step(st, lines[0], lineno + 1);
      assert StepNumbered(s, lineno + 1);
      if s.Next? {
        LoopNumbers(step, s.st, lines[1..], lineno + 1, Loop(step, s.st, lines[1..], lineno + 1));
      }
    }
  }

  /** `run`'s loop over a whole script: its lines, numbered from 1. Line
      numbers reported lie within the script, commands are recorded in line
      order, and nothing runs after the line that failed. */
  function RunScript<S, C>(h: Hooks<S, C>, st: S, script: string): (r: Outcome<S, C>)
    ensures r.status.FailedAt? ==> 1 <= r.status.lineno <= |SplitLines(script)|
    ensures forall i | 0 <= i < |r.ran| :: 1 <= r.ran[i].0 <= |SplitLines(script)|
    ensures forall i, j | 0 <= i < j < |r.ran| :: r.ran[i].0 < r.ran[j].0
    ensures r.status.FailedAt? && |r.ran| > 0 ==> r.ran[|r.ran| - 1].0 <= r.status.lineno
  {
    RunLines(h, st, SplitLines(script), 0)
  }
}

=== FILE: environ.dfy ===
/** The script environment: an ordered list of `KEY=VALUE` entries with
    last-match-wins lookup (`Env.Getenv`/`Env.Setenv` in testscript.go), and
    the run state's `envMap`, a map kept beside the list so that lookups
    need not scan it (`TestScript.Getenv`/`Setenv` and the map built at the
    end of `setup`).

    Keys are compared exactly: the source normalises them with
    `envvarname`, which is the identity except on Windows. */
module Environ {
  import opened Wrappers

  /** Position of the first `=` in `s`, if any (`strings.Index(s, "=")`). */
  function IndexOfEq(s: string): (r: Option<nat>)
    ensures r.Some? ==> r.value < |s| && s[r.value] == '=' && forall j | 0 <= j < r.value :: s[j] != '='
    ensures r.None? ==> forall j | 0 <= j < |s| :: s[j] != '='
  {
    if |s| == 0 then None
    else if s[0] == '=' then Some(0)
    else match IndexOfEq(s[1..])
      case Some(i) => Some(i + 1)
      case None => None
  }

  /** An entry split at its first `=` into key and value; entries without
      `=` have neither. */
  function SplitEntry(kv: string): Option<(string, string)> {
    match IndexOfEq(kv)
    case Some(i) => Some((kv[..i], kv[i + 1..]))
    case None => None
  }

  /** Whether entry `i` of `vars` defines `key`. */
  predicate Defines(vars: seq<string>, i: int, key: string)
    requires 0 <= i < |vars|
  {
    SplitEntry(vars[i]).Some? && SplitEntry(vars[i]).value.0 == key
  }

  /** The position of the entry the lookup of `key` finds: the last one that
      defines it. */
  function LastDefinition(vars: seq<string>, key: string): (r: Option<nat>)
    ensures r.Some? ==> r.value < |vars| && Defines(vars, r.value, key)
                        && forall j | r.value < j < |vars| :: !Defines(vars, j, key)
    ensures r.None? ==> forall j | 0 <= j < |vars| :: !Defines(vars, j, key)
    decreases |vars|
  {
    if |vars| == 0 then None
    else if Defines(vars, |vars| - 1, key) then Some(|vars| - 1)
    else
      var r := LastDefinition(vars[..|vars| - 1], key);
      assert forall j | 0 <= j < |vars| - 1 :: Defines(vars[..|vars| - 1], j, key) == Defines(vars, j, key);
      r
  }

  /** `Env.Getenv`: the value of the last entry defining `key`, or "" when
      no entry does. */
  function Getenv(vars: seq<string>, key: string): (r: string)
    ensures r != "" ==> exists i | 0 <= i < |vars| :: Defines(vars, i, key) && SplitEntry(vars[i]).value.1 == r
    ensures (forall i | 0 <= i < |vars| :: !Defines(vars, i, key)) ==> r == ""
  {
    match LastDefinition(vars, key)
    case Some(i) => SplitEntry(vars[i]).value.1
    case None => ""
  }

  /** Keys `Env.Setenv` accepts. */
  predicate ValidKey(key: string) {
    key != "" && forall j | 0 <= j < |key| :: key[j] != '='
  }

  /** `Env.Setenv`: panics on an invalid key, otherwise appends one entry. */
  function Setenv(vars: seq<string>, key: string, value: string): (r: Result<seq<string>>)
    ensures r.Err? <==> !ValidKey(key)
    ensures r.Ok? ==> |r.value| == |vars| + 1 && r.value[..|vars|] == vars
    ensures r.Ok? ==> Getenv(r.value, key) == value
    ensures r.Ok? ==> forall other | other != key :: Getenv(r.value, other) == Getenv(vars, other)
  {
    if !ValidKey(key) then
      Err("invalid environment variable key \"" + key + "\"")
    else
      var vars' := vars + [key + "=" + value];
      SplitJoined(key, value);
      assert vars'[..|vars|] == vars;
      forall other | other != key
        ensures Getenv(vars', other) == Getenv(vars, other)
      {
        GetenvSkipsLast(vars', other);
      }
      Ok(vars')
  }

  /** An entry built from a key without `=` splits back into that key and
      value. */
  lemma SplitJoined(key: string, value: string)
    requires forall j | 0 <= j < |key| :: key[j] != '='
    ensures SplitEntry(key + "=" + value) == Some((key, value))
  {
    var kv := key + "=" + value;
    assert kv[|key|] == '=';
    assert forall j | 0 <= j < |key| :: kv[j] == key[j];
    var i := IndexOfEq(kv);
    assert i == Some(|key|);
    assert kv[..|key|] == key && kv[|key| + 1..] == value;
  }

  /** When the last entry does not define `key`, the lookup ignores it. */
  lemma GetenvSkipsLast(vars: seq<string>, key: string)
    requires |vars| > 0 && !Defines(vars, |vars| - 1, key)
    ensures Getenv(vars, key) == Getenv(vars[..|vars| - 1], key)
  {
    var init := vars[..|vars| - 1];
    assert forall j | 0 <= j < |init| :: Defines(init, j, key) == Defines(vars, j, key);
  }

  /** Entries appended later shadow earlier ones. */
  lemma ShadowingExample()
    ensures Getenv(["X=1", "X=2"], "X") == "2"
  {
    SplitJoined("X", "2");
    assert "X" + "=" + "2" == "X=2";
  }

  // ---------------------------------------------------------------------
  // The run state's envMap.

  /** The map `setup` builds by walking the list front to back, each entry
      with `=` overwriting earlier ones with the same key. */
  function BuildEnvMap(env: seq<string>): map<string, string>
    decreases |env|
  {
    if |env| == 0 then map[]
    else
      var m := BuildEnvMap(env[..|env| - 1]);
      match SplitEntry(env[|env| - 1])
      case Some(kv) => m[kv.0 := kv.1]
      case None => m
  }

  /** The environment part of the run state: the list handed to
      subprocesses and the lookup map. */
  datatype ScriptEnv = ScriptEnv(env: seq<string>, envMap: map<string, string>)

  /** `TestScript.Getenv`: a missing key reads as "" (Go's zero value). */
  function ScriptGetenv(st: ScriptEnv, key: string): (r: string)
    ensures key !in st.envMap ==> r == ""
    ensures r != "" ==> key in st.envMap && st.envMap[key] == r
  {
    if key in st.envMap then st.envMap[key] else ""
  }

  /** `TestScript.Setenv`: appends to the list and updates the map, without
      checking the key. */
  function ScriptSetenv(st: ScriptEnv, key: string, value: string): (r: ScriptEnv)
    ensures |r.env| == |st.env| + 1 && r.env[..|st.env|] == st.env
    ensures ScriptGetenv(r, key) == value
    ensures forall other | other != key :: ScriptGetenv(r, other) == ScriptGetenv(st, other)
  {
    assert (st.env + [key + "=" + value])[..|st.env|] == st.env;
    ScriptEnv(st.env + [key + "=" + value], st.envMap[key := value])
  }

  /** The map answers every lookup exactly as the list does. */
  ghost predicate Consistent(st: ScriptEnv) {
    forall key :: (if key in st.envMap then st.envMap[key] else "") == Getenv(st.env, key)
  }

  /** The environment part of the state as `setup` leaves it. */
  function SetupEnv(vars: seq<string>): (st: ScriptEnv)
    ensures st.env == vars
    ensures Consistent(st)
  {
    BuildEnvMapAgrees(vars);
    ScriptEnv(vars, BuildEnvMap(vars))
  }

  lemma {:induction false} BuildEnvMapAgrees(env: seq<string>)
    ensures forall key :: ScriptGetenv(ScriptEnv(env, BuildEnvMap(env)), key) == Getenv(env, key)
    decreases |env|
  {
    if |env| > 0 {
      var init := env[..|env| - 1];
      BuildEnvMapAgrees(init);
      forall key
        ensures ScriptGetenv(ScriptEnv(env, BuildEnvMap(env)), key) == Getenv(env, key)
      {
        if !Defines(env, |env| - 1, key) {
          GetenvSkipsLast(env, key);
        }
      }
    }
  }

  /** `TestScript.Setenv` keeps the map in agreement with the list whenever
      the key contains no `=`. */
  lemma ScriptSetenvKeepsConsistent(st: ScriptEnv, key: string, value: string)
    requires Consistent(st)
    requires forall j | 0 <= j < |key| :: key[j] != '='
    ensures Consistent(ScriptSetenv(st, key, value))
    ensures ScriptGetenv(ScriptSetenv(st, key, value), key) == value
  {
    var st' := ScriptSetenv(st, key, value);
    SplitJoined(key, value);
    forall other
      ensures ScriptGetenv(st', other) == Getenv(st'.env, other)
    {
      if other != key {
        GetenvSkipsLast(st'.env, other);
        assert st'.env[..|st'.env| - 1] == st.env;
      }
    }
  }

  /** Because `TestScript.Setenv` does not reject a key containing `=`, the
      map and the list can disagree afterwards: setting `A=B` to `c` makes
      the list answer `B=c` for `A` while the map still answers "". */
  lemma ScriptSetenvKeyWithEqualsDisagrees()
    ensures var st := ScriptSetenv(SetupEnv([]), "A=B", "c");
            ScriptGetenv(st, "A") == "" && Getenv(st.env, "A") == "B=c"
  {
    var st := ScriptSetenv(SetupEnv([]), "A=B", "c");
    assert "A=B" + "=" + "c" == "A=B=c";
    assert st.env == ["A=B=c"];
    SplitJoined("A", "B=c");
    assert "A" + "=" + "B=c" == "A=B=c";
  }
}

=== FILE: formatting.dfy ===
/** Go's `%d` formatting of a non-negative integer, shared by the log
    annotations and the error texts. */
module Formatting {

  /** The decimal form of `n`, without leading zeros. */
  function Decimal(n: nat): (r: string)
    ensures |r| > 0 && forall j | 0 <= j < |r| :: '0' <= r[j] <= '9'
  {
    var d := [(('0' as int) + n % 10) as char];
    if n < 10 then d else Decimal(n / 10) + d
  }

  /** `%d` of any integer: a minus sign before the digits of a negative one. */
  function SignedDecimal(n: int): (r: string)
    ensures n >= 0 ==> r == Decimal(n)
    ensures n < 0 ==> |r| > 1 && r[0] == '-' && r[1..] == Decimal(-n)
  {
    if n < 0 then "-" + Decimal(-n) else Decimal(n)
  }
}

=== FILE: ip.dfy ===
/** The parts of Go's `net` package the subnet helpers of
    pkg/utils/networking.go rely on: IPv4 addresses in their 4- and 16-byte
    forms (`IP.To4`), `IP.IsLoopback`, CIDR masks (`CIDRMask`), `IP.Mask`,
    and `IPNet.Contains`. A nil slice is the empty sequence. */
module IP {
  import opened Wrappers
  import opened Bytes

  /** The first twelve bytes of an IPv4 address in 16-byte form. */
  const V4InV6Prefix: seq<byte> := [0, 0, 0, 0, 0, 0, 0, 0, 0, 0, 0xff, 0xff]

  /** `net.IPv4`, which is also what `net.ParseIP` gives for a dotted quad:
      the 16-byte form. */
  function IPv4(a: byte, b: byte, c: byte, d: byte): (r: seq<byte>)
    ensures |r| == 16
  {
    V4InV6Prefix + [a, b, c, d]
  }

  /** `IP.To4`: the 4-byte form of an IPv4 address, or nothing. */
  function To4(ip: seq<byte>): (r: Option<seq<byte>>)
    ensures r.Some? ==> |r.value| == 4
    ensures r.Some? <==> |ip| == 4 || (|ip| == 16 && ip[..12] == V4InV6Prefix)
  {
    if |ip| == 4 then Some(ip)
    else if |ip| == 16 && ip[..12] == V4InV6Prefix then Some(ip[12..])
    else None
  }

  lemma To4OfIPv4(a: byte, b: byte, c: byte, d: byte)
    ensures To4(IPv4(a, b, c, d)) == Some([a, b, c, d])
  {
    assert IPv4(a, b, c, d)[..12] == V4InV6Prefix;
  }

  /** `::1`. */
  const IPv6Loopback: seq<byte> := Zeros(15) + [1]

  /** `IP.IsLoopback`: 127.0.0.0/8 for IPv4, `::1` otherwise. */
  predicate IsLoopback(ip: seq<byte>) {
    match To4(ip)
    case Some(v4) => v4[0] == 127
    case None => ip == IPv6Loopback
  }

  /** Byte `i` of a CIDR mask with `ones` leading ones has this many of
      them. */
  function OnesInByte(ones: nat, i: nat): (r: nat)
    ensures r <= 8
  {
    if ones >= 8 * (i + 1) then 8 else if ones <= 8 * i then 0 else ones - 8 * i
  }

  /** A mask byte with `n` leading ones, computed as `CIDRMask` does:
      `^byte(0xff >> n)`. */
  function MaskByte(n: nat): byte
    requires n <= 8
  {
    255 - 255 / Pow2(n)
  }

  /** The mask byte with `n` leading ones and the 2^(8-n) values below its
      lowest one make up a byte. */
  lemma MaskByteHigh(n: nat)
    requires n <= 8
    ensures MaskByte(n) + Pow2(8 - n) == 256
  {
    Pow2Table();
    if n == 0 { assert MaskByte(n) == 0; }
    else if n == 1 { assert MaskByte(n) == 128; }
    else if n == 2 { assert MaskByte(n) == 192; }
    else if n == 3 { assert MaskByte(n) == 224; }
    else if n == 4 { assert MaskByte(n) == 240; }
    else if n == 5 { assert MaskByte(n) == 248; }
    else if n == 6 { assert MaskByte(n) == 252; }
    else if n == 7 { assert MaskByte(n) == 254; }
    else { assert MaskByte(n) == 255; }
  }

  /** A mask byte with `n` leading ones keeps the byte's value rounded down
      to a multiple of 2^(8-n). */
  lemma MaskByteArith(x: byte, n: nat)
    requires n <= 8
    ensures And(x, MaskByte(n)) == x - x % Pow2(8 - n)
  {
    MaskByteHigh(n);
    Pow2Eight();
    AndHighBits(x, 8, 8 - n, MaskByte(n));
  }

  /** `CIDRMask(ones, 8 * length)` for a valid prefix length. */
  function CIDRMask(ones: nat, length: nat): (r: seq<byte>)
    ensures |r| == length
  {
    seq(length, i requires 0 <= i => MaskByte(OnesInByte(ones, i)))
  }

  /** `IP.Mask`: an IPv4 address in 16-byte form is shortened to meet a
      4-byte mask (and a 16-byte mask to meet a 4-byte address when its
      first twelve bytes are all ones); lengths that still differ give nil. */
  function MaskIP(ip: seq<byte>, mask: seq<byte>): (r: seq<byte>)
    ensures |r| == 0 || |r| == |mask| || |r| == |mask| - 12
  {
    var mask' := if |mask| == 16 && |ip| == 4 && mask[..12] == seq(12, _ => 0xff) then mask[12..] else mask;
    var ip' := if |mask'| == 4 && |ip| == 16 && ip[..12] == V4InV6Prefix then ip[12..] else ip;
    if |ip'| != |mask'| then [] else seq(|ip'|, i requires 0 <= i < |ip'| => And(ip'[i], mask'[i]))
  }

  datatype IPNet = IPNet(ip: seq<byte>, mask: seq<byte>)

  /** `networkNumberAndMask`: the network's address and mask brought to a
      common length, or nil for both. */
  function NetworkNumberAndMask(n: IPNet): (r: (seq<byte>, seq<byte>))
    ensures |r.0| == |r.1|
  {
    var ip := match To4(n.ip) case Some(v4) => v4 case None => n.ip;
    if To4(n.ip).None? && |ip| != 16 then ([], [])
    else if |n.mask| == 4 then (if |ip| != 4 then ([], []) else (ip, n.mask))
    else if |n.mask| == 16 then (if |ip| == 4 then (ip, n.mask[12..]) else (ip, n.mask))
    else ([], [])
  }

  /** The comparison at the heart of `Contains`: the two addresses agree on
      every bit the mask keeps. */
  predicate SameUnderMask(nn: seq<byte>, m: seq<byte>, ip: seq<byte>)
    requires |nn| == |m|
  {
    |ip| == |nn| && forall i | 0 <= i < |ip| :: And(nn[i], m[i]) == And(ip[i], m[i])
  }

  /** `IPNet.Contains`. */
  predicate Contains(n: IPNet, ip: seq<byte>) {
    var (nn, m) := NetworkNumberAndMask(n);
    var ip' := match To4(ip) case Some(v4) => v4 case None => ip;
    SameUnderMask(nn, m, ip')
  }
}

=== FILE: network_ips.dfy ===
/** The addresses handed out in a network (`GetNetworkIPs` in
    pkg/utils/networking.go): the gateway is the first usable address (the
    network address plus one), the DHCP range starts at the second and ends
    at the last usable one (the broadcast address minus one), all computed
    on the address as a number.

    Parsing the CIDR text (`net.ParseCIDR`) is left out: the model starts
    from what it yields, an address of 4 or 16 bytes with its prefix length.
    The mask is `CIDRMask(prefix, 8 * len)`. */
module NetworkIPs {
  import opened Wrappers
  import opened Bytes
  import opened IP
  import opened Formatting

  datatype Usable = Usable(gateway: seq<byte>, dhcpStart: seq<byte>, dhcpEnd: seq<byte>)

  /** What `net.ParseCIDR` gives: an IPv4 or IPv6 address and a prefix
      length that fits it. */
  predicate Parsed(ip: seq<byte>, prefix: nat) {
    (|ip| == 4 || |ip| == 16) && prefix <= 8 * |ip|
  }

  /** The address with every bit outside the first `prefix` cleared, byte
      by byte. */
  function Masked(bs: seq<byte>, prefix: nat): (r: seq<byte>)
    ensures |r| == |bs|
  {
    seq(|bs|, i requires 0 <= i < |bs| => And(bs[i], MaskByte(OnesInByte(prefix, i))))
  }

  /** Host bits of a `prefix` on `len` bytes (none when the prefix covers
      them all). */
  function HostBits(prefix: nat, len: nat): nat {
    if prefix >= 8 * len then 0 else 8 * len - prefix
  }

  /** `IP.Mask` with the network's own CIDR mask is the byte-by-byte
      masking. */
  lemma MaskIPIsMasked(ip: seq<byte>, prefix: nat)
    requires |ip| == 4 || |ip| == 16
    ensures MaskIP(ip, CIDRMask(prefix, |ip|)) == Masked(ip, prefix)
  {
  }

  /** `GetNetworkIPs`: fewer than two host bits is an error; otherwise the
      gateway, the DHCP start and the DHCP end. The network number is the
      address under its CIDR mask, written bytewise (`Masked`, which is
      `IP.Mask` by `MaskIPIsMasked`). */
  function GetNetworkIPs(ip: seq<byte>, prefix: nat): (r: Result<Usable>)
    requires Parsed(ip, prefix)
    ensures r.Err? <==> 8 * |ip| - prefix < 2
  {
    var bits := 8 * |ip|;
    if bits - prefix < 2 then Err("subnet too small: need at least 2 host bits (got /" + Decimal(prefix) + ")")
    else
      var ipLen := |ip|;
      var networkInt := BytesToNat(Masked(ip, prefix));
      var firstUsable := networkInt + 1;
      var secondUsable := firstUsable + 1;
      var broadcastInt := networkInt + Pow2(bits - prefix);
      var lastUsable := broadcastInt - 2;
      Ok(Usable(NatToIP(firstUsable, ipLen), NatToIP(secondUsable, ipLen), NatToIP(lastUsable, ipLen)))
  }

  /** The address `c` past the network address. */
  function Offset(ip: seq<byte>, prefix: nat, c: nat): seq<byte> {
    NatToIP(BytesToNat(Masked(ip, prefix)) + c, |ip|)
  }

  /** The three addresses are the network address plus one, plus two, and
      plus `last`, the block size less two. */
  lemma GetNetworkIPsOffsets(ip: seq<byte>, prefix: nat, last: nat)
    requires Parsed(ip, prefix) && 8 * |ip| - prefix >= 2 && last + 2 == Pow2(8 * |ip| - prefix)
    ensures GetNetworkIPs(ip, prefix).Ok?
    ensures GetNetworkIPs(ip, prefix).value
              == Usable(Offset(ip, prefix, 1), Offset(ip, prefix, 2), Offset(ip, prefix, last))
  {
    var n := BytesToNat(Masked(ip, prefix));
    SameAddress(n + Pow2(8 * |ip| - prefix) - 2, n + last, |ip|);
  }

  lemma SameAddress(a: nat, b: nat, len: nat)
    requires a == b
    ensures NatToIP(a, len) == NatToIP(b, len)
  {
  }

  /** The addresses handed out have the network's length and lie in the
      network; the gateway follows the network address, the DHCP range
      follows the gateway, and it ends just before the broadcast address.
      A network with fewer than two host bits has no room for them and is
      refused (the contract of `GetNetworkIPs`). */
  lemma GetNetworkIPsSpec(ip: seq<byte>, prefix: nat)
    requires Parsed(ip, prefix) && GetNetworkIPs(ip, prefix).Ok?
    ensures |GetNetworkIPs(ip, prefix).value.gateway| == |ip|
    ensures |GetNetworkIPs(ip, prefix).value.dhcpStart| == |ip|
    ensures |GetNetworkIPs(ip, prefix).value.dhcpEnd| == |ip|
    ensures SameUnderMask(ip, CIDRMask(prefix, |ip|), GetNetworkIPs(ip, prefix).value.gateway)
    ensures SameUnderMask(ip, CIDRMask(prefix, |ip|), GetNetworkIPs(ip, prefix).value.dhcpStart)
    ensures SameUnderMask(ip, CIDRMask(prefix, |ip|), GetNetworkIPs(ip, prefix).value.dhcpEnd)
    ensures BytesToNat(GetNetworkIPs(ip, prefix).value.gateway) == BytesToNat(Masked(ip, prefix)) + 1
    ensures BytesToNat(GetNetworkIPs(ip, prefix).value.dhcpStart) == BytesToNat(GetNetworkIPs(ip, prefix).value.gateway) + 1
    ensures BytesToNat(GetNetworkIPs(ip, prefix).value.dhcpEnd)
              == BytesToNat(Masked(ip, prefix)) + Pow2(8 * |ip| - prefix) - 2
    ensures BytesToNat(GetNetworkIPs(ip, prefix).value.dhcpStart) <= BytesToNat(GetNetworkIPs(ip, prefix).value.dhcpEnd)
  {
    var p := Pow2(8 * |ip| - prefix);
    Pow2AtLeastFour(8 * |ip| - prefix);
    var last := p - 2;
    GetNetworkIPsOffsets(ip, prefix, last);
    var u := GetNetworkIPs(ip, prefix).value;
    OffsetFacts(ip, prefix, 1, u.gateway);
    OffsetFacts(ip, prefix, 2, u.dhcpStart);
    OffsetFacts(ip, prefix, last, u.dhcpEnd);
  }

  /** The address `c` past the network address, for `0 <= c < 2^h`, has the
      network's length, denotes that number, and lies in the network. */
  lemma OffsetFacts(ip: seq<byte>, prefix: nat, c: nat, x: seq<byte>)
    requires Parsed(ip, prefix) && c < Pow2(8 * |ip| - prefix) && x == Offset(ip, prefix, c)
    ensures |x| == |ip| && BytesToNat(x) == BytesToNat(Masked(ip, prefix)) + c
    ensures SameUnderMask(ip, CIDRMask(prefix, |ip|), x)
  {
    OffsetValue(ip, prefix, c);
    OffsetInNetwork(ip, prefix, c);
  }

  lemma Pow2AtLeastFour(h: nat)
    requires h >= 2
    ensures Pow2(h) >= 4
  {
    Pow2Add(2, h - 2);
    assert Pow2(2) == 4;
    MulAtLeast(Pow2(h - 2), 4);
  }

  lemma OffsetValue(ip: seq<byte>, prefix: nat, c: nat)
    requires Parsed(ip, prefix) && c < Pow2(8 * |ip| - prefix)
    ensures |Offset(ip, prefix, c)| == |ip|
    ensures BytesToNat(Offset(ip, prefix, c)) == BytesToNat(Masked(ip, prefix)) + c
  {
    var n := BytesToNat(Masked(ip, prefix));
    NetworkFits(ip, prefix);
    assert n + c < Pow2(8 * |ip|);
    NatToIPSpec(n + c, |ip|);
  }

  lemma OffsetInNetwork(ip: seq<byte>, prefix: nat, c: nat)
    requires Parsed(ip, prefix) && c < Pow2(8 * |ip| - prefix)
    ensures SameUnderMask(ip, CIDRMask(prefix, |ip|), Offset(ip, prefix, c))
  {
    var p := Pow2(8 * |ip| - prefix);
    var x := Offset(ip, prefix, c);
    OffsetValue(ip, prefix, c);
    OffsetBlock(ip, prefix, c);
    InSubnetIff(ip, x, prefix);
  }

  /** The address `c` past the network address is in the same block of
      2^h as the address. */
  lemma OffsetBlock(ip: seq<byte>, prefix: nat, c: nat)
    requires Parsed(ip, prefix) && c < Pow2(8 * |ip| - prefix)
    ensures (BytesToNat(Masked(ip, prefix)) + c) / Pow2(8 * |ip| - prefix) == BytesToNat(ip) / Pow2(8 * |ip| - prefix)
  {
    MaskedValue(ip, prefix);
    SameBlock(BytesToNat(ip), Pow2(8 * |ip| - prefix), BytesToNat(Masked(ip, prefix)), c);
  }

  /** Counting up from the start of a block stays in the block. */
  lemma SameBlock(v: int, p: int, n: int, c: int)
    requires v >= 0 && p > 0 && n == v - v % p && 0 <= c < p
    ensures (n + c) / p == v / p
  {
    DivModUnique(n + c, p, v / p, c);
  }

  /** The network address plus 2^h still fits in the address. */
  lemma NetworkFits(ip: seq<byte>, prefix: nat)
    requires Parsed(ip, prefix)
    ensures BytesToNat(Masked(ip, prefix)) + Pow2(8 * |ip| - prefix) <= Pow2(8 * |ip|)
  {
    var h := 8 * |ip| - prefix;
    Pow2Add(prefix, h);
    MaskedValue(ip, prefix);
    RoundDownFits(BytesToNat(ip), Pow2(h), Pow2(prefix), BytesToNat(Masked(ip, prefix)));
  }

  /** Rounding down below `top * p` leaves room for a whole block of `p`. */
  lemma RoundDownFits(v: int, p: int, top: int, n: int)
    requires p > 0 && top >= 0 && 0 <= v < top * p && n == v - v % p
    ensures n + p <= top * p
  {
    var q := v / p;
    assert n == q * p;
    if q >= top {
      MulLe(top, q, p);
    }
    MulLe(q + 1, top, p);
  }

  lemma MulLe(a: nat, b: nat, p: nat)
    requires a <= b
    ensures a * p <= b * p
  {
    assert b * p == a * p + (b - a) * p;
  }

  /** An address of the network's length lies in the network exactly when
      it agrees with the network address on the number of whole `2^h`
      blocks: the bytewise mask comparison of `IPNet.Contains` is the
      numeric one. */
  lemma InSubnetIff(ip: seq<byte>, x: seq<byte>, prefix: nat)
    requires Parsed(ip, prefix) && |x| == |ip|
    ensures var p := Pow2(8 * |ip| - prefix);
            SameUnderMask(ip, CIDRMask(prefix, |ip|), x) <==> BytesToNat(x) / p == BytesToNat(ip) / p
  {
    var mi, mx := Masked(ip, prefix), Masked(x, prefix);
    SameUnderMaskIffMasked(ip, x, prefix);
    MaskedValue(ip, prefix);
    MaskedValue(x, prefix);
    if BytesToNat(mi) == BytesToNat(mx) {
      BytesToNatInjective(mi, mx);
    }
    SameRoundDown(BytesToNat(ip), BytesToNat(x), Pow2(8 * |ip| - prefix), BytesToNat(mi), BytesToNat(mx));
  }

  /** Comparing under the CIDR mask is comparing the masked addresses. */
  lemma SameUnderMaskIffMasked(ip: seq<byte>, x: seq<byte>, prefix: nat)
    requires |x| == |ip|
    ensures SameUnderMask(ip, CIDRMask(prefix, |ip|), x) <==> Masked(ip, prefix) == Masked(x, prefix)
  {
    var m := CIDRMask(prefix, |ip|);
    var mi, mx := Masked(ip, prefix), Masked(x, prefix);
    if SameUnderMask(ip, m, x) {
      assert forall i | 0 <= i < |ip| :: mi[i] == mx[i];
    }
    if mi == mx {
      assert forall i | 0 <= i < |ip| :: And(ip[i], m[i]) == mi[i] == mx[i] == And(x[i], m[i]);
    }
  }

  /** Two numbers round down to the same multiple of `p` exactly when they
      have the same quotient by `p`. */
  lemma SameRoundDown(v: int, w: int, p: int, mv: int, mw: int)
    requires v >= 0 && w >= 0 && p > 0 && mv == v - v % p && mw == w - w % p
    ensures mv == mw <==> w / p == v / p
  {
    var a, b := v / p, w / p;
    assert mv == a * p && mw == b * p;
    if a > b {
      MulAtLeast(a - b, p);
      assert a * p - b * p == (a - b) * p;
    } else if b > a {
      MulAtLeast(b - a, p);
      assert b * p - a * p == (b - a) * p;
    }
  }

  /** The bytewise masking, read as a number, rounds the address down to a
      multiple of 2^h. */
  lemma {:induction false} MaskedValue(bs: seq<byte>, prefix: nat)
    ensures BytesToNat(Masked(bs, prefix)) == BytesToNat(bs) - BytesToNat(bs) % Pow2(HostBits(prefix, |bs|))
    decreases |bs|
  {
    if |bs| == 0 {
      assert Masked(bs, prefix) == [];
    } else {
      MaskedValue(bs[..|bs| - 1], prefix);
      MaskedValueStep(bs, prefix);
    }
  }

  /** The step of `MaskedValue` from all but the last byte to all bytes. */
  lemma MaskedValueStep(bs: seq<byte>, prefix: nat)
    requires |bs| > 0
    requires BytesToNat(Masked(bs[..|bs| - 1], prefix))
               == BytesToNat(bs[..|bs| - 1]) - BytesToNat(bs[..|bs| - 1]) % Pow2(HostBits(prefix, |bs| - 1))
    ensures BytesToNat(Masked(bs, prefix)) == BytesToNat(bs) - BytesToNat(bs) % Pow2(HostBits(prefix, |bs|))
  {
    var len := |bs|;
    var init := bs[..len - 1];
    MaskedSnoc(bs, prefix);
    assert BytesToNat(bs) == BytesToNat(init) * 256 + bs[len - 1];
    MaskStep(prefix, len, BytesToNat(init), bs[len - 1], BytesToNat(Masked(init, prefix)),
             BytesToNat(bs), BytesToNat(Masked(bs, prefix)));
  }

  /** One byte of `MaskedValue`: the masked prefix and the masked last byte
      make the masked whole. */
  lemma MaskStep(prefix: nat, len: nat, i: int, b: byte, mi: int, v: int, m: int)
    requires len > 0 && i >= 0
    requires mi == i - i % Pow2(HostBits(prefix, len - 1))
    requires v == i * 256 + b
    requires m == mi * 256 + And(b, MaskByte(OnesInByte(prefix, len - 1)))
    ensures m == v - v % Pow2(HostBits(prefix, len))
  {
    var hi := HostBits(prefix, len - 1);
    var h := HostBits(prefix, len);
    var o := OnesInByte(prefix, len - 1);
    MaskByteArith(b, o);
    if prefix >= 8 * len {
      assert hi == 0 && o == 8 && h == 0;
      assert Pow2(0) == 1;
      WholeByteKept(i, b);
    } else if prefix >= 8 * (len - 1) {
      assert hi == 0 && h == 8 - o && 1 <= h <= 8;
      assert Pow2(0) == 1;
      Pow2Add(h, 8 - h);
      Pow2Eight();
      PartialByteKept(i, b, Pow2(h), Pow2(8 - h));
    } else {
      assert o == 0 && h == hi + 8;
      Pow2Add(hi, 8);
      Pow2Eight();
      ByteCleared(i, b, Pow2(hi));
    }
  }

  /** Masking an address is masking all but its last byte, then the last
      byte. */
  lemma MaskedSnoc(bs: seq<byte>, prefix: nat)
    requires |bs| > 0
    ensures var len := |bs|;
            BytesToNat(Masked(bs, prefix)) ==
              BytesToNat(Masked(bs[..len - 1], prefix)) * 256
              + And(bs[len - 1], MaskByte(OnesInByte(prefix, len - 1)))
  {
    var len := |bs|;
    var mb := Masked(bs, prefix);
    assert mb[..len - 1] == Masked(bs[..len - 1], prefix);
  }

  lemma WholeByteKept(i: int, b: int)
    requires i >= 0 && 0 <= b < 256
    ensures (i - i % 1) * 256 + (b - b % 1) == (i * 256 + b) - (i * 256 + b) % 1
  {
  }

  lemma PartialByteKept(i: int, b: int, d: int, e: int)
    requires i >= 0 && 0 <= b < 256 && d > 0 && e > 0 && d * e == 256
    ensures i * 256 + (b - b % d) == (i * 256 + b) - (i * 256 + b) % d
  {
    assert i * 256 == (i * e) * d;
    ModOfShifted(i * e, d, b);
  }

  lemma ByteCleared(i: int, b: int, d: int)
    requires i >= 0 && 0 <= b < 256 && d > 0
    ensures (i - i % d) * 256 + (b - b % 256) == (i * 256 + b) - (i * 256 + b) % (d * 256)
  {
    var q, r := i / d, i % d;
    assert i == q * d + r;
    assert 0 <= r * 256 + b < d * 256 by {
      MulLe(r, d - 1, 256);
    }
    assert i * 256 + b == q * (d * 256) + (r * 256 + b);
    DivModUnique(i * 256 + b, d * 256, q, r * 256 + b);
    DivModUnique(b, 256, 0, b);
  }

  /** Adding whole multiples of `d` leaves the remainder alone. */
  lemma ModOfShifted(q: int, d: int, b: int)
    requires d > 0 && q >= 0 && b >= 0
    ensures (q * d + b) % d == b % d
  {
    var k, r := b / d, b % d;
    assert b == k * d + r;
    assert q * d + b == (q + k) * d + r;
    DivModUnique(q * d + b, d, q + k, r);
  }
}

=== FILE: script_updates.dfy ===
/** Writing captured output back into the script archive
    (`applyScriptUpdates` in testscript.go).

    In update mode a failing comparison records `name -> content` in a map of
    updates. At the end of the run every archive file whose name is a key of
    that map gets the new content (quoted first when the archive format needs
    it); an update whose name matches no file is an internal error (a panic);
    a quoting failure fails the test. The updated archive is then formatted
    and written to disk, which is not modelled: the result is the archive
    that would be written.

    Go visits the map in an unspecified order; the model takes that order as
    a parameter and shows that a successful result does not depend on it. The
    archive codec's `NeedsQuote` and `Quote` are parameters. */
module ScriptUpdates {
  import opened Wrappers

  datatype File = File(name: string, data: string)

  /** A parsed script: the leading comment (the script text) and the
      embedded files, in order. */
  datatype Archive = Archive(comment: string, files: seq<File>)

  datatype UpdateError = QuoteFailed(name: string, err: string) | NoSuchFile(name: string)

  datatype UpdateOutcome = NothingToDo | Written(archive: Archive) | Aborted(error: UpdateError)

  /** The archive codec's quoting, applied only where it is needed. */
  function Encode(content: string, needsQuote: string -> bool, quote: string -> Result<string>): Result<string> {
    if needsQuote(content) then quote(content) else Ok(content)
  }

  /** Whether some file of `files` is called `name`. */
  predicate HasFile(files: seq<File>, name: string) {
    exists i | 0 <= i < |files| :: files[i].name == name
  }

  /** The inner loop: every file called `name` gets `data`; the others and
      the order of the files are unchanged. */
  function Rewrite(files: seq<File>, name: string, data: string): (r: seq<File>)
    ensures |r| == |files|
    ensures forall i | 0 <= i < |files| ::
              r[i].name == files[i].name && r[i].data == (if files[i].name == name then data else files[i].data)
  {
    if |files| == 0 then []
    else [if files[0].name == name then File(name, data) else files[0]] + Rewrite(files[1..], name, data)
  }

  /** The state of the update loop: the files so far, or the error that
      ended it. */
  datatype Progress = Going(files: seq<File>) | Stopped(error: UpdateError)

  /** One update: an unknown name is a panic; otherwise the content is quoted
      if needed (a quoting failure fails the test) and written into every
      file with that name. */
  function ApplyOne(files: seq<File>, name: string, content: string,
                    needsQuote: string -> bool, quote: string -> Result<string>): (r: Progress)
    ensures r.Going? <==> Applicable(files, name, content, needsQuote, quote)
    ensures r.Going? ==> r.files == Rewrite(files, name, Encode(content, needsQuote, quote).value)
    ensures r.Stopped? ==> r.error.name == name
    ensures r.Stopped? && r.error.NoSuchFile? <==> !HasFile(files, name)
  {
    if !HasFile(files, name) then Stopped(NoSuchFile(name))
    else match Encode(content, needsQuote, quote)
      case Ok(data) => Going(Rewrite(files, name, data))
      case Err(e) => Stopped(QuoteFailed(name, e))
  }

  /** Whether an update would go through: its file exists and its content
      can be encoded. */
  predicate Applicable(files: seq<File>, name: string, content: string,
                       needsQuote: string -> bool, quote: string -> Result<string>) {
    HasFile(files, name) && Encode(content, needsQuote, quote).Ok?
  }

  /** `order` lists each key of `updates` exactly once, as a `range` over
      the map does. */
  predicate Enumerates(order: seq<string>, updates: map<string, string>) {
    && (forall k | k in updates :: k in order)
    && (forall k | k in order :: k in updates)
    && (forall i, j | 0 <= i < j < |order| :: order[i] != order[j])
  }

  /** The outer loop over the updates in the order given. It never adds,
      drops, renames or reorders files, and a stop names an update it
      visited. */
  function ApplyInOrder(files: seq<File>, order: seq<string>, updates: map<string, string>,
                        needsQuote: string -> bool, quote: string -> Result<string>): (r: Progress)
    requires forall k | k in order :: k in updates
    ensures r.Going? ==> SameNames(r.files, files)
    ensures r.Stopped? ==> r.error.name in order
    decreases |order|
  {
    if |order| == 0 then Going(files)
    else
      match ApplyOne(files, order[0], updates[order[0]], needsQuote, quote)
      case Stopped(e) => Stopped(e)
      case Going(files') => ApplyInOrder(files', order[1..], updates, needsQuote, quote)
  }

  /** Two file lists with the same names in the same order. */
  predicate SameNames(xs: seq<File>, ys: seq<File>) {
    |xs| == |ys| && forall i | 0 <= i < |xs| :: xs[i].name == ys[i].name
  }

  lemma SameNamesHasFile(xs: seq<File>, ys: seq<File>, name: string)
    requires SameNames(xs, ys)
    ensures HasFile(xs, name) == HasFile(ys, name)
  {
    if HasFile(xs, name) {
      var i :| 0 <= i < |xs| && xs[i].name == name;
      assert ys[i].name == name;
    }
    if HasFile(ys, name) {
      var i :| 0 <= i < |ys| && ys[i].name == name;
      assert xs[i].name == name;
    }
  }

  /** What the loop computes, independently of the order: it goes through
      exactly when every update in `order` is applicable, and then each file
      named in `order` holds its encoded content while the rest keep theirs;
      when it stops, the error names an update in `order` that is not
      applicable, and says which way it fails. */
  lemma {:induction false} ApplyInOrderSpec(files: seq<File>, order: seq<string>, updates: map<string, string>,
                                            needsQuote: string -> bool, quote: string -> Result<string>,
                                            r: Progress)
    requires forall k | k in order :: k in updates
    requires r == ApplyInOrder(files, order, updates, needsQuote, quote)
    ensures r.Going? <==> forall k | k in order :: Applicable(files, k, updates[k], needsQuote, quote)
    ensures r.Going? ==> SameNames(r.files, files)
    ensures r.Going? ==>
              forall i | 0 <= i < |files| ::
                r.files[i].data ==
                  if files[i].name in order
                  then Encode(updates[files[i].name], needsQuote, quote).value
                  else files[i].data
    ensures r.Stopped? ==>
              && r.error.name in order
              && !Applicable(files, r.error.name, updates[r.error.name], needsQuote, quote)
              && (r.error.NoSuchFile? <==> !HasFile(files, r.error.name))
    decreases |order|
  {
    if |order| > 0 {
      var name := order[0];
      var step := ApplyOne(files, name, updates[name], needsQuote, quote);
      if step.Going? {
        var files' := step.files;
        assert SameNames(files', files);
        ApplyInOrderSpec(files', order[1..], updates, needsQuote, quote, r);
        forall k | k in updates
          ensures Applicable(files', k, updates[k], needsQuote, quote) == Applicable(files, k, updates[k], needsQuote, quote)
        {
          SameNamesHasFile(files', files, k);
        }
        assert forall k :: k in order <==> k == name || k in order[1..];
        if r.Stopped? {
          SameNamesHasFile(files', files, r.error.name);
        }
      }
    }
  }

  /** A file after the updates, independently of any order: a file named in
      the map holds its encoded update. */
  function UpdatedFile(f: File, updates: map<string, string>,
                       needsQuote: string -> bool, quote: string -> Result<string>): File {
    if f.name in updates then
      match Encode(updates[f.name], needsQuote, quote)
      case Ok(data) => File(f.name, data)
      case Err(_) => f
    else f
  }

  /** The archive's files after the updates. */
  function Updated(files: seq<File>, updates: map<string, string>,
                   needsQuote: string -> bool, quote: string -> Result<string>): (r: seq<File>)
    ensures |r| == |files|
  {
    seq(|files|, i requires 0 <= i < |files| => UpdatedFile(files[i], updates, needsQuote, quote))
  }

  /** `ApplyInOrderSpec` for an order that lists exactly the keys of the
      map: a loop that goes through produces `Updated`. */
  lemma ApplyAllSpec(files: seq<File>, order: seq<string>, updates: map<string, string>,
                     needsQuote: string -> bool, quote: string -> Result<string>, r: Progress)
    requires Enumerates(order, updates)
    requires r == ApplyInOrder(files, order, updates, needsQuote, quote)
    ensures r.Going? <==> forall k | k in updates :: Applicable(files, k, updates[k], needsQuote, quote)
    ensures r.Going? ==> r.files == Updated(files, updates, needsQuote, quote)
    ensures r.Stopped? ==>
              && r.error.name in updates
              && !Applicable(files, r.error.name, updates[r.error.name], needsQuote, quote)
              && (r.error.NoSuchFile? <==> !HasFile(files, r.error.name))
  {
    ApplyInOrderSpec(files, order, updates, needsQuote, quote, r);
    if r.Going? {
      var u := Updated(files, updates, needsQuote, quote);
      forall i | 0 <= i < |files|
        ensures r.files[i].name == u[i].name && r.files[i].data == u[i].data
      {
        if files[i].name in updates {
          assert Applicable(files, files[i].name, updates[files[i].name], needsQuote, quote);
        }
      }
      FilesByNameAndData(r.files, u);
    }
  }

  /** File lists agreeing on every name and every content are equal. */
  lemma FilesByNameAndData(xs: seq<File>, ys: seq<File>)
    requires |xs| == |ys|
    requires forall i | 0 <= i < |xs| :: xs[i].name == ys[i].name && xs[i].data == ys[i].data
    ensures xs == ys
  {
    assert forall i | 0 <= i < |xs| :: xs[i] == ys[i];
  }

  /** `applyScriptUpdates`: nothing happens without updates; otherwise every
      update is applied and the resulting archive is written. */
  function ApplyScriptUpdates(a: Archive, updates: map<string, string>, order: seq<string>,
                              needsQuote: string -> bool, quote: string -> Result<string>): (r: UpdateOutcome)
    requires Enumerates(order, updates)
    ensures |updates| == 0 <==> r.NothingToDo?
  {
    if |updates| == 0 then NothingToDo
    else
      match ApplyInOrder(a.files, order, updates, needsQuote, quote)
      case Going(files) => Written(Archive(a.comment, files))
      case Stopped(e) => Aborted(e)
  }

  /** What `applyScriptUpdates` writes: it writes exactly when every update
      is applicable, and then the archive is the old one with `Updated`
      files; when it aborts, the error names an update that is not
      applicable and says which way it fails. */
  lemma ApplyScriptUpdatesSpec(a: Archive, updates: map<string, string>, order: seq<string>,
                               needsQuote: string -> bool, quote: string -> Result<string>, r: UpdateOutcome)
    requires Enumerates(order, updates)
    requires r == ApplyScriptUpdates(a, updates, order, needsQuote, quote)
    ensures r.Written? <==>
              |updates| > 0 && forall k | k in updates :: Applicable(a.files, k, updates[k], needsQuote, quote)
    ensures r.Written? ==> r.archive == Archive(a.comment, Updated(a.files, updates, needsQuote, quote))
    ensures r.Aborted? ==>
              && r.error.name in updates
              && !Applicable(a.files, r.error.name, updates[r.error.name], needsQuote, quote)
              && (r.error.NoSuchFile? <==> !HasFile(a.files, r.error.name))
  {
    if |updates| > 0 {
      ApplyAllSpec(a.files, order, updates, needsQuote, quote, ApplyInOrder(a.files, order, updates, needsQuote, quote));
    }
  }

  /** The archive written does not depend on the order in which the map of
      updates is visited. */
  lemma UpdateOrderIrrelevant(a: Archive, updates: map<string, string>, o1: seq<string>, o2: seq<string>,
                              needsQuote: string -> bool, quote: string -> Result<string>)
    requires Enumerates(o1, updates) && Enumerates(o2, updates)
    ensures ApplyScriptUpdates(a, updates, o1, needsQuote, quote).Written?
            == ApplyScriptUpdates(a, updates, o2, needsQuote, quote).Written?
    ensures ApplyScriptUpdates(a, updates, o1, needsQuote, quote).Written? ==>
              ApplyScriptUpdates(a, updates, o1, needsQuote, quote)
              == ApplyScriptUpdates(a, updates, o2, needsQuote, quote)
  {
    ApplyScriptUpdatesSpec(a, updates, o1, needsQuote, quote, ApplyScriptUpdates(a, updates, o1, needsQuote, quote));
    ApplyScriptUpdatesSpec(a, updates, o2, needsQuote, quote, ApplyScriptUpdates(a, updates, o2, needsQuote, quote));
  }
}

=== FILE: subnets.dfy ===
/** Choosing private subnets for test networks (`getSubnetByInd`,
    `getIPByInd` and `GetSubnetsNotUsed` in pkg/utils/networking.go).

    Candidate subnet `i` is 192.168.i.0/24, for `i` from 0 to 255, and its
    two addresses are 192.168.i.10 and 192.168.i.11. `GetSubnetsNotUsed`
    walks the candidates in order and keeps the ones in which no
    non-loopback IPv4 address of the host's interfaces lies, until it has as
    many as asked for. The host's interface addresses are a parameter
    (`net.InterfaceAddrs`). */
module Subnets {
  import opened Wrappers
  import opened Bytes
  import opened IP
  import opened Formatting

  /** Candidate subnet `ind`: 192.168.ind.0/24. */
  function Subnet(ind: byte): IPNet {
    IPNet([192, 168, ind, 0], [0xff, 0xff, 0xff, 0])
  }

  /** `getSubnetByInd`: the network `net.ParseCIDR` makes of
      `192.168.<ind>.1/24`, which is the address masked to its first 24
      bits with a 24-bit mask; an index outside 0..255 is an error. */
  function GetSubnetByInd(ind: int): (r: Result<IPNet>)
    ensures r.Ok? <==> 0 <= ind <= 255
    ensures r.Ok? ==> r.value == Subnet(ind)
    ensures r.Err? ==> r.msg == "error in index " + SignedDecimal(ind)
  {
    if ind < 0 || ind > 255 then Err("error in index " + SignedDecimal(ind))
    else
      var m := CIDRMask(24, 4);
      assert m == [0xff, 0xff, 0xff, 0] by {
        Pow2Table();
        assert OnesInByte(24, 3) == 0;
      }
      var ip := IPv4(192, 168, ind, 1);
      assert MaskIP(ip, m) == [192, 168, ind, 0] by {
        assert ip[..12] == V4InV6Prefix && ip[12..] == [192, 168, ind, 1];
        var r := MaskIP(ip, m);
        assert |r| == 4;
        assert r[0] == And(ip[12], m[0]) && r[1] == And(ip[13], m[1]);
        assert r[2] == And(ip[14], m[2]) && r[3] == And(ip[15], m[3]);
      }
      Ok(IPNet(MaskIP(ip, m), m))
  }

  /** `getIPByInd`: the two addresses handed out in subnet `ind`, in the
      16-byte form `net.ParseIP` gives; an index outside 0..255 is an
      error. */
  function GetIPByInd(ind: int): (r: Result<seq<seq<byte>>>)
    ensures r.Ok? <==> 0 <= ind <= 255
    ensures r.Ok? ==> |r.value| == 2
    ensures r.Err? ==> r.msg == "error in index " + SignedDecimal(ind)
    ensures r.Ok? ==> |r.value[0]| == 16 && To4(r.value[0]) == Some([192, 168, ind, 10])
    ensures r.Ok? ==> |r.value[1]| == 16 && To4(r.value[1]) == Some([192, 168, ind, 11])
  {
    if ind < 0 || ind > 255 then Err("error in index " + SignedDecimal(ind))
    else
      To4OfIPv4(192, 168, ind, 10);
      To4OfIPv4(192, 168, ind, 11);
      Ok([IPv4(192, 168, ind, 10), IPv4(192, 168, ind, 11)])
  }

  /** An address lies in subnet `ind` exactly when it is an IPv4 address
      (in either form) starting 192.168.ind. */
  lemma SubnetContains(ind: int, ip: seq<byte>)
    requires 0 <= ind <= 255
    ensures Contains(Subnet(ind), ip) <==>
              To4(ip).Some? && To4(ip).value[..3] == [192, 168, ind]
  {
    var n := Subnet(ind);
    var m: seq<byte> := [0xff, 0xff, 0xff, 0];
    assert NetworkNumberAndMask(n) == (n.ip, m);
    if To4(ip).Some? {
      var v := To4(ip).value;
      if SameUnderMask(n.ip, m, v) {
        assert And(v[0], m[0]) == And(n.ip[0], m[0]);
        assert And(v[1], m[1]) == And(n.ip[1], m[1]);
        assert And(v[2], m[2]) == And(n.ip[2], m[2]);
        assert v[..3] == [v[0], v[1], v[2]];
      }
    }
  }

  /** Both addresses handed out for a subnet lie in it, and neither is a
      loopback address. */
  lemma AddressesInSubnet(ind: int)
    requires 0 <= ind <= 255
    ensures var ips := GetIPByInd(ind).value;
            forall k | 0 <= k < 2 :: Contains(Subnet(ind), ips[k]) && !IsLoopback(ips[k])
  {
    var ips := GetIPByInd(ind).value;
    To4OfIPv4(192, 168, ind, 10);
    To4OfIPv4(192, 168, ind, 11);
    SubnetContains(ind, ips[0]);
    SubnetContains(ind, ips[1]);
    assert [192, 168, ind, 10][..3] == [192, 168, ind];
    assert [192, 168, ind, 11][..3] == [192, 168, ind];
  }

  /** Distinct candidates share no address. */
  lemma SubnetsDisjoint(i: int, j: int, ip: seq<byte>)
    requires 0 <= i <= 255 && 0 <= j <= 255 && i != j
    ensures !(Contains(Subnet(i), ip) && Contains(Subnet(j), ip))
  {
    SubnetContains(i, ip);
    SubnetContains(j, ip);
  }

  /** Every candidate lies in 192.168.0.0/16, the private block of section 3
      of RFC 1918. */
  lemma SubnetsArePrivate(ind: int, ip: seq<byte>)
    requires 0 <= ind <= 255
    requires Contains(Subnet(ind), ip)
    ensures Contains(IPNet([192, 168, 0, 0], [0xff, 0xff, 0, 0]), ip)
  {
    SubnetContains(ind, ip);
    var v := To4(ip).value;
    assert v[0] == 192 && v[1] == 168 by {
      assert v[..3][0] == v[0] && v[..3][1] == v[1];
    }
  }

  // ---------------------------------------------------------------------
  // GetSubnetsNotUsed.

  /** An interface address as `net.InterfaceAddrs` reports it: an address
      with its network, or some other kind of `net.Addr`. */
  datatype InterfaceAddr = IPNetAddr(ip: seq<byte>, mask: seq<byte>) | OtherAddr

  /** One subnet chosen for a test network and its two addresses. */
  datatype IFInfo = IFInfo(subnet: IPNet, first: seq<byte>, second: seq<byte>)

  /** Whether interface address `a` rules out subnet `n`: it is a
      non-loopback IPv4 address inside it. */
  predicate Blocks(a: InterfaceAddr, n: IPNet) {
    a.IPNetAddr? && !IsLoopback(a.ip) && To4(a.ip).Some? && Contains(n, a.ip)
  }

  /** Whether candidate `ind` is in use on the host. */
  predicate InUse(addrs: seq<InterfaceAddr>, ind: int)
    requires 0 <= ind <= 255
  {
    exists k | 0 <= k < |addrs| :: Blocks(addrs[k], Subnet(ind))
  }

  /** Which of the 256 candidates are in use. */
  function UsedTable(addrs: seq<InterfaceAddr>): (r: seq<bool>)
    ensures |r| == 256
  {
    seq(256, i requires 0 <= i < 256 => InUse(addrs, i))
  }

  /** The candidates below `n` that are not marked used, in increasing
      order. */
  function FreeBelow(used: seq<bool>, n: nat): (r: seq<int>)
    requires n <= |used|
    ensures forall k | 0 <= k < |r| :: 0 <= r[k] < n
  {
    if n == 0 then []
    else FreeBelow(used, n - 1) + (if used[n - 1] then [] else [n - 1])
  }

  /** The free candidates are exactly the candidates not in use, each once,
      in increasing order. */
  lemma {:induction false} FreeBelowSpec(used: seq<bool>, n: nat)
    requires n <= |used|
    ensures forall i | 0 <= i < n :: i in FreeBelow(used, n) <==> !used[i]
    ensures forall k, l | 0 <= k < l < |FreeBelow(used, n)| :: FreeBelow(used, n)[k] < FreeBelow(used, n)[l]
  {
    if n > 0 {
      FreeBelowSpec(used, n - 1);
    }
  }

  /** Looking further never changes the free candidates already found. */
  lemma {:induction false} FreeBelowPrefix(used: seq<bool>, n: nat, m: nat)
    requires n <= m <= |used|
    ensures |FreeBelow(used, n)| <= |FreeBelow(used, m)|
    ensures FreeBelow(used, n) == FreeBelow(used, m)[..|FreeBelow(used, n)|]
    decreases m - n
  {
    if n < m {
      FreeBelowPrefix(used, n, m - 1);
      var a, b := FreeBelow(used, n), FreeBelow(used, m - 1);
      assert FreeBelow(used, m)[..|b|] == b;
      assert b[..|a|] == a;
    }
  }

  /** What the search hands out for candidate `ind`. */
  function Info(ind: int): IFInfo
    requires 0 <= ind <= 255
  {
    IFInfo(Subnet(ind), GetIPByInd(ind).value[0], GetIPByInd(ind).value[1])
  }

  /** What the search hands out for the free candidates below `n`, in
      order. */
  function FreeInfos(used: seq<bool>, n: nat): seq<IFInfo>
    requires n <= |used| && n <= 256
  {
    if n == 0 then [] else FreeInfos(used, n - 1) + (if used[n - 1] then [] else [Info(n - 1)])
  }

  /** `FreeInfos` hands out one entry per free candidate, for that
      candidate. */
  lemma {:induction false} FreeInfosSpec(used: seq<bool>, n: nat)
    requires n <= |used| && n <= 256
    ensures |FreeInfos(used, n)| == |FreeBelow(used, n)|
    ensures forall k | 0 <= k < |FreeBelow(used, n)| :: FreeInfos(used, n)[k] == Info(FreeBelow(used, n)[k])
  {
    if n > 0 {
      FreeInfosSpec(used, n - 1);
    }
  }

  /** The inner loop of `GetSubnetsNotUsed`: whether some interface
      address rules out subnet `n`. */
  method AnyBlocks(addrs: seq<InterfaceAddr>, n: IPNet) returns (contains: bool)
    ensures contains <==> exists k | 0 <= k < |addrs| :: Blocks(addrs[k], n)
  {
    contains := false;
    var i := 0;
    while i < |addrs|
      invariant 0 <= i <= |addrs|
      invariant !exists k | 0 <= k < i :: Blocks(addrs[k], n)
    {
      if Blocks(addrs[i], n) {
        return true;
      }
      i := i + 1;
    }
  }

  /** One round of the search in `GetSubnetsNotUsed`: candidate `cur` is
      handed out when no interface address blocks it; past the last
      candidate `getSubnetByInd` fails. */
  method Examine(addrs: seq<InterfaceAddr>, cur: int) returns (r: Result<Option<IFInfo>>)
    requires 0 <= cur <= 256
    ensures r.Err? <==> cur == 256
    ensures r.Err? ==> r.msg == "error in GetSubnetsNotUsed: error in index 256"
    ensures r.Ok? ==> (r.value.Some? <==> !UsedTable(addrs)[cur])
    ensures r.Ok? && r.value.Some? ==> r.value.value == Info(cur)
  {
    var curNet := GetSubnetByInd(cur);
    if curNet.Err? {
      ExhaustedText();
      return Err("error in GetSubnetsNotUsed: " + curNet.msg);
    }
    var contains := AnyBlocks(addrs, curNet.value);
    assert UsedTable(addrs)[cur] == InUse(addrs, cur);
    if contains {
      return Ok(None);
    }
    var ips := GetIPByInd(cur).value;
    return Ok(Some(IFInfo(curNet.value, ips[0], ips[1])));
  }

  /** The message of the round past the last candidate, as `%d` prints 256. */
  lemma ExhaustedText()
    ensures "error in GetSubnetsNotUsed: " + ("error in index " + SignedDecimal(256))
            == "error in GetSubnetsNotUsed: error in index 256"
  {
    var d := SignedDecimal(256);
    assert d == "256" by {
      assert Decimal(2) == "2";
      assert Decimal(25) == Decimal(2) + "5";
    }
  }

  /** No interface address lies in a subnet the search hands out. */
  lemma FreeIsUnblocked(addrs: seq<InterfaceAddr>, k: int, a: InterfaceAddr)
    requires 0 <= k < |FreeBelow(UsedTable(addrs), 256)| && a in addrs
    ensures !Blocks(a, Info(FreeBelow(UsedTable(addrs), 256)[k]).subnet)
  {
    var all := FreeBelow(UsedTable(addrs), 256);
    FreeBelowSpec(UsedTable(addrs), 256);
    assert all[k] in all;
    assert !UsedTable(addrs)[all[k]];
  }

  /** No interface address lies in any subnet among the first free
      candidates. */
  lemma HandedOutUnblocked(addrs: seq<InterfaceAddr>, result: seq<IFInfo>)
    requires |result| <= |FreeBelow(UsedTable(addrs), 256)|
    requires forall k | 0 <= k < |result| :: result[k] == Info(FreeBelow(UsedTable(addrs), 256)[k])
    ensures forall k, a | 0 <= k < |result| && a in addrs :: !Blocks(a, result[k].subnet)
  {
    forall k, a | 0 <= k < |result| && a in addrs
      ensures !Blocks(a, result[k].subnet)
    {
      FreeIsUnblocked(addrs, k, a);
    }
  }

  /** `GetSubnetsNotUsed`: the first `count` free candidates, or an error
      when there are fewer. */
  method GetSubnetsNotUsed(count: int, addrs: seq<InterfaceAddr>) returns (r: Result<seq<IFInfo>>)
    ensures r.Ok? <==> count <= |FreeBelow(UsedTable(addrs), 256)|
    ensures r.Err? ==> r.msg == "error in GetSubnetsNotUsed: error in index 256"
    ensures r.Ok? ==> |r.value| == (if count > 0 then count else 0)
    ensures r.Ok? ==> forall k | 0 <= k < |r.value| :: r.value[k] == Info(FreeBelow(UsedTable(addrs), 256)[k])
    ensures r.Ok? ==> forall k, a | 0 <= k < |r.value| && a in addrs :: !Blocks(a, r.value[k].subnet)
  {
    var result: seq<IFInfo> := [];
    var cur := 0;
    while |result| < count
      invariant 0 <= cur <= 256
      invariant result == FreeInfos(UsedTable(addrs), cur)
      invariant |result| <= (if count > 0 then count else 0)
      decreases 256 - cur
    {
      var step := Examine(addrs, cur);
      if step.Err? {
        FreeInfosSpec(UsedTable(addrs), cur);
        return Err(step.msg);
      }
      if step.value.Some? {
        result := result + [step.value.value];
      }
      cur := cur + 1;
    }
    FreeInfosSpec(UsedTable(addrs), cur);
    FreeBelowPrefix(UsedTable(addrs), cur, 256);
    HandedOutUnblocked(addrs, result);
    return Ok(result);
  }
}

=== FILE: tokenizer.dfy ===
/** The script-line tokenizer of the test-script interpreter (`parse` in
    testscript.go).

    A line is split into words on unquoted space, tab or carriage return;
    an unquoted `#` ends the line; text between single quotes is taken
    verbatim (no splitting, no variable expansion) and a doubled `''`
    inside quotes stands for one literal quote. Variable expansion of the
    unquoted chunks is the caller-supplied function `expand` (the source
    uses `os.Expand` over the script environment).

    `Scan` is the functional reference: it walks the remaining suffix of the
    line carrying exactly the state of the source's loop. `Parse` is the
    index loop itself, proved to agree with `Scan`. */
module Tokenizer {
  import opened Wrappers

  const UnterminatedQuote: string := "unterminated quoted argument"

  /** Unquoted characters that separate words. */
  predicate IsSpace(c: char) {
    c == ' ' || c == '\t' || c == '\r'
  }

  /** Closes the chunk that is open (if any) and appends the finished word. */
  function Flush(chunk: Option<string>, arg: string, args: seq<string>, expand: string -> string): seq<string> {
    match chunk
    case Some(c) => args + [arg + expand(c)]
    case None => args
  }

  /** Expands the unquoted chunk (if any) that precedes an opening quote. */
  function Absorb(arg: string, chunk: Option<string>, expand: string -> string): string {
    match chunk
    case Some(c) => arg + expand(c)
    case None => arg
  }

  /** Reference tokenizer. `rest` is the unread part of the line; `quoted`
      says whether we are inside a quoted region; `chunk` is the text read
      since the current chunk started (`None` when no word is open); `arg`
      is the word built so far from earlier chunks; `args` the finished
      words. */
  function Scan(rest: string, quoted: bool, chunk: Option<string>, arg: string, args: seq<string>,
                expand: string -> string): Result<seq<string>>
    decreases |rest|
  {
    if !quoted && (|rest| == 0 || IsSpace(rest[0]) || rest[0] == '#') then
      var done := Flush(chunk, arg, args, expand);
      if |rest| == 0 || rest[0] == '#' then Ok(done)
      else Scan(rest[1..], false, None, if chunk.Some? then "" else arg, done, expand)
    else if |rest| == 0 then
      Err(UnterminatedQuote)
    else if rest[0] == '\'' then
      if !quoted then
        // an opening quote: expand the unquoted chunk before it
        Scan(rest[1..], true, Some(""), Absorb(arg, chunk, expand), args, expand)
      else if |rest| > 1 && rest[1] == '\'' then
        // a doubled quote: the second quote starts the next verbatim chunk
        Scan(rest[2..], true, Some("'"), arg + chunk.GetOr(""), args, expand)
      else
        // a closing quote: the quoted chunk is kept verbatim
        Scan(rest[1..], false, Some(""), arg + chunk.GetOr(""), args, expand)
    else
      Scan(rest[1..], quoted, Some(chunk.GetOr("") + [rest[0]]), arg, args, expand)
  }

  /** The words of a whole line, or the fatal error for an open quote. */
  function Tokenize(line: string, expand: string -> string): Result<seq<string>> {
    Scan(line, false, None, "", [], expand)
  }

  /** The source's index loop: `start` is the position where the current
      chunk starts (-1 if none), `arg` the word so far. */
  method Parse(line: string, expand: string -> string) returns (r: Result<seq<string>>)
    ensures r == Tokenize(line, expand)
  {
    var args: seq<string> := [];
    var arg: string := "";
    var start: int := -1;
    var quoted := false;
    var i := 0;
    while true
      invariant 0 <= i <= |line|
      invariant -1 <= start <= i
      invariant quoted ==> start >= 0
      invariant Scan(line[i..], quoted, if start >= 0 then Some(line[start..i]) else None, arg, args, expand)
                == Tokenize(line, expand)
      decreases |line| - i
    {
      if i < |line| {
        assert line[i..][0] == line[i] && line[i..][1..] == line[i + 1..];
      }
      if !quoted && (i >= |line| || IsSpace(line[i]) || line[i] == '#') {
        // found an argument-separating character
        if start >= 0 {
          arg := arg + expand(line[start..i]);
          args := args + [arg];
          start := -1;
          arg := "";
        }
        if i >= |line| || line[i] == '#' {
          return Ok(args);
        }
        i := i + 1;
        continue;
      }
      if i >= |line| {
        return Err(UnterminatedQuote);
      }
      if line[i] == '\'' {
        if !quoted {
          if start >= 0 {
            arg := arg + expand(line[start..i]);
          }
          start := i + 1;
          quoted := true;
          i := i + 1;
          continue;
        }
        if i + 1 < |line| && line[i + 1] == '\'' {
          assert line[i..][2..] == line[i + 2..] && line[i + 1..i + 2] == "'";
          arg := arg + line[start..i];
          start := i + 1;
          i := i + 2;
          continue;
        }
        arg := arg + line[start..i];
        start := i + 1;
        quoted := false;
        i := i + 1;
        continue;
      }
      ghost var chunk := if start >= 0 then Some(line[start..i]) else None;
      if start < 0 {
        start := i;
      }
      assert line[start..i + 1] == chunk.GetOr("") + [line[i]];
      i := i + 1;
     
    }
  }
}

=== FILE: tokenizer_props.dfy ===
/** Properties of the script-line tokenizer, each stated against a definition
    that does not mention the tokenizer's state machine: the parity of the
    quotes before a position, a plain whitespace splitter, and a quoting
    encoder for argument vectors. */
module TokenizerProps {
  import opened Wrappers
  import opened Tokenizer

  /** Number of single-quote characters in `s`. */
  function CountQuotes(s: string): nat {
    if |s| == 0 then 0 else (if s[0] == '\'' then 1 else 0) + CountQuotes(s[1..])
  }

  /** Whether position `k` of `s` lies inside a quoted region when scanning
      starts in state `quoted`. A doubled `''` adds two quotes and so does
      not change the parity. */
  predicate QuotedAt(quoted: bool, s: string, k: nat)
    requires k <= |s|
  {
    quoted != (CountQuotes(s[..k]) % 2 == 1)
  }

  /** Whether position `k` of a whole line lies inside quotes. */
  predicate InQuotes(line: string, k: nat)
    requires k <= |line|
  {
    QuotedAt(false, line, k)
  }

  /** Every `#` of `s` lies inside quotes (so none of them ends the line). */
  predicate AllHashesQuoted(quoted: bool, s: string) {
    forall k | 0 <= k < |s| && s[k] == '#' :: QuotedAt(quoted, s, k)
  }

  lemma CountQuotesPrefix(s: string, k: nat)
    requires 0 < k <= |s|
    ensures CountQuotes(s[..k]) == (if s[0] == '\'' then 1 else 0) + CountQuotes(s[1..][..k - 1])
  {
    assert s[..k][1..] == s[1..][..k - 1];
  }

  /** Dropping the first character of `s` shifts every position by one and
      toggles the starting state when that character is a quote. */
  lemma QuotedAtShift(quoted: bool, s: string, k: nat)
    requires 0 < k <= |s|
    ensures QuotedAt(quoted, s, k) == QuotedAt(quoted != (s[0] == '\''), s[1..], k - 1)
  {
    CountQuotesPrefix(s, k);
  }

  lemma AllHashesQuotedShift(quoted: bool, s: string)
    requires 0 < |s|
    ensures AllHashesQuoted(quoted, s) <==>
              (s[0] == '#' ==> quoted) && AllHashesQuoted(quoted != (s[0] == '\''), s[1..])
  {
    var q' := quoted != (s[0] == '\'');
    if AllHashesQuoted(quoted, s) {
      forall k | 0 <= k < |s[1..]| && s[1..][k] == '#'
        ensures QuotedAt(q', s[1..], k)
      {
        QuotedAtShift(quoted, s, k + 1);
      }
    }
    if (s[0] == '#' ==> quoted) && AllHashesQuoted(q', s[1..]) {
      forall k | 0 <= k < |s| && s[k] == '#'
        ensures QuotedAt(quoted, s, k)
      {
        if k > 0 {
          QuotedAtShift(quoted, s, k);
        }
      }
    }
  }

  /** An unquoted `#` at relative position `k` cuts the rest of the line:
      scanning the whole suffix and scanning only what precedes the `#` give
      the same words. */
  lemma {:induction false} ScanStopsAtHash(rest: string, k: nat, quoted: bool, chunk: Option<string>,
                                           arg: string, args: seq<string>, expand: string -> string)
    requires k < |rest| && rest[k] == '#'
    requires !QuotedAt(quoted, rest, k)
    ensures Scan(rest, quoted, chunk, arg, args, expand) == Scan(rest[..k], quoted, chunk, arg, args, expand)
    decreases k
  {
    var pre := rest[..k];
    if k > 0 {
      QuotedAtShift(quoted, rest, k);
      assert pre[0] == rest[0];
      assert pre[1..] == rest[1..][..k - 1];
      if !quoted && (IsSpace(rest[0]) || rest[0] == '#') {
        if !(rest[0] == '#') {
          ScanStopsAtHash(rest[1..], k - 1, false, None, if chunk.Some? then "" else arg,
                          Flush(chunk, arg, args, expand), expand);
        }
      } else if rest[0] == '\'' {
        if !quoted {
          ScanStopsAtHash(rest[1..], k - 1, true, Some(""), Absorb(arg, chunk, expand), args, expand);
        } else if rest[1] == '\'' {
          assert k >= 2;
          QuotedAtShift(!quoted, rest[1..], k - 1);
          assert rest[1..][1..] == rest[2..];
          assert pre[2..] == rest[2..][..k - 2];
          ScanStopsAtHash(rest[2..], k - 2, true, Some("'"), arg + chunk.GetOr(""), args, expand);
        } else {
          ScanStopsAtHash(rest[1..], k - 1, false, Some(""), arg + chunk.GetOr(""), args, expand);
        }
      } else {
        ScanStopsAtHash(rest[1..], k - 1, quoted, Some(chunk.GetOr("") + [rest[0]]), arg, args, expand);
      }
    }
  }

  /** An unquoted `#` ends tokenization: nothing after it becomes a word. */
  lemma CommentEndsLine(line: string, k: nat, expand: string -> string)
    requires k < |line| && line[k] == '#' && !InQuotes(line, k)
    ensures Tokenize(line, expand) == Tokenize(line[..k], expand)
  {
    ScanStopsAtHash(line, k, false, None, "", [], expand);
  }

  /** Scanning fails exactly when it reaches the end of the text inside
      quotes, that is, when every `#` is quoted and the quotes are unbalanced
      at the end; the only failure is the unterminated-quote error. */
  lemma {:induction false} ScanFailsIff(rest: string, quoted: bool, chunk: Option<string>,
                                        arg: string, args: seq<string>, expand: string -> string)
    ensures Scan(rest, quoted, chunk, arg, args, expand).Err? <==>
              AllHashesQuoted(quoted, rest) && QuotedAt(quoted, rest, |rest|)
    ensures Scan(rest, quoted, chunk, arg, args, expand).Err? ==>
              Scan(rest, quoted, chunk, arg, args, expand).msg == UnterminatedQuote
    decreases |rest|
  {
    if |rest| == 0 {
      assert rest[..0] == rest;
    } else {
      AllHashesQuotedShift(quoted, rest);
      QuotedAtShift(quoted, rest, |rest|);
      assert rest[..|rest|] == rest && rest[1..][..|rest| - 1] == rest[1..];
      if !quoted && (IsSpace(rest[0]) || rest[0] == '#') {
        if !(rest[0] == '#') {
          ScanFailsIff(rest[1..], false, None, if chunk.Some? then "" else arg,
                       Flush(chunk, arg, args, expand), expand);
        }
      } else if rest[0] == '\'' {
        if !quoted {
          ScanFailsIff(rest[1..], true, Some(""), Absorb(arg, chunk, expand), args, expand);
        } else if |rest| > 1 && rest[1] == '\'' {
          var r1 := rest[1..];
          AllHashesQuotedShift(false, r1);
          QuotedAtShift(false, r1, |r1|);
          assert r1[1..] == rest[2..];
          assert r1[..|r1|] == r1 && r1[1..][..|r1| - 1] == r1[1..];
          ScanFailsIff(rest[2..], true, Some("'"), arg + chunk.GetOr(""), args, expand);
        } else {
          ScanFailsIff(rest[1..], false, Some(""), arg + chunk.GetOr(""), args, expand);
        }
      } else {
        ScanFailsIff(rest[1..], quoted, Some(chunk.GetOr("") + [rest[0]]), arg, args, expand);
      }
    }
  }

  /** A line is rejected as "unterminated quoted argument" exactly when no
      unquoted `#` cuts it short and it ends inside quotes. */
  lemma UnterminatedIff(line: string, expand: string -> string)
    ensures Tokenize(line, expand).Err? <==>
              (forall k | 0 <= k < |line| && line[k] == '#' :: InQuotes(line, k)) && InQuotes(line, |line|)
    ensures Tokenize(line, expand).Err? ==> Tokenize(line, expand).msg == UnterminatedQuote
  {
    ScanFailsIff(line, false, None, "", [], expand);
  }

  // ---------------------------------------------------------------------
  // Lines without quotes or comments: plain whitespace splitting.

  /** No quote and no `#` anywhere in `s`. */
  predicate Plain(s: string) {
    forall k | 0 <= k < |s| :: s[k] != '\'' && s[k] != '#'
  }

  /** Length of the run of non-space characters at the start of `s`. */
  function WordLen(s: string): (n: nat)
    ensures n <= |s|
    ensures forall k | 0 <= k < n :: !IsSpace(s[k])
    ensures n < |s| ==> IsSpace(s[n])
  {
    if |s| == 0 || IsSpace(s[0]) then 0 else 1 + WordLen(s[1..])
  }

  /** The maximal runs of non-space characters of `s`, in order. */
  function Fields(s: string): seq<string>
    decreases |s|
  {
    if |s| == 0 then []
    else if IsSpace(s[0]) then Fields(s[1..])
    else
      var n := WordLen(s);
      [s[..n]] + Fields(s[n..])
  }

  function Map(f: string -> string, xs: seq<string>): (ys: seq<string>)
    ensures |ys| == |xs|
    ensures forall i | 0 <= i < |xs| :: ys[i] == f(xs[i])
  {
    if |xs| == 0 then [] else [f(xs[0])] + Map(f, xs[1..])
  }

  // One turn of `Scan` in each of the cases the proofs below meet.

  lemma ScanEnd(chunk: Option<string>, arg: string, args: seq<string>, expand: string -> string)
    ensures Scan("", false, chunk, arg, args, expand) == Ok(Flush(chunk, arg, args, expand))
  {
  }

  lemma ScanSpace(rest: string, chunk: Option<string>, arg: string, args: seq<string>, expand: string -> string)
    requires |rest| > 0 && IsSpace(rest[0])
    ensures Scan(rest, false, chunk, arg, args, expand)
            == Scan(rest[1..], false, None, if chunk.Some? then "" else arg, Flush(chunk, arg, args, expand), expand)
  {
  }

  lemma ScanChar(rest: string, quoted: bool, chunk: Option<string>, arg: string, args: seq<string>,
                 expand: string -> string)
    requires |rest| > 0 && rest[0] != '\''
    requires quoted || (!IsSpace(rest[0]) && rest[0] != '#')
    ensures Scan(rest, quoted, chunk, arg, args, expand)
            == Scan(rest[1..], quoted, Some(chunk.GetOr("") + [rest[0]]), arg, args, expand)
  {
  }

  lemma ScanOpenQuote(rest: string, chunk: Option<string>, arg: string, args: seq<string>, expand: string -> string)
    requires |rest| > 0 && rest[0] == '\''
    ensures Scan(rest, false, chunk, arg, args, expand)
            == Scan(rest[1..], true, Some(""), Absorb(arg, chunk, expand), args, expand)
  {
  }

  lemma ScanDoubledQuote(rest: string, chunk: Option<string>, arg: string, args: seq<string>,
                         expand: string -> string)
    requires |rest| > 1 && rest[0] == '\'' && rest[1] == '\''
    ensures Scan(rest, true, chunk, arg, args, expand)
            == Scan(rest[2..], true, Some("'"), arg + chunk.GetOr(""), args, expand)
  {
  }

  lemma ScanCloseQuote(rest: string, chunk: Option<string>, arg: string, args: seq<string>,
                       expand: string -> string)
    requires |rest| > 0 && rest[0] == '\'' && (|rest| == 1 || rest[1] != '\'')
    ensures Scan(rest, true, chunk, arg, args, expand)
            == Scan(rest[1..], false, Some(""), arg + chunk.GetOr(""), args, expand)
  {
  }

  /** A plain text ending a word: its first character separates, so it
      starts no field. */
  lemma FieldsAfterSpace(rest: string)
    requires |rest| > 0 && IsSpace(rest[0])
    ensures WordLen(rest) == 0 && rest[0..] == rest && Fields(rest) == Fields(rest[1..])
  {
  }

  /** The first character of a plain word extends the word. */
  lemma WordLenStep(rest: string)
    requires |rest| > 0 && !IsSpace(rest[0])
    ensures WordLen(rest) == 1 + WordLen(rest[1..])
    ensures rest[1..][WordLen(rest[1..])..] == rest[WordLen(rest)..]
  {
  }

  lemma PlainTail(rest: string)
    requires |rest| > 0 && Plain(rest)
    ensures Plain(rest[1..]) && rest[0] != '\'' && rest[0] != '#'
  {
    assert forall k | 0 <= k < |rest| - 1 :: rest[1..][k] == rest[k + 1];
  }

  lemma {:induction false} ScanPlainOpen(rest: string, c: string, arg: string, args: seq<string>,
                                         expand: string -> string)
    requires Plain(rest)
    ensures Scan(rest, false, Some(c), arg, args, expand)
            == Ok(args + [arg + expand(c + rest[..WordLen(rest)])] + Map(expand, Fields(rest[WordLen(rest)..])))
    decreases |rest|, 1
  {
    if |rest| == 0 {
      ScanPlainOpenEnd(rest, c, arg, args, expand);
    } else if IsSpace(rest[0]) {
      ScanPlainOpenSpace(rest, c, arg, args, expand);
    } else {
      PlainTail(rest);
      ScanChar(rest, false, Some(c), arg, args, expand);
      WordLenStep(rest);
      var n' := WordLen(rest[1..]);
      ScanPlainOpen(rest[1..], c + [rest[0]], arg, args, expand);
      assert c + [rest[0]] + rest[1..][..n'] == c + rest[..n' + 1];
    }
  }

  /** `ScanPlainOpen` at the end of the text. */
  lemma ScanPlainOpenEnd(rest: string, c: string, arg: string, args: seq<string>, expand: string -> string)
    requires |rest| == 0
    ensures Scan(rest, false, Some(c), arg, args, expand)
            == Ok(args + [arg + expand(c + rest[..WordLen(rest)])] + Map(expand, Fields(rest[WordLen(rest)..])))
  {
    ScanEnd(Some(c), arg, args, expand);
    assert c + rest[..0] == c;
    assert Map(expand, Fields(rest[0..])) == [];
    assert args + [arg + expand(c)] + [] == args + [arg + expand(c)];
  }

  /** `ScanPlainOpen` at a separator. */
  lemma {:induction false} ScanPlainOpenSpace(rest: string, c: string, arg: string, args: seq<string>,
                                              expand: string -> string)
    requires Plain(rest) && |rest| > 0 && IsSpace(rest[0])
    ensures Scan(rest, false, Some(c), arg, args, expand)
            == Ok(args + [arg + expand(c + rest[..WordLen(rest)])] + Map(expand, Fields(rest[WordLen(rest)..])))
    decreases |rest|, 0
  {
    PlainTail(rest);
    ScanSpace(rest, Some(c), arg, args, expand);
    ScanPlainClosed(rest[1..], args + [arg + expand(c)], expand);
    FieldsAfterSpace(rest);
    assert c + rest[..0] == c;
  }

  lemma SliceCons(s: string, n: nat)
    requires 0 < n <= |s|
    ensures [s[0]] + s[1..][..n - 1] == s[..n]
  {
    assert forall k | 0 <= k < n :: ([s[0]] + s[1..][..n - 1])[k] == s[..n][k];
  }

  lemma FieldsCons(s: string)
    requires |s| > 0 && !IsSpace(s[0])
    ensures Fields(s) == [s[..WordLen(s)]] + Fields(s[WordLen(s)..])
  {
  }

  lemma MapCons(f: string -> string, x: string, xs: seq<string>)
    ensures Map(f, [x] + xs) == [f(x)] + Map(f, xs)
  {
    assert ([x] + xs)[1..] == xs;
  }

  /** The fields of a text that starts with a word: that word, then the
      fields after it. */
  lemma FieldsOfWord(rest: string, args: seq<string>, expand: string -> string)
    requires |rest| > 0 && !IsSpace(rest[0])
    ensures args + [expand([rest[0]] + rest[1..][..WordLen(rest[1..])])]
                 + Map(expand, Fields(rest[1..][WordLen(rest[1..])..]))
            == args + Map(expand, Fields(rest))
  {
    WordLenStep(rest);
    var n := WordLen(rest);
    SliceCons(rest, n);
    FieldsCons(rest);
    MapCons(expand, rest[..n], Fields(rest[n..]));
    var e := [expand(rest[..n])];
    var m := Map(expand, Fields(rest[n..]));
    assert args + e + m == args + (e + m);
  }

  lemma {:induction false} ScanPlainClosed(rest: string, args: seq<string>, expand: string -> string)
    requires Plain(rest)
    ensures Scan(rest, false, None, "", args, expand) == Ok(args + Map(expand, Fields(rest)))
    decreases |rest|, 2
  {
    if |rest| == 0 {
      ScanEnd(None, "", args, expand);
      assert args + [] == args;
    } else if IsSpace(rest[0]) {
      PlainTail(rest);
      ScanSpace(rest, None, "", args, expand);
      FieldsAfterSpace(rest);
      ScanPlainClosed(rest[1..], args, expand);
    } else {
      PlainTail(rest);
      ScanChar(rest, false, None, "", args, expand);
      assert "" + [rest[0]] == [rest[0]];
      ScanPlainOpen(rest[1..], [rest[0]], "", args, expand);
      FieldsOfWord(rest, args, expand);
      assert "" + expand([rest[0]] + rest[1..][..WordLen(rest[1..])])
             == expand([rest[0]] + rest[1..][..WordLen(rest[1..])]);
    }
  }

  /** Without quotes or comments, a line's words are its whitespace-separated
      fields, each passed once through `expand`. */
  lemma PlainLineIsFields(line: string, expand: string -> string)
    requires Plain(line)
    ensures Tokenize(line, expand) == Ok(Map(expand, Fields(line)))
  {
    ScanPlainClosed(line, [], expand);
    assert [] + Map(expand, Fields(line)) == Map(expand, Fields(line));
  }

  // ---------------------------------------------------------------------
  // Quoting an argument vector and tokenizing it back.

  /** `w` with every single quote doubled. */
  function DoubleQuotes(w: string): string {
    if |w| == 0 then "" else (if w[0] == '\'' then "''" else [w[0]]) + DoubleQuotes(w[1..])
  }

  /** `w` as one single-quoted script word. */
  function QuoteWord(w: string): string {
    "'" + DoubleQuotes(w) + "'"
  }

  /** The words `ws`, each quoted, separated by single spaces. */
  function JoinQuoted(ws: seq<string>): string {
    if |ws| == 0 then ""
    else if |ws| == 1 then QuoteWord(ws[0])
    else QuoteWord(ws[0]) + " " + JoinQuoted(ws[1..])
  }

  /** Inside quotes the text is copied verbatim, doubled quotes becoming
      single ones, up to the closing quote. */
  lemma {:induction false} ScanQuotedBody(w: string, tail: string, c: string, arg: string, args: seq<string>,
                                          expand: string -> string)
    requires |tail| == 0 || tail[0] != '\''
    ensures Scan(DoubleQuotes(w) + "'" + tail, true, Some(c), arg, args, expand)
            == Scan(tail, false, Some(""), arg + c + w, args, expand)
    decreases |w|
  {
    var rest := DoubleQuotes(w) + "'" + tail;
    if |w| == 0 {
      assert rest == "'" + tail;
      assert rest[1..] == tail;
      ScanCloseQuote(rest, Some(c), arg, args, expand);
      assert arg + c + w == arg + c;
    } else if w[0] == '\'' {
      assert rest == "''" + (DoubleQuotes(w[1..]) + "'" + tail);
      assert rest[2..] == DoubleQuotes(w[1..]) + "'" + tail;
      ScanDoubledQuote(rest, Some(c), arg, args, expand);
      ScanQuotedBody(w[1..], tail, "'", arg + c, args, expand);
      assert arg + c + "'" + w[1..] == arg + c + w;
    } else {
      assert rest == [w[0]] + (DoubleQuotes(w[1..]) + "'" + tail);
      assert rest[1..] == DoubleQuotes(w[1..]) + "'" + tail;
      ScanChar(rest, true, Some(c), arg, args, expand);
      ScanQuotedBody(w[1..], tail, c + [w[0]], arg, args, expand);
      assert arg + (c + [w[0]]) + w[1..] == arg + c + w;
    }
  }

  /** One quoted word followed by a separator or the end of the line. */
  lemma ScanQuotedWord(w: string, tail: string, args: seq<string>, expand: string -> string)
    requires |tail| == 0 || tail[0] == ' '
    ensures Scan(QuoteWord(w) + tail, false, None, "", args, expand) == Scan(tail, false, Some(""), w, args, expand)
  {
    var line := QuoteWord(w) + tail;
    assert line == "'" + (DoubleQuotes(w) + "'" + tail);
    assert line[1..] == DoubleQuotes(w) + "'" + tail;
    ScanOpenQuote(line, None, "", args, expand);
    ScanQuotedBody(w, tail, "", "", args, expand);
    assert "" + "" + w == w;
  }

  lemma {:induction false} ScanJoinQuoted(ws: seq<string>, args: seq<string>, expand: string -> string)
    requires expand("") == ""
    ensures Scan(JoinQuoted(ws), false, None, "", args, expand) == Ok(args + ws)
    decreases |ws|
  {
    if |ws| == 0 {
      assert args + ws == args;
    } else if |ws| == 1 {
      ScanQuotedWord(ws[0], "", args, expand);
      ScanEnd(Some(""), ws[0], args, expand);
      assert QuoteWord(ws[0]) + "" == QuoteWord(ws[0]);
      assert ws[0] + expand("") == ws[0];
      assert args + ws == args + [ws[0]];
    } else {
      var tail := " " + JoinQuoted(ws[1..]);
      assert JoinQuoted(ws) == QuoteWord(ws[0]) + tail;
      ScanQuotedWord(ws[0], tail, args, expand);
      ScanSpace(tail, Some(""), ws[0], args, expand);
      assert tail[1..] == JoinQuoted(ws[1..]);
      assert ws[0] + expand("") == ws[0];
      ScanJoinQuoted(ws[1..], args + [ws[0]], expand);
      assert args + [ws[0]] + ws[1..] == args + ws;
    }
  }

  /** Every argument vector has a script spelling that tokenizes back to it:
      quoted text is neither split nor expanded, whatever `expand` does to
      non-empty text. */
  lemma QuotedRoundTrip(ws: seq<string>, expand: string -> string)
    requires expand("") == ""
    ensures Tokenize(JoinQuoted(ws), expand) == Ok(ws)
  {
    ScanJoinQuoted(ws, [], expand);
    assert [] + ws == ws;
  }

  // ---------------------------------------------------------------------
  // Worked examples of the grammar.

  /** A doubled quote inside quotes is one literal quote. */
  lemma DoubledQuoteExample()
    ensures Tokenize("'a''b'", s => s) == Ok(["a'b"])
  {
    assert DoubleQuotes("a'b") == "a''b" by {
      assert "a'b"[1..] == "'b" && "'b"[1..] == "b" && "b"[1..] == "";
    }
    assert JoinQuoted(["a'b"]) == "'a''b'";
    QuotedRoundTrip(["a'b"], s => s);
  }

  /** Nothing after an unquoted `#` becomes a word. */
  lemma CommentExample()
    ensures Tokenize("a # b c", s => s) == Ok(["a"])
  {
    assert "a # b c"[..2] == "a ";
    assert CountQuotes("a ") == 0 by {
      assert "a "[1..] == " " && " "[1..] == "";
    }
    var id := (s: string) => s;
    CommentEndsLine("a # b c", 2, id);
    assert "a "[1..] == " " && "a "[2..] == "";
    assert "" + ['a'] == "a" && id("a") == "a" && [] + ["" + "a"] == ["a"];
    calc {
      Tokenize("a ", id);
      Scan(" ", false, Some("a"), "", [], id);
      Scan("", false, None, "", ["a"], id);
      Ok(["a"]);
    }
  }

  /** An open quote at the end of the line is fatal. */
  lemma UnterminatedExample()
    ensures Tokenize("a 'b", s => s) == Err(UnterminatedQuote)
  {
  }
}

=== FILE: transcript.dfy ===
/** The test log of a script run (testscript.go): the phase bookkeeping of
    `run` (`rewind` and `markTime`), `Logf`, and the two GitHub Actions
    helpers `removeGHAnnotation` and `addGHAnnotation`.

    A phase starts at a `#` line. The log remembers `mark`, the length of the
    log just after the current phase's heading, and whether the phase's start
    time is set. When the next phase starts, a quiet run (no `-v`) cuts the
    finished phase's details back to the mark, and the elapsed time of the
    phase is written into its heading line. The clock is left out: the
    formatted elapsed time is a parameter. */
module Transcript {
  import opened Wrappers
  import opened Formatting

  /** The log text, the mark, and whether the phase's start time is set
      (`!ts.start.IsZero()`). */
  datatype Log = Log(text: string, mark: nat, started: bool)

  /** The empty log a run starts with. */
  const Empty := Log("", 0, false)

  /** The mark lies within the log, and while a phase is timed it sits just
      after the newline that ends the phase heading. */
  predicate WellFormed(l: Log) {
    && l.mark <= |l.text|
    && (l.started ==> l.mark > 0 && l.text[l.mark - 1] == '\n')
  }

  /** The text written into the heading line: ` (<elapsed>s)`. */
  function Stamp(elapsed: string): string {
    " (" + elapsed + "s)"
  }

  /** `rewind`: unless verbose, drop everything after the mark. */
  function Rewind(l: Log, verbose: bool): (r: Log)
    requires l.mark <= |l.text|
    ensures r.mark == l.mark && r.started == l.started
    ensures verbose ==> r == l
    ensures !verbose ==> r.text == l.text[..l.mark]
  {
    if verbose then l else Log(l.text[..l.mark], l.mark, l.started)
  }

  /** `markTime`: while a phase is timed, cut the log back to just before the
      newline ending the heading, write the elapsed time and a newline, and
      put back what followed the mark; then clear the start time. */
  function MarkTime(l: Log, elapsed: string): (r: Log)
    requires WellFormed(l)
    ensures !r.started && r.mark == l.mark
  {
    if l.mark > 0 && l.started then
      var afterMark := l.text[l.mark..];
      Log(l.text[..l.mark - 1] + Stamp(elapsed) + "\n" + afterMark, l.mark, false)
    else Log(l.text, l.mark, false)
  }

  /** The newline `markTime` cuts off is the one it writes back: the only
      change to the log is the stamp, inserted at the end of the heading
      line. */
  lemma MarkTimeInserts(l: Log, elapsed: string)
    requires WellFormed(l)
    ensures var r := MarkTime(l, elapsed);
            && WellFormed(r)
            && r.text == if l.started then l.text[..l.mark - 1] + Stamp(elapsed) + l.text[l.mark - 1..] else l.text
  {
    if l.started {
      var t := l.text;
      var m := l.mark;
      assert t[m - 1..] == "\n" + t[m..];
      var r := MarkTime(l, elapsed);
      assert r.text == t[..m - 1] + Stamp(elapsed) + "\n" + t[m..];
    }
  }

  /** A `#` line (lines 447-465 of `run`): if anything was logged since the
      mark, rewind and stamp the previous phase; then write the heading,
      move the mark after it and start the phase's clock. */
  function BeginPhase(l: Log, heading: string, verbose: bool, elapsed: string): (r: Log)
    requires WellFormed(l)
    ensures WellFormed(r) && r.started && r.mark == |r.text|
  {
    var l' := if |l.text| > l.mark then MarkTime(Rewind(l, verbose), elapsed) else l;
    var text := l'.text + heading + "\n";
    Log(text, |text|, true)
  }

  /** What a new phase leaves of the previous one: a quiet run keeps the log
      only up to the previous heading, a verbose run keeps all of it, and in
      both the previous heading gets its elapsed time provided something
      was logged during that phase. */
  lemma {:induction false} BeginPhaseKeeps(l: Log, heading: string, verbose: bool, elapsed: string)
    requires WellFormed(l)
    ensures var kept := if verbose then l.text else l.text[..l.mark];
            var stamped := if l.started && |l.text| > l.mark
                           then kept[..l.mark - 1] + Stamp(elapsed) + kept[l.mark - 1..]
                           else kept;
            BeginPhase(l, heading, verbose, elapsed).text == stamped + heading + "\n"
  {
    if |l.text| > l.mark {
      var w := Rewind(l, verbose);
      assert WellFormed(w);
      MarkTimeInserts(w, elapsed);
    } else {
      assert l.text[..l.mark] == l.text;
    }
  }

  /** `strings.TrimSuffix(s, "\n")`: at most one final newline removed. */
  function TrimNewline(s: string): (r: string)
    ensures r == s || r + "\n" == s
    ensures |s| > 0 && s[|s| - 1] == '\n' ==> r + "\n" == s
    ensures |r| > 0 && r[|r| - 1] == '\n' ==> |s| >= 2 && s[|s| - 2..] == "\n\n"
  {
    if |s| > 0 && s[|s| - 1] == '\n' then s[..|s| - 1] else s
  }

  /** `Logf`: a final newline is dropped from the format (not from what the
      arguments render to), the format is rendered with its arguments, and
      one newline is written. `render` stands for `fmt.Fprintf` applied to
      the call's arguments. */
  function Logf(l: Log, format: string, render: string -> string): (r: Log)
    requires WellFormed(l)
    ensures WellFormed(r) && r.mark == l.mark && r.started == l.started
    ensures |r.text| > |l.text| && r.text[..|l.text|] == l.text && r.text[|r.text| - 1] == '\n'
    ensures r.text[|l.text|..|r.text| - 1] == render(TrimNewline(format))
  {
    var t := l.text + render(TrimNewline(format)) + "\n";
    assert t[..|l.text|] == l.text;
    assert t[|l.text|..|t| - 1] == render(TrimNewline(format));
    Log(t, l.mark, l.started)
  }

  /** A format written with its final newline logs the same as one written
      without: the format's newline never doubles the one `Logf` adds. */
  lemma LogfFormatNewline(l: Log, format: string, render: string -> string)
    requires WellFormed(l)
    requires format == "" || format[|format| - 1] != '\n'
    ensures Logf(l, format + "\n", render) == Logf(l, format, render)
    ensures Logf(l, format, render).text == l.text + render(format) + "\n"
  {
    assert (format + "\n")[..|format|] == format;
  }

  /** What the arguments render to is kept whole: output ending in a newline,
      as `Exec` logs it under `[stdout]`, is followed by a blank line. */
  lemma LogfStdoutExample()
    ensures Logf(Empty, "[stdout]\n%s", f => if f == "[stdout]\n%s" then "[stdout]\nhello\n" else f).text
            == "[stdout]\nhello\n\n"
  {
    var render := f => if f == "[stdout]\n%s" then "[stdout]\nhello\n" else f;
    assert TrimNewline("[stdout]\n%s") == "[stdout]\n%s";
    assert render("[stdout]\n%s") == "[stdout]\nhello\n";
  }

  /** The end of a run (lines 536-541): the last phase is rewound and
      stamped; a run that was not stopped has its annotation lines removed
      and ends in `PASS`. */
  function EndRun(l: Log, verbose: bool, elapsed: string, stopped: bool): (r: string)
    requires WellFormed(l)
    ensures !stopped ==> |r| >= 5 && r[|r| - 5..] == "PASS\n"
    ensures !stopped ==> !Contains(r, ErrorMarker)
  {
    var l' := MarkTime(Rewind(l, verbose), elapsed);
    if stopped then l'.text
    else
      var t := RemoveGHAnnotation(l'.text);
      PassKeepsNoMarker(l'.text);
      t + "PASS\n"
  }

  /** The log a run ends with, in full: the kept part of the log (all of it
      when verbose, up to the mark otherwise), with the elapsed time written
      into the last heading while that phase is timed. A stopped run ends
      there; any other run has its annotation lines removed and `PASS`
      appended, which leaves a clean log as it was. */
  lemma EndRunText(l: Log, verbose: bool, elapsed: string)
    requires WellFormed(l)
    ensures var kept := if verbose then l.text else l.text[..l.mark];
            var stamped := if l.started then kept[..l.mark - 1] + Stamp(elapsed) + kept[l.mark - 1..] else kept;
            && EndRun(l, verbose, elapsed, true) == stamped
            && EndRun(l, verbose, elapsed, false) == RemoveGHAnnotation(stamped) + "PASS\n"
            && (NoCR(stamped) && !Contains(stamped, ErrorMarker) && (stamped == "" || stamped[|stamped| - 1] == '\n')
                ==> EndRun(l, verbose, elapsed, false) == stamped + "PASS\n")
  {
    var w := Rewind(l, verbose);
    assert WellFormed(w);
    MarkTimeInserts(w, elapsed);
    var stamped := MarkTime(w, elapsed).text;
    if NoCR(stamped) && !Contains(stamped, ErrorMarker) && (stamped == "" || stamped[|stamped| - 1] == '\n') {
      CleanLogUnchanged(stamped);
    }
  }

  // ---------------------------------------------------------------------
  // Substrings.

  /** Whether `pat` occurs in `s` starting at position `i`. */
  predicate OccursAt(s: string, pat: string, i: int) {
    0 <= i && i + |pat| <= |s| && s[i..i + |pat|] == pat
  }

  /** `strings.Contains`. */
  predicate Contains(s: string, pat: string) {
    exists i | 0 <= i <= |s| - |pat| :: OccursAt(s, pat, i)
  }

  predicate NoNewline(s: string) {
    forall j | 0 <= j < |s| :: s[j] != '\n'
  }

  /** An occurrence of a pattern without newlines in `a + "\n" + b` lies
      wholly in `a` or wholly in `b`. */
  lemma ContainsAcrossNewline(a: string, b: string, pat: string)
    requires NoNewline(pat) && Contains(a + "\n" + b, pat)
    ensures Contains(a, pat) || Contains(b, pat)
  {
    var s := a + "\n" + b;
    var i :| 0 <= i <= |s| - |pat| && OccursAt(s, pat, i);
    if i + |pat| <= |a| {
      assert OccursAt(a, pat, i);
    } else if i > |a| {
      assert b[i - |a| - 1..i - |a| - 1 + |pat|] == pat;
      assert OccursAt(b, pat, i - |a| - 1);
    } else {
      CharOfOccurrence(s, pat, i, |a| - i);
      assert false;
    }
  }

  lemma CharOfOccurrence(s: string, pat: string, i: int, k: int)
    requires OccursAt(s, pat, i) && 0 <= k < |pat|
    ensures pat[k] == s[i + k]
  {
    assert s[i..i + |pat|][k] == s[i + k];
  }

  // ---------------------------------------------------------------------
  // removeGHAnnotation.

  /** The text that marks an annotation line. */
  const ErrorMarker := "::error file"

  /** Position of the first newline in `s`, if any. */
  function IndexOfNewline(s: string): (r: Option<nat>)
    ensures r.Some? ==> r.value < |s| && s[r.value] == '\n' && NoNewline(s[..r.value])
    ensures r.None? ==> NoNewline(s)
  {
    if |s| == 0 then None
    else if s[0] == '\n' then Some(0)
    else match IndexOfNewline(s[1..])
      case Some(i) =>
        assert s[..i + 1] == [s[0]] + s[1..][..i];
        Some(i + 1)
      case None => None
  }

  /** `bufio.ScanLines` drops one carriage return at the end of a line. */
  function DropCR(line: string): string {
    if |line| > 0 && line[|line| - 1] == '\r' then line[..|line| - 1] else line
  }

  /** The lines `bufio.Scanner` yields with `ScanLines`: the text split at
      newlines, each line without its trailing carriage return, and no
      empty line after a final newline. */
  function ScanLines(s: string): (r: seq<string>)
    ensures forall k | 0 <= k < |r| :: NoNewline(r[k])
    decreases |s|
  {
    if |s| == 0 then []
    else match IndexOfNewline(s)
      case Some(i) => [DropCR(s[..i])] + ScanLines(s[i + 1..])
      case None => [DropCR(s)]
  }

  /** The kept lines, each followed by a newline. */
  function JoinKept(lines: seq<string>): (r: string)
    ensures |r| == 0 || r[|r| - 1] == '\n'
  {
    if |lines| == 0 then ""
    else if Contains(lines[0], ErrorMarker) then JoinKept(lines[1..])
    else lines[0] + "\n" + JoinKept(lines[1..])
  }

  /** `removeGHAnnotation`: rewrite the log line by line, leaving out every
      line that contains the annotation marker. No marker survives, even
      across lines, and every line written is ended. */
  function RemoveGHAnnotation(log: string): (r: string)
    ensures !Contains(r, ErrorMarker)
    ensures |r| == 0 || r[|r| - 1] == '\n'
  {
    NoMarkerInJoinKept(ScanLines(log));
    JoinKept(ScanLines(log))
  }

  lemma {:induction false} NoMarkerInJoinKept(lines: seq<string>)
    requires forall k | 0 <= k < |lines| :: NoNewline(lines[k])
    ensures !Contains(JoinKept(lines), ErrorMarker)
  {
    if |lines| > 0 {
      NoMarkerInJoinKept(lines[1..]);
      if !Contains(lines[0], ErrorMarker) {
        if Contains(lines[0] + "\n" + JoinKept(lines[1..]), ErrorMarker) {
          ContainsAcrossNewline(lines[0], JoinKept(lines[1..]), ErrorMarker);
        }
      }
    }
  }

  /** Keeping one more line adds it, with its newline, at the end. */
  lemma {:induction false} JoinKeptSnoc(lines: seq<string>, x: string)
    ensures JoinKept(lines + [x]) == JoinKept(lines) + (if Contains(x, ErrorMarker) then "" else x + "\n")
  {
    if |lines| > 0 {
      assert (lines + [x])[1..] == lines[1..] + [x];
      JoinKeptSnoc(lines[1..], x);
    } else {
      assert [x][1..] == [];
    }
  }

  /** A log that ends in `PASS` after the removal still holds no marker. */
  lemma PassKeepsNoMarker(log: string)
    ensures !Contains(RemoveGHAnnotation(log) + "PASS\n", ErrorMarker)
  {
    var lines := ScanLines(log);
    assert !Contains("PASS", ErrorMarker);
    JoinKeptSnoc(lines, "PASS");
    assert "PASS" + "\n" == "PASS\n";
    NoMarkerInJoinKept(lines + ["PASS"]);
  }

  predicate NoCR(s: string) {
    forall j | 0 <= j < |s| :: s[j] != '\r'
  }

  lemma ContainsPrefix(a: string, b: string, pat: string)
    requires Contains(a, pat)
    ensures Contains(a + b, pat)
  {
    var i :| 0 <= i <= |a| - |pat| && OccursAt(a, pat, i);
    assert (a + b)[i..i + |pat|] == pat;
    assert OccursAt(a + b, pat, i);
  }

  lemma ContainsSuffix(a: string, b: string, pat: string)
    requires Contains(b, pat)
    ensures Contains(a + b, pat)
  {
    var i :| 0 <= i <= |b| - |pat| && OccursAt(b, pat, i);
    assert (a + b)[|a| + i..|a| + i + |pat|] == pat;
    assert OccursAt(a + b, pat, |a| + i);
  }

  /** A clean log, one without carriage returns and annotation lines whose
      last line is ended, comes through the removal unchanged. */
  lemma {:induction false} CleanLogUnchanged(log: string)
    requires NoCR(log) && !Contains(log, ErrorMarker)
    requires log == "" || log[|log| - 1] == '\n'
    ensures RemoveGHAnnotation(log) == log
    decreases |log|
  {
    if |log| > 0 {
      var i := IndexOfNewline(log).value;
      var line, rest := log[..i], log[i + 1..];
      CleanSplit(log, i);
      CleanLogUnchanged(rest);
      var lines := ScanLines(log);
      assert lines == [line] + ScanLines(rest);
      assert lines[0] == line && lines[1..] == ScanLines(rest);
      assert JoinKept(lines) == line + "\n" + JoinKept(ScanLines(rest));
    }
  }

  /** The first line of a clean log is a kept line, and the rest of the log
      is clean. */
  lemma CleanSplit(log: string, i: nat)
    requires NoCR(log) && !Contains(log, ErrorMarker)
    requires |log| > 0 && log[|log| - 1] == '\n'
    requires i < |log| && log[i] == '\n'
    ensures log == log[..i] + "\n" + log[i + 1..]
    ensures DropCR(log[..i]) == log[..i] && !Contains(log[..i], ErrorMarker)
    ensures NoCR(log[i + 1..]) && !Contains(log[i + 1..], ErrorMarker)
    ensures log[i + 1..] == "" || log[|log| - 1] == '\n'
  {
    var line, rest := log[..i], log[i + 1..];
    assert log == line + "\n" + rest;
    assert log == line + ("\n" + rest);
    if Contains(line, ErrorMarker) {
      ContainsPrefix(line, "\n" + rest, ErrorMarker);
    }
    if Contains(rest, ErrorMarker) {
      ContainsSuffix(line + "\n", rest, ErrorMarker);
    }
  }

  lemma {:induction false} ScanLinesNoCR(s: string)
    requires NoCR(s)
    ensures forall k | 0 <= k < |ScanLines(s)| :: NoCR(ScanLines(s)[k])
    decreases |s|
  {
    if |s| > 0 {
      match IndexOfNewline(s)
      case Some(i) =>
        var tail := s[i + 1..];
        assert NoCR(tail) by {
          assert forall j | 0 <= j < |tail| :: tail[j] == s[i + 1 + j];
        }
        ScanLinesNoCR(tail);
        var lines := ScanLines(s);
        assert lines == [DropCR(s[..i])] + ScanLines(tail);
        assert NoCR(s[..i]) by {
          assert forall j | 0 <= j < i :: s[..i][j] == s[j];
        }
        assert NoCR(lines[0]);
        assert forall k | 1 <= k < |lines| :: lines[k] == ScanLines(tail)[k - 1];
      case None =>
        assert ScanLines(s) == [DropCR(s)];
    }
  }

  lemma {:induction false} JoinKeptShape(lines: seq<string>)
    requires forall k | 0 <= k < |lines| :: NoCR(lines[k])
    ensures var t := JoinKept(lines); NoCR(t) && (t == "" || t[|t| - 1] == '\n')
  {
    if |lines| > 0 {
      JoinKeptShape(lines[1..]);
    }
  }

  /** Removing annotations twice is the same as removing them once, for a
      log without carriage returns. */
  lemma RemoveGHAnnotationIdempotent(log: string)
    requires NoCR(log)
    ensures RemoveGHAnnotation(RemoveGHAnnotation(log)) == RemoveGHAnnotation(log)
  {
    ScanLinesNoCR(log);
    JoinKeptShape(ScanLines(log));
    CleanLogUnchanged(RemoveGHAnnotation(log));
  }

  // ---------------------------------------------------------------------
  // addGHAnnotation.

  /** What the output of the most recent command is introduced by. */
  const StdoutHeader := "\n[stdout]\n"

  /** `strings.LastIndex`: the last position where `pat` occurs. */
  function LastIndexOf(s: string, pat: string): (r: Option<nat>)
    ensures r.Some? ==> OccursAt(s, pat, r.value) && forall j | r.value < j <= |s| - |pat| :: !OccursAt(s, pat, j)
    ensures r.None? ==> !Contains(s, pat)
    decreases |s|
  {
    if |s| < |pat| then None
    else if OccursAt(s, pat, |s| - |pat|) then Some(|s| - |pat|)
    else
      var init := s[..|s| - 1];
      var r := LastIndexOf(init, pat);
      assert forall j | 0 <= j <= |init| - |pat| :: OccursAt(init, pat, j) == OccursAt(s, pat, j) by {
        forall j | 0 <= j <= |init| - |pat| ensures OccursAt(init, pat, j) == OccursAt(s, pat, j) {
          assert init[j..j + |pat|] == s[j..j + |pat|];
        }
      }
      r
  }

  /** The part of the log an annotation reports: what follows the newline
      before the last `[stdout]` line, or the whole log when there is none
      (`LastIndex` gives -1, and -1 + 1 is 0). */
  function StdoutTail(log: string): (r: string)
    ensures |r| <= |log| && log[|log| - |r|..] == r
    ensures Contains(log, StdoutHeader) ==> |r| >= |StdoutHeader| - 1 && r[..|StdoutHeader| - 1] == "[stdout]\n"
    ensures !Contains(log, StdoutHeader) ==> r == log
    ensures Contains(log, StdoutHeader) ==>
              OccursAt(log, StdoutHeader, |log| - |r| - 1) && !Contains(r, StdoutHeader)
  {
    match LastIndexOf(log, StdoutHeader)
    case Some(i) =>
      assert log[i..i + |StdoutHeader|] == StdoutHeader;
      assert log[i + 1..][..|StdoutHeader| - 1] == StdoutHeader[1..];
      var r := log[i + 1..];
      assert !Contains(r, StdoutHeader) by {
        forall j | 0 <= j <= |r| - |StdoutHeader| ensures !OccursAt(r, StdoutHeader, j) {
          assert r[j..j + |StdoutHeader|] == log[i + 1 + j..i + 1 + j + |StdoutHeader|];
          assert !OccursAt(log, StdoutHeader, i + 1 + j);
        }
      }
      r
    case None => log
  }

  /** `strings.ReplaceAll` of a one-character string. */
  function ReplaceChar(s: string, c: char, rep: string): (r: string)
    ensures forall j | 0 <= j < |r| :: r[j] == c ==> c in rep
  {
    if |s| == 0 then ""
    else (if s[0] == c then rep else [s[0]]) + ReplaceChar(s[1..], c, rep)
  }

  /** The escaping GitHub Actions needs for a message that spans lines: the
      two replacements `addGHAnnotation` makes, one after the other. */
  function Escape(s: string): (r: string)
    ensures NoNewline(r) && NoCR(r)
  {
    var a := ReplaceChar(s, '\n', "%0A");
    NoCharAfterReplace(s, '\n', "%0A");
    NoCharAfterReplace(a, '\r', "%0D");
    ReplaceKeepsAbsent(a, '\r', "%0D", '\n');
    ReplaceChar(a, '\r', "%0D")
  }

  /** Reading the escapes back. */
  function Unescape(t: string): string
    decreases |t|
  {
    if |t| >= 3 && t[..3] == "%0A" then "\n" + Unescape(t[3..])
    else if |t| >= 3 && t[..3] == "%0D" then "\r" + Unescape(t[3..])
    else if |t| == 0 then ""
    else [t[0]] + Unescape(t[1..])
  }

  lemma {:induction false} EscapeCons(c: char, s: string)
    ensures Escape([c] + s) ==
              (if c == '\n' then "%0A" else if c == '\r' then "%0D" else [c]) + Escape(s)
  {
    var t := [c] + s;
    assert t[0] == c && t[1..] == s;
    var a := ReplaceChar(t, '\n', "%0A");
    assert a == (if c == '\n' then "%0A" else [c]) + ReplaceChar(s, '\n', "%0A");
    ReplaceCharAppend(if c == '\n' then "%0A" else [c], ReplaceChar(s, '\n', "%0A"), '\r', "%0D");
    if c == '\n' {
      assert ReplaceChar("%0A", '\r', "%0D") == "%0A" by {
        assert "%0A"[1..] == "0A" && "0A"[1..] == "A" && "A"[1..] == "";
      }
    } else if c == '\r' {
      assert ReplaceChar([c], '\r', "%0D") == "%0D" by { assert [c][1..] == ""; }
    } else {
      assert ReplaceChar([c], '\r', "%0D") == [c] by { assert [c][1..] == ""; }
    }
  }

  lemma {:induction false} ReplaceCharAppend(a: string, b: string, c: char, rep: string)
    ensures ReplaceChar(a + b, c, rep) == ReplaceChar(a, c, rep) + ReplaceChar(b, c, rep)
    decreases |a|
  {
    if |a| > 0 {
      assert (a + b)[0] == a[0] && (a + b)[1..] == a[1..] + b;
      ReplaceCharAppend(a[1..], b, c, rep);
    } else {
      assert a + b == b;
    }
  }

  lemma {:induction false} NoCharAfterReplace(s: string, c: char, rep: string)
    requires c !in rep
    ensures forall j | 0 <= j < |ReplaceChar(s, c, rep)| :: ReplaceChar(s, c, rep)[j] != c
  {
  }

  lemma {:induction false} ReplaceKeepsAbsent(s: string, c: char, rep: string, d: char)
    requires d !in rep && forall j | 0 <= j < |s| :: s[j] != d
    ensures forall j | 0 <= j < |ReplaceChar(s, c, rep)| :: ReplaceChar(s, c, rep)[j] != d
    decreases |s|
  {
    if |s| > 0 {
      ReplaceKeepsAbsent(s[1..], c, rep, d);
    }
  }

  /** Escaping loses nothing for text without `%`: reading the escapes back
      gives the reported output. */
  lemma {:induction false} EscapeRoundTrip(s: string)
    requires forall j | 0 <= j < |s| :: s[j] != '%'
    ensures Unescape(Escape(s)) == s
    decreases |s|
  {
    if |s| == 0 {
      assert Escape(s) == "";
    } else {
      var c, rest := s[0], s[1..];
      assert s == [c] + rest;
      EscapeCons(c, rest);
      EscapeRoundTrip(rest);
      var e := Escape(rest);
      if c == '\n' {
        assert ("%0A" + e)[..3] == "%0A" && ("%0A" + e)[3..] == e;
      } else if c == '\r' {
        assert ("%0D" + e)[..3] == "%0D" && ("%0D" + e)[3..] == e;
      } else {
        var t := [c] + e;
        assert t[0] == c && t[1..] == e;
        assert |t| >= 3 ==> t[..3][0] == c;
      }
    }
  }

  /** The path an annotation names: the part of the absolute script path
      from the `tests` directory on, when the path has a `/tests/`
      component, and the script path as given otherwise. */
  function AnnotationPath(file: string, abs: string): (r: string)
    ensures Contains(abs, "/tests/") ==> |r| >= 6 && r[..6] == "tests/"
    ensures !Contains(abs, "/tests/") ==> r == file
    ensures Contains(abs, "/tests/") ==>
              var i := |abs| - (|r| - 6) - 7;
              && OccursAt(abs, "/tests/", i)
              && !Contains(abs[..i + 6], "/tests/")
              && r[6..] == abs[i + 7..]
  {
    match FirstIndexOf(abs, "/tests/")
    case Some(i) =>
      var r := "tests/" + abs[i + 7..];
      var before := abs[..i + 6];
      assert !Contains(before, "/tests/") by {
        forall j | 0 <= j <= |before| - 7 ensures !OccursAt(before, "/tests/", j) {
          assert before[j..j + 7] == abs[j..j + 7];
          assert !OccursAt(abs, "/tests/", j);
        }
      }
      r
    case None => file
  }

  /** `strings.Index`: the first position where `pat` occurs. */
  function FirstIndexOf(s: string, pat: string): (r: Option<nat>)
    ensures r.Some? ==> OccursAt(s, pat, r.value) && forall j | 0 <= j < r.value :: !OccursAt(s, pat, j)
    ensures r.None? ==> !Contains(s, pat)
    decreases |s|
  {
    if |s| < |pat| then None
    else if OccursAt(s, pat, 0) then Some(0)
    else
      match FirstIndexOf(s[1..], pat)
      case Some(i) =>
        assert forall j | 0 <= j < i + 1 :: !OccursAt(s, pat, j) by {
          forall j | 1 <= j < i + 1 ensures !OccursAt(s, pat, j) {
            OccursShift(s, pat, j);
          }
        }
        assert s[i + 1..i + 1 + |pat|] == s[1..][i..i + |pat|];
        Some(i + 1)
      case None =>
        assert !Contains(s, pat) by {
          forall j | 1 <= j <= |s| - |pat| ensures !OccursAt(s, pat, j) {
            OccursShift(s, pat, j);
          }
        }
        None
  }

  lemma OccursShift(s: string, pat: string, j: int)
    requires 1 <= j && |s| > 0
    ensures OccursAt(s, pat, j) == OccursAt(s[1..], pat, j - 1)
  {
    if j + |pat| <= |s| {
      assert s[j..j + |pat|] == s[1..][j - 1..j - 1 + |pat|];
    }
  }

  /** The line `addGHAnnotation` prints for a failure at `lineno`. */
  function Annotation(file: string, abs: string, lineno: nat, log: string): (r: string)
    ensures |r| > |ErrorMarker| && r[|r| - 1] == '\n' && r[..|ErrorMarker|] == ErrorMarker
  {
    "::error file=" + AnnotationPath(file, abs) + ",line=" + Decimal(lineno) + "::" + Escape(StdoutTail(log)) + "\n"
  }

  /** An annotation, as long as the script path has no newline, is one
      line, and it is exactly the kind of line `removeGHAnnotation` drops. */
  lemma AnnotationIsRemoved(file: string, abs: string, lineno: nat, log: string, before: string)
    requires NoNewline(file) && NoNewline(abs)
    requires before == "" || before[|before| - 1] == '\n'
    ensures RemoveGHAnnotation(before + Annotation(file, abs, lineno, log)) == RemoveGHAnnotation(before)
  {
    var line := Annotation(file, abs, lineno, log)[..|Annotation(file, abs, lineno, log)| - 1];
    AnnotationLine(file, abs, lineno, log);
    assert Annotation(file, abs, lineno, log) == line + "\n";
    ScanLinesSnoc(before, line);
    assert OccursAt(line, ErrorMarker, 0);
    JoinKeptSnoc(ScanLines(before), line);
    assert before + Annotation(file, abs, lineno, log) == before + line + "\n";
  }

  /** The annotation without its final newline: a line with no newline,
      not ending in a carriage return, starting with the marker. */
  lemma AnnotationLine(file: string, abs: string, lineno: nat, log: string)
    requires NoNewline(file) && NoNewline(abs)
    ensures var a := Annotation(file, abs, lineno, log);
            var line := a[..|a| - 1];
            && NoNewline(line) && DropCR(line) == line && |line| >= |ErrorMarker|
            && line[..|ErrorMarker|] == ErrorMarker
  {
    var p := AnnotationPath(file, abs);
    var body := Escape(StdoutTail(log));
    var d := Decimal(lineno);
    var head := "::error file=" + p + ",line=" + d + "::";
    AnnotationHead(file, abs, d, head);
    var line := head + body;
    NoNewlineConcat(head, body);
    assert Annotation(file, abs, lineno, log) == line + "\n";
    assert (line + "\n")[..|line + "\n"| - 1] == line;
    assert line[|line| - 1] != '\r' by {
      if |body| > 0 {
        assert line[|line| - 1] == body[|body| - 1];
      } else {
        assert line[|line| - 1] == head[|head| - 1] == ':';
      }
    }
  }

  /** The part of an annotation before the message is one line ending in
      `::`. */
  lemma AnnotationHead(file: string, abs: string, d: string, head: string)
    requires NoNewline(file) && NoNewline(abs)
    requires forall j | 0 <= j < |d| :: '0' <= d[j] <= '9'
    requires head == "::error file=" + AnnotationPath(file, abs) + ",line=" + d + "::"
    ensures NoNewline(head) && |head| > 0 && head[|head| - 1] == ':'
  {
    var p := AnnotationPath(file, abs);
    AnnotationPathOneLine(file, abs);
    NoNewlineConcat("::error file=", p);
    NoNewlineConcat("::error file=" + p, ",line=");
    NoNewlineConcat("::error file=" + p + ",line=", d);
    NoNewlineConcat("::error file=" + p + ",line=" + d, "::");
  }

  lemma NoNewlineConcat(a: string, b: string)
    requires NoNewline(a) && NoNewline(b)
    ensures NoNewline(a + b)
  {
    assert forall j | |a| <= j < |a + b| :: (a + b)[j] == b[j - |a|];
  }

  lemma AnnotationPathOneLine(file: string, abs: string)
    requires NoNewline(file) && NoNewline(abs)
    ensures NoNewline(AnnotationPath(file, abs))
  {
    match FirstIndexOf(abs, "/tests/")
    case Some(i) =>
      var rest := abs[i + 7..];
      assert forall j | 0 <= j < |rest| :: rest[j] == abs[i + 7 + j];
      NoNewlineConcat("tests/", rest);
    case None =>
  }

  /** A newline at `i` with none before it is the first newline. */
  lemma FirstNewline(s: string, i: nat)
    requires i < |s| && s[i] == '\n' && NoNewline(s[..i])
    ensures IndexOfNewline(s) == Some(i)
  {
  }

  /** Scanning a log whose last line is ended, followed by one more line. */
  lemma {:induction false} ScanLinesSnoc(before: string, line: string)
    requires NoNewline(line)
    requires before == "" || before[|before| - 1] == '\n'
    ensures ScanLines(before + line + "\n") == ScanLines(before) + [DropCR(line)]
    decreases |before|
  {
    if |before| == 0 {
      ScanLinesOne(line);
      assert before + line + "\n" == line + "\n";
    } else {
      var i := IndexOfNewline(before).value;
      var rest := before[i + 1..];
      ScanLinesAppend(before, line + "\n", i);
      assert before + line + "\n" == before + (line + "\n");
      assert rest == "" || rest[|rest| - 1] == '\n' by {
        assert |rest| > 0 ==> rest[|rest| - 1] == before[|before| - 1];
      }
      ScanLinesSnoc(rest, line);
      assert rest + line + "\n" == rest + (line + "\n");
      var first, others := DropCR(before[..i]), ScanLines(rest);
      assert ScanLines(before) == [first] + others;
      assert [first] + (others + [DropCR(line)]) == [first] + others + [DropCR(line)];
    }
  }

  /** A single ended line scans to itself. */
  lemma ScanLinesOne(line: string)
    requires NoNewline(line)
    ensures ScanLines(line + "\n") == [DropCR(line)]
  {
    var t := line + "\n";
    assert t[..|line|] == line;
    ScanLinesHead(t, |line|);
    assert t[|line| + 1..] == "";
  }

  /** Text appended after the first newline leaves the first line alone. */
  lemma ScanLinesAppend(a: string, b: string, i: nat)
    requires IndexOfNewline(a) == Some(i)
    ensures ScanLines(a + b) == [DropCR(a[..i])] + ScanLines(a[i + 1..] + b)
  {
    assert (a + b)[..i] == a[..i];
    ScanLinesHead(a + b, i);
    assert (a + b)[i + 1..] == a[i + 1..] + b;
  }

  /** The first line of a text is what comes before its first newline. */
  lemma ScanLinesHead(s: string, i: nat)
    requires i < |s| && s[i] == '\n' && NoNewline(s[..i])
    ensures ScanLines(s) == [DropCR(s[..i])] + ScanLines(s[i + 1..])
  {
    FirstNewline(s, i);
  }
}

=== FILE: workdir.dfy ===
/** Paths relative to the script's current directory (`TestScript.MkAbs`)
    and reading files, where `stdout` and `stderr` name the output of the
    most recent command (`TestScript.ReadFile`).

    Paths follow Unix rules: a path is absolute when it starts with `/`.
    `filepath.Join` also cleans the joined path (removing `.`, `..` and
    doubled slashes); the model joins with a single `/` and leaves the
    cleaning out. The file system is a parameter. */
module Workdir {
  import opened Wrappers

  /** `filepath.IsAbs` on Unix. */
  predicate IsAbs(path: string) {
    |path| > 0 && path[0] == '/'
  }

  /** `MkAbs`: an absolute path as it is, a relative one under `cd`. */
  function MkAbs(cd: string, file: string): (r: string)
    ensures IsAbs(file) ==> r == file
    ensures IsAbs(cd) ==> IsAbs(r)
    ensures !IsAbs(file) ==> |r| > |cd| && r[..|cd|] == cd && r[|cd|] == '/'
    ensures |r| >= |file| && r[|r| - |file|..] == file
  {
    if IsAbs(file) then file else cd + "/" + file
  }

  /** Making a path absolute twice changes nothing, once the current
      directory is absolute. */
  lemma MkAbsIdempotent(cd: string, file: string)
    requires IsAbs(cd)
    ensures MkAbs(cd, MkAbs(cd, file)) == MkAbs(cd, file)
  {
  }

  /** What a script can read: the captured output of the last command and
      the file system, which answers an absolute path with the file's
      contents or an error. */
  datatype Files = Files(stdout: string, stderr: string, read: string -> Result<string>)

  /** `ReadFile`: the two pseudo-files come from the last command; any other
      name is made absolute and read, and a read error fails the script
      (`Check`). */
  function ReadFile(fs: Files, cd: string, file: string): (r: Result<string>)
    ensures file == "stdout" ==> r == Ok(fs.stdout)
    ensures file == "stderr" ==> r == Ok(fs.stderr)
  {
    if file == "stdout" then Ok(fs.stdout)
    else if file == "stderr" then Ok(fs.stderr)
    else fs.read(MkAbs(cd, file))
  }

  /** Outside the two pseudo-files, naming a file by its relative or by its
      absolute path reads the same thing; and no relative name reaches the
      file system. */
  lemma ReadFileSamePath(fs: Files, cd: string, file: string)
    requires IsAbs(cd) && file != "stdout" && file != "stderr"
    ensures ReadFile(fs, cd, file) == ReadFile(fs, cd, MkAbs(cd, file))
    ensures ReadFile(fs, cd, file) == fs.read(MkAbs(cd, file)) && IsAbs(MkAbs(cd, file))
  {
  }
}

=== FILE: wrappers.dfy ===
/** Failure-carrying result types shared by the modules of this project. */
module Wrappers {

  /** A value that may be absent (Go's nil map lookups and nil slices). */
  datatype Option<+T> = None | Some(value: T) {
    function GetOr(default: T): T {
      match this
      case Some(v) => v
      case None => default
    }
  }

  /** The outcome of an operation that either yields a value or reports an
      error message (Go's `(T, error)` pair, or a fatal test failure). */
  datatype Result<+T> = Ok(value: T) | Err(msg: string) {
    predicate IsFailure() {
      Err?
    }

    function PropagateFailure<U>(): Result<U>
      requires Err?
    {
      Err(msg)
    }

    function Extract(): T
      requires Ok?
    {
      value
    }
  }
}
